=== FILE: README.md ===
# OmniMind core, modelled in Dafny

This project models the core of OmniMind, which has two halves.

The first half is the React control panel:
- the node globe in the right sidebar;
- the tab/snapshot history of the centre panel;
- the console with its modality detection, suggestions, predictions and retrying send;
- the footer links;
- the results panel filters and PDF viewer;
- the upload console;
- the metrics sidebar.

The second half is the Python model services:
- the self-modifying agent and its audit store;
- the API's key, CORS and upload rules, and its job enqueueing;
- the expert router;
- the encoder dispatch;
- the FAISS id bookkeeping;
- prototype memory;
- the concept graph;
- the teacher endpoint.

There is one Dafny module per source file:

| module | file |
|---|---|
| `RightSidebar` | RightSidebar.js |
| `SelfModifyingAgent` | self_modifying_agent.py |
| `CenterPanel` | CenterPanel.js |
| `ConsolePanel` | ConsolePanel.js |
| `FooterBar` | FooterBar.js |
| `ResultsPanel` | ResultsPanel.js |
| `FileUploadConsole` | FileUploadConsole.js |
| `LeftSidebar` | LeftSidebar.js |
| `ApiMain` | main.py |
| `Encoders` | encoders.py |
| `Experts` | experts.py |
| `VectorStore` | faiss_store.py |
| `Prototypes` | proto_memory.py |
| `Concepts` | concept_graph.py |
| `Teaching` | teacher.py |

Three helper modules sit beside them:
- `Wrappers` holds Option and Result.
- `Text` holds substring tests, ASCII case folding, `strip`, `split`/`join`, and the zero-padded decimal ids together with their read-back lemma.
- `JsArray` holds JavaScript `slice` with negative indices.

Where the source changes state in place, the model is a class:
- the globe, its node objects and its instance buffers (arrays);
- the agent and its audit store;
- the console;
- the PDF viewer;
- the API service;
- the FAISS store, the prototype memory, the concept graph and the teacher.

Most methods are proved against a pure function of the old state, `State() == F(old(State()), ...)`, and the properties are then proved as lemmas about `F`. The console, FAISS store and PDF viewer methods instead state their effect on each field. React reducers and the pure rules are functions and lemmas.

Randomness, clocks, the FAISS index, networkx traversal, the sandbox and the language model become parameters, so every operation is deterministic in its inputs.

## Model

| member | source | states |
|---|---|---|
| RightSidebar.CpuPercent | services/gui/src/components/RightSidebar.js:26 | a generated CPU load is always between 10 and 90 percent |
| RightSidebar.MemPercent | services/gui/src/components/RightSidebar.js:27 | a generated memory load is always between 10 and 80 percent |
| RightSidebar.Seeded | services/gui/src/components/RightSidebar.js:15-33 | a generated node is online exactly when its status draw exceeds 0.2; it was last seen within the past hour; its loads and version digits lie in range |
| RightSidebar.TickStepBounds | services/gui/src/components/RightSidebar.js:457-467 | one tick moves phi and theta by at most 0.005 each; it only ever toggles status between online and offline; it keeps the details |
| RightSidebar.GenerateAlert | services/gui/src/components/RightSidebar.js:36-48 | a generated alert has one of the three kinds and one of the listed messages, stamped with the current time |
| RightSidebar.PushAllNewestFirst | services/gui/src/components/RightSidebar.js:471 | pushing alerts one by one equals prepending them newest first and keeping the first six |
| RightSidebar.FeedKeepsSixNewest | services/gui/src/components/RightSidebar.js:471 | after six or more alerts the feed holds exactly the six newest, newest first, and nothing older |
| RightSidebar.FindIndex | services/gui/src/components/RightSidebar.js:497-516 | the index of the first node with the id, or -1 exactly when no node has it |
| RightSidebar.FindIndexOfDistinct | services/gui/src/components/RightSidebar.js:497-516 | with distinct ids, the selected node's position is recovered exactly |
| RightSidebar.RightPressesClamp | services/gui/src/components/RightSidebar.js:497-506 | k right-arrow presses from no selection land on min(k-1, n-1): they stop at the last node |
| RightSidebar.LeftPressesClamp | services/gui/src/components/RightSidebar.js:507-516 | k left-arrow presses from no selection land on max(n-k, 0): they start at the last node and stop at the first |
| RightSidebar.FiveNodeWalk | services/gui/src/components/RightSidebar.js:497-516 | on five nodes: one right press selects the first, six presses stop at the fifth, and a left press then selects the fourth |
| RightSidebar.HoverUpdates | services/gui/src/components/RightSidebar.js:332-341 | the number of hover notifications never exceeds the number of frames |
| RightSidebar.SteadyHoverIsQuiet | services/gui/src/components/RightSidebar.js:332-341 | picking the remembered index over and over notifies nothing |
| RightSidebar.HoverSeries | services/gui/src/components/RightSidebar.js:332-341 | the picks a,a,b,b,none,a notify 3 times from hover a and 4 times from the initial empty hover |
| RightSidebar.RepositionAsWritten | services/gui/src/components/RightSidebar.js:249-281 | the mounted resize/scroll handler never moves the popover anchor |
| RightSidebar.RepositionAsWrittenLeavesStaleAnchor | services/gui/src/components/RightSidebar.js:249-281 | with a node selected and a changed view, the handler as written leaves the anchor off the node's new projection |
| RightSidebar.CreateInstancedMesh | services/gui/src/components/RightSidebar.js:94-128 | a new mesh has capacity max(1, count), every transform the identity and every colour zero |
| RightSidebar.Recreate | services/gui/src/components/RightSidebar.js:397-447 | the rebuilt mesh has capacity max(1, count); the first min(old, new) transforms and colours are copied from the old mesh; the rest keep their fresh values |
| RightSidebar.ResizeEffect | services/gui/src/components/RightSidebar.js:386-450 | the mesh is rebuilt only when max(1, count) differs from the current capacity, otherwise the same buffers stay |
| RightSidebar.Node.constructor | services/gui/src/components/RightSidebar.js:15-33 | a node is named "Node-" followed by its id and starts in the generated state |
| RightSidebar.Node.Perturb | services/gui/src/components/RightSidebar.js:457-467 | the tick updates the node object in place to the perturbed state |
| RightSidebar.NodeGlobe.constructor | services/gui/src/components/RightSidebar.js:15-58 | twelve nodes with ids 1..12, one instance per node written from it, a feed holding only the initial notice, and nothing hovered or selected |
| RightSidebar.SeedNodes | services/gui/src/components/RightSidebar.js:15-33 | node i is a new object with id i + 1 in the state its random draws give |
| RightSidebar.PlaceNodes | services/gui/src/components/RightSidebar.js:176-200 | new buffers with one slot per node; slot i holds node i's position and its online/offline hue |
| RightSidebar.NodeGlobe.WriteInstances | services/gui/src/components/RightSidebar.js:302-325 | slot i gets node i's position and its online/offline hue for every node that has a slot; other slots are untouched |
| RightSidebar.NodeGlobe.DetectHover | services/gui/src/components/RightSidebar.js:332-341 | it notifies exactly when the pick differs from the remembered one; the remembered pick and the hovered node then follow the pick |
| RightSidebar.NodeGlobe.Animate | services/gui/src/components/RightSidebar.js:294-345 | a hidden page does nothing; a visible frame writes the instances and then runs hover detection |
| RightSidebar.NodeGlobe.Tick | services/gui/src/components/RightSidebar.js:453-480 | the same node objects in the same order, each perturbed by its own draw; an alert is pushed exactly when the roll is below 0.25 |
| RightSidebar.PerturbAll | services/gui/src/components/RightSidebar.js:456-467 | each node, told apart by its id, is perturbed in place by its own draw |
| RightSidebar.NodeGlobe.Click | services/gui/src/components/RightSidebar.js:227-240 | a miss clears selection and anchor; a hit on a node selects it and anchors at its slot |
| RightSidebar.NodeGlobe.KeyDown | services/gui/src/components/RightSidebar.js:492-525 | Escape clears; right/down and left/up move the selection one step, clamped to the list; Enter selects the hovered node; any other key changes nothing |
| RightSidebar.NodeGlobe.CloseSelected | services/gui/src/components/RightSidebar.js:483-486 | closing clears selection and anchor |
| RightSidebar.NodeGlobe.Reposition | services/gui/src/components/RightSidebar.js:249-263 | after a view change the anchor follows the live selection to its node's new projection |
| SelfModifyingAgent.NaturalsParseAsFloat | services/model/self_modifying_agent.py:129-144 | every decimal numeral is accepted by `float()` |
| SelfModifyingAgent.DigitStringsParse | services/model/self_modifying_agent.py:129-144 | every non-empty digit string is accepted by `float()` |
| SelfModifyingAgent.ExponentLiteralParses | services/model/self_modifying_agent.py:129-144 | a signed literal with fraction and exponent is numeric |
| SelfModifyingAgent.NanParses | services/model/self_modifying_agent.py:129-144 | the text "NaN" is accepted by `float()` |
| SelfModifyingAgent.PyEqReflexive | services/model/self_modifying_agent.py:165 | every value equals itself, nested lists and dicts included |
| SelfModifyingAgent.NestedNumbersEqual | services/model/self_modifying_agent.py:165 | `[1] == [1.0]` and `{"a": True} == {"a": 1}` hold, so equal numbers inside containers are no conflict; a list never equals a dict |
| SelfModifyingAgent.SpecialWordParses | services/model/self_modifying_agent.py:129-144 | "inf", "infinity" and "nan" in any case are accepted by `float()` |
| SelfModifyingAgent.WordIsNotFloat | services/model/self_modifying_agent.py:129-144 | a plain word is not numeric |
| SelfModifyingAgent.LeadingLetterNotFloat | services/model/self_modifying_agent.py:129-144 | text starting with a letter other than i or n is rejected by `float()` |
| SelfModifyingAgent.LonePointIsNotFloat | services/model/self_modifying_agent.py:129-144 | a lone point and the empty string are not numeric |
| SelfModifyingAgent.BareExponentIsNotFloat | services/model/self_modifying_agent.py:129-144 | a mantissa with an empty exponent is not numeric |
| SelfModifyingAgent.DanglingExponentNotFloat | services/model/self_modifying_agent.py:129-144 | digits followed by a bare "e" are rejected by `float()` |
| SelfModifyingAgent.FirstFound | services/model/self_modifying_agent.py:44-46 | the first pattern, in list order, that occurs in the code; none exactly when no pattern occurs |
| SelfModifyingAgent.ScanSafeIff | services/model/self_modifying_agent.py:41-47 | code is accepted exactly when no dangerous pattern occurs in it (so empty code is accepted) |
| SelfModifyingAgent.ScanRejectsOsSystem | services/model/self_modifying_agent.py:27-30 | code containing `os.system(` is rejected, and the reason names that pattern |
| SelfModifyingAgent.CodeIsSafe | services/model/self_modifying_agent.py:41-47 | the scan's verdict; a rejection always has a dangerous pattern in the code |
| SelfModifyingAgent.SafeJoinStaysInside | services/model/self_modifying_agent.py:32-39 | an accepted join is the normalised root itself or a path strictly below root + "/" |
| SelfModifyingAgent.TypeCheckAcceptsIff | services/model/self_modifying_agent.py:120-147 | the adaptive type check passes exactly for a None old value, matching types, two numbers, or a string that parses as a float beside a number; a structure never changes type |
| SelfModifyingAgent.FirstFailingRule | services/model/self_modifying_agent.py:167-170 | no custom rule fails exactly when every rule passes |
| SelfModifyingAgent.CheckPassesIff | services/model/self_modifying_agent.py:149-171 | the checker passes exactly when the attr is not sensitive, approvals suffice, the type check passes, the predictor passes, the recorded old value matches the live one and every rule passes; a sensitive attr is always rejected first |
| SelfModifyingAgent.SecretIsSensitive | services/model/self_modifying_agent.py:151 | "secret" is a forbidden attr |
| SelfModifyingAgent.ApiKeyIsSensitive | services/model/self_modifying_agent.py:151 | mixed-case "API_Key" is caught case-insensitively |
| SelfModifyingAgent.MonkeyIsSensitive | services/model/self_modifying_agent.py:151 | "monkey" contains "key" and is rejected (substring match) |
| SelfModifyingAgent.LrIsNotSensitive | services/model/self_modifying_agent.py:151 | an ordinary attr such as "lr" passes the name gate |
| SelfModifyingAgent.PeerReviewPassesIff | services/model/self_modifying_agent.py:464-479 | peer review passes exactly when the update is not high-risk short of approvals and its lower-cased reason carries none of the suspicious tokens |
| SelfModifyingAgent.Logged | services/model/self_modifying_agent.py:77-85 | logging appends exactly one entry carrying the record and keeps every earlier entry |
| SelfModifyingAgent.LatestFor | services/model/self_modifying_agent.py:90-94 | the most recent entry for an update id, or none exactly when no entry has that id |
| SelfModifyingAgent.LatestAfterLog | services/model/self_modifying_agent.py:77-94 | after logging a record for an id, that record is the latest for it; other ids are unaffected |
| SelfModifyingAgent.LatestApplied | services/model/self_modifying_agent.py:779-783 | the most recent entry with status "applied", or none exactly when there is none |
| SelfModifyingAgent.AuditStore.constructor | services/model/self_modifying_agent.py:60-75 | loading keeps the well-formed lines in order and skips the rest |
| SelfModifyingAgent.AuditStore.Log | services/model/self_modifying_agent.py:77-85 | the history grows by exactly the logged entry |
| SelfModifyingAgent.AuditStore.Last | services/model/self_modifying_agent.py:87-88 | the final entry, or none exactly for an empty history |
| SelfModifyingAgent.AuditStore.Get | services/model/self_modifying_agent.py:90-94 | the latest entry for the id |
| SelfModifyingAgent.Without | services/model/self_modifying_agent.py:772-774 | removing an id keeps only entries of other ids, all drawn from the queue |
| SelfModifyingAgent.WithoutSingle | services/model/self_modifying_agent.py:772-774 | removing a queued id drops exactly that entry and keeps the others in order |
| SelfModifyingAgent.WithoutAbsent | services/model/self_modifying_agent.py:772-774 | removing an unknown id leaves the queue unchanged |
| SelfModifyingAgent.FirstWithId | services/model/self_modifying_agent.py:660-668 | the first queued update with the id, or -1 exactly when none has it |
| SelfModifyingAgent.ApplyAll | services/model/self_modifying_agent.py:745-755 | one outcome per queued update |
| SelfModifyingAgent.ApplyAllDrains | services/model/self_modifying_agent.py:745-755 | applying a snapshot of the queue removes every snapshotted id from the pending list, whatever each outcome is |
| SelfModifyingAgent.ApplyPendingDrainsQueue | services/model/self_modifying_agent.py:745-755 | after applying all pending updates, nothing is pending |
| SelfModifyingAgent.ApplyStepFrames | services/model/self_modifying_agent.py:681-743 | every path of a single apply removes the update from pending and only extends the audit log; a dry run or a refusal at review or sandbox leaves target and files alone; it reports success exactly when review passes and either the update has no code file or the sandbox run passes or offers a retry patch; a file update whose path escapes the repository still reports success with status apply_failed and leaves target and files alone |
| SelfModifyingAgent.Commit | services/model/self_modifying_agent.py:712-737 | the write phase keeps the queue and appends exactly one audit entry, keeping all earlier entries |
| SelfModifyingAgent.ApplyThenRollback | services/model/self_modifying_agent.py:757-770 | after a successful parameter apply, rolling back succeeds and restores the old value |
| SelfModifyingAgent.SuspiciousReasonIsRejected | services/model/self_modifying_agent.py:471-474 | an update whose reason mentions "curl" is rejected by review and changes no attribute |
| SelfModifyingAgent.Agent.constructor | services/model/self_modifying_agent.py:581-604 | the agent starts with an empty queue and no written files |
| SelfModifyingAgent.Agent.ProposeUpdate | services/model/self_modifying_agent.py:614-642 | one pending update with zero approvals is appended and logged, and its id is returned |
| SelfModifyingAgent.Agent.ProposeNewModule | services/model/self_modifying_agent.py:644-658 | unsafe code is refused with the scan's reason and no change; safe code is proposed as a code update |
| SelfModifyingAgent.Agent.ApproveUpdate | services/model/self_modifying_agent.py:660-668 | a known id gains exactly one approval; an unknown id changes nothing and reports false |
| SelfModifyingAgent.Agent.RemovePending | services/model/self_modifying_agent.py:772-774 | the queue loses that id; target and files are untouched |
| SelfModifyingAgent.Agent.ApplySingleUpdate | services/model/self_modifying_agent.py:681-743 | the new state and outcome are those of the apply step (review and path gates, sandbox, write, audit) |
| SelfModifyingAgent.Agent.CommitUpdate | services/model/self_modifying_agent.py:712-737 | the parameter, the file write and the audit entry match the write phase of the apply step, with status "applied" or "apply_failed" |
| SelfModifyingAgent.Agent.ApplyPendingUpdates | services/model/self_modifying_agent.py:745-755 | applying the snapshot of the queue in order, with one outcome per update |
| SelfModifyingAgent.Agent.LastApplied | services/model/self_modifying_agent.py:779-783 | the latest audit entry with status "applied" |
| SelfModifyingAgent.Agent.RollbackUpdate | services/model/self_modifying_agent.py:757-770 | succeeds only when the latest entry for the id is applied with an old value, restoring that value; otherwise no change |
| CenterPanel.NewSnapshot | services/gui/src/components/CenterPanel.js:94 | the new snapshot starts with the result, followed by the current snapshot, at most ten entries |
| CenterPanel.HandleResultBounds | services/gui/src/components/CenterPanel.js:96-102 | after a result, a tab holds at most 20 snapshots and its index is the last one |
| CenterPanel.InsertedAfterCurrent | services/gui/src/components/CenterPanel.js:96-99 | the new snapshot is inserted right after the current index; the others keep their order |
| CenterPanel.IndexLandsOnInsertedIff | services/gui/src/components/CenterPanel.js:96-102 | the index lands on the new snapshot exactly when the user was at the newest one |
| CenterPanel.ClearKeepsOlderResults | services/gui/src/components/CenterPanel.js:94 | a clear pushes an empty entry in front of the current results |
| CenterPanel.GoToSnapshotClamps | services/gui/src/components/CenterPanel.js:114-121 | navigation moves the index by the direction, clamped to the list, and keeps the snapshots |
| CenterPanel.GoToSnapshotAtEnds | services/gui/src/components/CenterPanel.js:114-121 | back at the oldest and forward at the newest change nothing |
| CenterPanel.OnDragEnd | services/gui/src/components/CenterPanel.js:160-166 | no destination keeps the order; otherwise the dragged tab lands at the destination and the result is a permutation |
| CenterPanel.MovedIsPermutation | services/gui/src/components/CenterPanel.js:160-166 | moving a tab keeps the multiset; the other tabs keep their relative order |
| CenterPanel.FilteredResults | services/gui/src/components/CenterPanel.js:193-200 | the filter returns a sub-list of the snapshot |
| CenterPanel.FilterKeepsIff | services/gui/src/components/CenterPanel.js:193-200 | a result is kept exactly when it matches the kind and category filters |
| CenterPanel.InGroupIff | services/gui/src/components/CenterPanel.js:44-52 | a group holds exactly the results of its category ("Other" when none) |
| CenterPanel.InGroupOfAbsentKey | services/gui/src/components/CenterPanel.js:44-52 | a category no result has gets no entries |
| CenterPanel.GroupByCategory | services/gui/src/components/CenterPanel.js:44-52 | fails with the push TypeError exactly when some result's category names a property every object inherits (such as "constructor"); otherwise one group per category present, each holding its results in order |
| CenterPanel.FirstInherited | services/gui/src/components/CenterPanel.js:44-52 | the first result whose category is an inherited property name, none exactly when there is no such result |
| CenterPanel.GroupAll | services/gui/src/components/CenterPanel.js:44-52 | the loop builds the grouping of all the results |
| CenterPanel.PushEntry | services/gui/src/components/CenterPanel.js:47-49 | one step creates the result's group if it is missing, then pushes the result onto it |
| CenterPanel.GroupPush | services/gui/src/components/CenterPanel.js:46-50 | one more step of the walk turns the grouping of a prefix into the grouping of the prefix plus the next result |
| CenterPanel.GroupsAreExact | services/gui/src/components/CenterPanel.js:44-52 | every result sits in the group of its own category and in no other |
| ConsolePanel.DetectModalityCases | services/gui/src/components/ConsolePanel.js:108-114 | empty input keeps the modality; otherwise audio, file or text, with text for anything without "http" |
| ConsolePanel.AudioLinkExample | services/gui/src/components/ConsolePanel.js:108-114 | a link ending in .mp3 is detected as audio |
| ConsolePanel.AppendHistoryBounded | services/gui/src/components/ConsolePanel.js:211 | history after a send is the last 19 old items plus the new one: at most 20, newest last |
| ConsolePanel.Dedup | services/gui/src/components/ConsolePanel.js:118-132 | same elements, no repeats |
| ConsolePanel.SnapshotHits | services/gui/src/components/ConsolePanel.js:124-131 | snapshot suggestions contain the input and are not equal to it |
| ConsolePanel.FuzzyHitsSound | services/gui/src/components/ConsolePanel.js:118-132 | history suggestions come from history and are accepted by the fuzzy matcher |
| ConsolePanel.SmartSuggestions | services/gui/src/components/ConsolePanel.js:118-132 | at most five distinct suggestions, each a history or snapshot hit, ordered by where each first occurs among the hits |
| ConsolePanel.FirstIndex | services/gui/src/components/ConsolePanel.js:131 | the position of the first occurrence of an item |
| ConsolePanel.DedupFirstOccurrenceOrder | services/gui/src/components/ConsolePanel.js:131 | removing repeats keeps items in the order of their first occurrence |
| ConsolePanel.Predicted | services/gui/src/components/ConsolePanel.js:134-139 | no more predictions than history items |
| ConsolePanel.PredictedFrom | services/gui/src/components/ConsolePanel.js:134-139 | every prediction is a history input containing the text |
| ConsolePanel.PredictedEmptyIff | services/gui/src/components/ConsolePanel.js:134-139 | there are no predictions exactly when no history item contains the text |
| ConsolePanel.LivePredictionsCases | services/gui/src/components/ConsolePanel.js:116 | predictions come from the last 10 items, or are exactly "No live predictions" |
| ConsolePanel.FirstSuccess | services/gui/src/components/ConsolePanel.js:189-224 | the first successful attempt among at most four, or none when all four fail |
| ConsolePanel.FirstSuccessIs | services/gui/src/components/ConsolePanel.js:189-224 | attempts stop at the first success |
| ConsolePanel.FirstSuccessNone | services/gui/src/components/ConsolePanel.js:189-224 | four failures exhaust the retries |
| ConsolePanel.Console.constructor | services/gui/src/components/ConsolePanel.js:99-102 | the console starts with the saved history, text modality and empty input |
| ConsolePanel.Console.Type | services/gui/src/components/ConsolePanel.js:108-139 | typing sets the input, re-detects the modality, and recomputes suggestions and predictions (none for empty input) |
| ConsolePanel.Console.RecallLast | services/gui/src/components/ConsolePanel.js:240 | ArrowUp sets the input to the newest history input and re-runs the input effects as typing it would (modality, suggestions, predictions); recalling the text already there changes nothing; history, retries, streak and error are untouched |
| ConsolePanel.Console.HandleSend | services/gui/src/components/ConsolePanel.js:182-226 | empty input does nothing; success appends history, clears input, retries, suggestions and predictions, and bumps the streak; four failures set the error, reset the streak and keep the suggestions |
| ConsolePanel.Console.RecordSuccess | services/gui/src/components/ConsolePanel.js:201-215 | the result goes out with the old history as context; the history gains the item; the input, suggestions and predictions clear, retries reset and the streak goes up |
| ConsolePanel.Console.RecordFailure | services/gui/src/components/ConsolePanel.js:217-222 | the retry count follows the attempts; the fourth failure sets the error and resets the streak |
| FooterBar.SplitLinksPartition | services/gui/src/components/FooterBar.js:93-97 | a non-array gives two empty lists; otherwise visible ++ overflow is the links, with visible the first maxLinks |
| FooterBar.ToggleModeFlips | services/gui/src/components/FooterBar.js:75-77 | toggling always changes the mode; on dark/light it is an involution |
| FooterBar.ModeSurvivesReload | services/gui/src/components/FooterBar.js:61-77 | a saved mode, a toggled one included, is the mode after a reload whatever the theme then says; a first mount's theme mode is kept once saved |
| FooterBar.LinkClickRule | services/gui/src/components/FooterBar.js:100-118 | a handler that returns false suppresses the default prevention; otherwise, given an event, default is prevented exactly for a link without a target (no href or "#"); a throwing handler counts as none |
| FooterBar.CreditLineOverrides | services/gui/src/components/FooterBar.js:80-81 | without labels the credit line names the product and the version; each override present replaces its part independently, and an empty override blanks its part rather than falling back |
| FooterBar.KeyActivationIsClick | services/gui/src/components/FooterBar.js:100-140 | Enter or Space on a menu item does what clicking it does, closing the menu, with the key's default always prevented; other keys leave the menu as it was |
| ResultsPanel.DropFiles | services/gui/src/components/ResultsPanel.js:161-175 | dropped previews are appended after the existing dragged files, one per file, classified by MIME |
| ResultsPanel.DroppedKinds | services/gui/src/components/ResultsPanel.js:164-174 | image/* becomes Image; every other drop lands in a kind the tab bar offers; File exactly when the MIME is none of image, audio, video, PDF or Markdown |
| ResultsPanel.KeepWhere | services/gui/src/components/ResultsPanel.js:183-191 | a result is kept exactly when it passes both the tab and the search filter |
| ResultsPanel.FilterKeepsIff | services/gui/src/components/ResultsPanel.js:183-191 | the filtered list is exactly the results and dragged files that pass both filters |
| ResultsPanel.KeepWhereAppend | services/gui/src/components/ResultsPanel.js:183-191 | filtering distributes over concatenation, so order is kept |
| ResultsPanel.EmptySearchKeeps | services/gui/src/components/ResultsPanel.js:186-190 | an empty term keeps only results that have an input or string data |
| ResultsPanel.UnlabelledOnlyUnderAll | services/gui/src/components/ResultsPanel.js:185 | an entry whose type, ignoring case, is none of the tab labels shows under "All" and under no other tab |
| ResultsPanel.OnlyUnderAllHasNoLabel | services/gui/src/components/ResultsPanel.js:185 | conversely, an entry that no tab but "All" shows has a type matching none of the labels |
| ResultsPanel.DroppedImageHasNoTab | services/gui/src/components/ResultsPanel.js:164-185 | a dropped image, of type "Image", matches no tab label, so it shows only under "All" |
| ResultsPanel.RowsFrom | services/gui/src/components/ResultsPanel.js:193-198 | one row per result, with id the result's id when truthy, else its 1-based position |
| ResultsPanel.RowPositionsDistinct | services/gui/src/components/ResultsPanel.js:193-198 | rows without ids get distinct positional ids |
| ResultsPanel.PageCount | services/gui/src/components/ResultsPanel.js:87 | the page count is capped at 5000 |
| ResultsPanel.PageMovesClamp | services/gui/src/components/ResultsPanel.js:81-82 | next and previous stay within [1, numPages] and move by one when they can |
| ResultsPanel.NextPageBeforeLoad | services/gui/src/components/ResultsPanel.js:81 | before a document loads, "next" sets the page to 0 |
| ResultsPanel.PageRange | services/gui/src/components/ResultsPanel.js:65-69 | the visited pages are exactly lo..hi |
| ResultsPanel.FilledKeepsExisting | services/gui/src/components/ResultsPanel.js:65-69 | thumbnail loading renders only missing pages in range and never replaces an existing one |
| ResultsPanel.FillRange | services/gui/src/components/ResultsPanel.js:65-69 | the loop computes the filled thumbnail map |
| ResultsPanel.PdfViewer.constructor | services/gui/src/components/ResultsPanel.js:55-75 | a viewer starts on page 1 with no pages and no thumbnails |
| ResultsPanel.PdfViewer.Next | services/gui/src/components/ResultsPanel.js:81 | moves to the next page, clamped to the count |
| ResultsPanel.PdfViewer.Prev | services/gui/src/components/ResultsPanel.js:82 | moves to the previous page, clamped to 1 |
| ResultsPanel.PdfViewer.LoadThumbnailsRange | services/gui/src/components/ResultsPanel.js:55-75 | without a file nothing happens; with a document, pages max(1,start)..min(end,cap) are filled |
| FileUploadConsole.Entries | services/gui/src/components/FileUploadConsole.js:27-36 | one entry per picked file, with id name + "-" + time |
| FileUploadConsole.AddFiles | services/gui/src/components/FileUploadConsole.js:27-49 | new entries go after the existing ones; all errors are cleared |
| FileUploadConsole.SameNameSameId | services/gui/src/components/FileUploadConsole.js:27-36 | two files of the same name picked together get the same id |
| FileUploadConsole.UploadLifecycle | services/gui/src/components/FileUploadConsole.js:53-91 | after start and finish the id is no longer in progress; other ids are unaffected |
| FileUploadConsole.FilterOut | services/gui/src/components/FileUploadConsole.js:106-118 | exactly the files with other ids remain |
| FileUploadConsole.RemoveFileFrames | services/gui/src/components/FileUploadConsole.js:106-118 | removal drops the id from files, progress and errors and leaves every other id untouched |
| FileUploadConsole.PreviewRules | services/gui/src/components/FileUploadConsole.js:121-139 | an image, video or audio MIME gets the image, video or audio preview, whatever the name; otherwise the JSON MIME or a .json name gets the JSON label, and any other file its bare name |
| FileUploadConsole.JsonByName | services/gui/src/components/FileUploadConsole.js:121-139 | a .json name without a type gets the JSON preview; an image MIME wins over the name |
| LeftSidebar.Initial | services/gui/src/components/LeftSidebar.js:112-126 | metrics start at zero, the chart empty, the API online |
| LeftSidebar.QueueBar | services/gui/src/components/LeftSidebar.js:344 | the queue bar is ten times the queue length, capped at 100 |
| LeftSidebar.FetchKeepsMissingFields | services/gui/src/components/LeftSidebar.js:156-158 | a missing or null metric keeps its previous value |
| LeftSidebar.StaleFallback | services/gui/src/components/LeftSidebar.js:173-189 | as written, the interval's fallback reverts a missing metric to the initial zero |
| LeftSidebar.ChartKeepsLastTwenty | services/gui/src/components/LeftSidebar.js:162-165 | the chart gains the newest point and keeps the last 20 |
| LeftSidebar.FetchErrorPaths | services/gui/src/components/LeftSidebar.js:152-171 | an answer sets online; no response sets offline; an HTTP error leaves online as it was; failures raise the fetch-failed message |
| LeftSidebar.InterceptorUnauthorized | services/gui/src/components/LeftSidebar.js:139-150 | 401 and 403, and only those, raise the unauthorized message |
| LeftSidebar.ActionMessages | services/gui/src/components/LeftSidebar.js:200-224 | restart and export report success or failure and leave metrics and chart alone |
| LeftSidebar.LanguageSurvivesReload | services/gui/src/components/LeftSidebar.js:228-236 | a toggled language is the language after a reload; the first toggle from a fresh start gives English |
| LeftSidebar.ToggleLanguageFlips | services/gui/src/components/LeftSidebar.js:229-237 | "ar" becomes "en" and anything else "ar" |
| ApiMain.CleanParts | services/api/main.py:38-42 | only non-empty parts remain, never more than there were |
| ApiMain.CleanPartsTidy | services/api/main.py:38-42 | for parts split on commas, every remaining part is tidy (non-empty, no white space at either end, no comma) |
| ApiMain.OriginsAreClean | services/api/main.py:38-42 | "" or "*" gives ["*"]; otherwise each origin is non-empty and trimmed |
| ApiMain.OriginsRoundTrip | services/api/main.py:38-42 | joining clean origins with commas parses back to the same list |
| ApiMain.OnlyCommasAllowNothing | services/api/main.py:38-42 | a value of only commas allows no origin at all |
| ApiMain.ApiKeyAcceptsOneValue | services/api/main.py:83-90 | exactly one header value is accepted, the configured key; a missing header never is |
| ApiMain.UploadAcceptsBySize | services/api/main.py:256-266 | acceptance depends on the size alone, and every upload no larger than an accepted one is accepted |
| ApiMain.UploadLimitIsInclusive | services/api/main.py:35 | exactly 4 MiB is accepted; one byte more is refused |
| ApiMain.TraceIdKept | services/api/main.py:207-216 | a present trace id is kept, else the new one; stamping the job with it once fixes it, so a later fallback id never replaces it |
| ApiMain.Service.constructor | services/api/main.py:33 | the service starts with an empty queue and no events |
| ApiMain.Service.TriggerConsolidation | services/api/main.py:207-216 | a wrong key is 403 with no change; otherwise exactly one job is enqueued and its trace id returned |
| ApiMain.Service.EnqueueAdmin | services/api/main.py:221-243 | a wrong key is 403; otherwise one admin job is enqueued and its trace id returned |
| ApiMain.Service.Restart | services/api/main.py:221-231 | a wrong key is 403 with queue and events unchanged; otherwise one "admin_restart" job and one "restart" event, returning the new trace id |
| ApiMain.Service.ExportLogs | services/api/main.py:234-243 | a wrong key is 403 with queue and events unchanged; otherwise one "export_logs" job and one "export_logs" event, returning the new trace id |
| ApiMain.Service.UploadFile | services/api/main.py:256-266 | a wrong key is 403; otherwise the upload rule, logging one event only on success |
| Encoders.Encode | services/model/encoders.py:9-30 | an unsupported modality or input type is an error naming the modality; an unhashable input on a supported route is the TypeError of `hash`; otherwise the input is embedded |
| Encoders.EncodeRoutes | services/model/encoders.py:9-30 | text and auto strings go to text, image to image, audio to audio, auto bytes with an image header to image and with an audio header to audio, other auto bytes fail; a list or dict under text, image or audio fails as unhashable; anything else fails naming the modality |
| Encoders.ImageHeaders | services/model/encoders.py:34-47 | JPEG and PNG headers are images; RIFF and OggS are audio; fewer than four bytes are neither |
| Encoders.NameChecksIgnoreCase | services/model/encoders.py:34-47 | the image and audio name checks give the same answer for a name and its lower-cased form |
| Encoders.EncodeBatch | services/model/encoders.py:49-50 | it succeeds exactly when every input encodes, giving one embedding per input in order; otherwise it fails with the error of a failing input |
| Experts.SelectRoutes | services/model/experts.py:51-72 | image modality or image names go to vision; "plan" to the planner; everything else to language |
| Experts.Process | services/model/experts.py:13-41 | every answer echoes the concept id; failures have confidence 0 |
| Experts.ProcessRules | services/model/experts.py:13-41 | language echoes strings at 0.95; vision accepts bytes and image names; the planner wraps strings into a plan |
| Experts.RoutedImagesAccepted | services/model/experts.py:51-72 | a request sent to vision is accepted exactly when it is bytes or has an image name, so one sent there by the modality alone can be refused; a string sent to language is accepted |
| Experts.ListActive | services/model/experts.py:74-75 | three distinct expert names |
| Experts.ListActiveNamesEveryExpert | services/model/experts.py:51-75 | the list names every expert the router can choose, and the name logged for any selection is on it |
| VectorStore.Normalize | services/model/faiss_store.py:8-11 | each component divided by the norm, so that multiplying back gives the input; a zero norm leaves the vector unchanged |
| VectorStore.Get | services/model/faiss_store.py:41-47 | a lookup fails exactly for ids not in the map |
| VectorStore.PutSpec | services/model/faiss_store.py:29-35 | adding maps the id to the proto and leaves the other mappings alone |
| VectorStore.FirstWith | services/model/faiss_store.py:49-60 | the first position mapped to the proto |
| VectorStore.RemoveFirstSpec | services/model/faiss_store.py:49-60 | removal drops only the first id mapped to the proto and is a no-op when none is |
| VectorStore.RemoveFirstKeys | services/model/faiss_store.py:49-60 | removal never adds ids |
| VectorStore.MapHitsCount | services/model/faiss_store.py:41-47 | search drops every -1 hit and maps each other hit once |
| VectorStore.AddAfterRemoveIsFresh | services/model/faiss_store.py:24-35 | an id freed by removal is never handed out again |
| VectorStore.FaissStore.constructor | services/model/faiss_store.py:71-90 | without an ids file the map is empty and the counter starts at 1 |
| VectorStore.FaissStore.GetNextId | services/model/faiss_store.py:24-27 | returns the counter and increments it |
| VectorStore.FaissStore.Add | services/model/faiss_store.py:29-35 | maps the fresh id to the proto and keeps the counter ahead of every id |
| VectorStore.FaissStore.Search | services/model/faiss_store.py:37-47 | maps hits through the id map and passes the scores through |
| VectorStore.FaissStore.Remove | services/model/faiss_store.py:49-60 | removes the first mapping to the proto and that id from the index; nothing changes when none maps to it; the counter is unchanged |
| Prototypes.ProtoIdInjective | services/model/proto_memory.py:32 | distinct counts give distinct "p_" ids |
| Prototypes.LoadMetadata | services/model/proto_memory.py:15-21 | each line is keyed by its proto id; any malformed line is an error |
| Prototypes.LoadMetadataLastWins | services/model/proto_memory.py:15-21 | a line with no later line of the same proto id is the prototype stored under that id: the last line for an id wins |
| Prototypes.AssignMissCreates | services/model/proto_memory.py:32-42 | a miss adds exactly one proto with a fresh "p_" id, count 1, and the given modality and meta |
| Prototypes.AssignHitBumps | services/model/proto_memory.py:28-31 | a hit returns the existing id, bumps its count by one and adds nothing |
| Prototypes.FreshUnderDense | services/model/proto_memory.py:32 | with dense ids, the next id is fresh |
| Prototypes.DenseAfterInsert | services/model/proto_memory.py:32-42 | inserting the next id keeps the ids dense and grows the map by one |
| Prototypes.FirstIds | services/model/proto_memory.py:32 | the first ids are p_00000 and p_00001 |
| Prototypes.ProtoMemory.constructor | services/model/proto_memory.py:7-13 | the memory holds the loaded prototypes |
| Prototypes.ProtoMemory.Assign | services/model/proto_memory.py:23-43 | the reuse-or-create outcome, where a created prototype's centroid is the normalised embedding; on creation the store maps its old counter to the new id, adds that index id and advances the counter by one; on reuse the store is unchanged |
| Concepts.ConceptIdInjective | services/model/concept_graph.py:35 | distinct counts give distinct "c_" ids |
| Concepts.AddNode | services/model/concept_graph.py:36-43 | a new node gets the attributes and joins the order; an existing node keeps its place and has the attributes merged in |
| Concepts.Merge | services/model/concept_graph.py:16-27 | an update with no attributes keeps the node's attributes; one with all of them replaces them |
| Concepts.MergeTwice | services/model/concept_graph.py:16-27 | two updates in a row equal one update with the later attributes laid over the earlier |
| Concepts.FindRef | services/model/concept_graph.py:31-32 | the first node, in insertion order, that refers to the proto |
| Concepts.FirstFree | services/model/concept_graph.py:35 | the least id at or after the count that no node uses |
| Concepts.LinkSpec | services/model/concept_graph.py:29-45 | a hit returns the referring node, touches only its timestamp and adds no node; a miss adds one new node with [proto], labels or [], the confidence and the time |
| Concepts.LinkAgreesWithoutCollision | services/model/concept_graph.py:35 | when "c_" + count is unused, the corrected link equals the code as written |
| Concepts.LinkAsWrittenCollides | services/model/concept_graph.py:35-49 | as written, a node made by a relation is overwritten by the next new concept, and the count does not grow |
| Concepts.Related | services/model/concept_graph.py:47-50 | the edge is set; both ends exist afterwards; existing data is kept |
| Concepts.QueryFilter | services/model/concept_graph.py:52-60 | keeps exactly the reached nodes whose labels meet the types, all of them when no types are given |
| Concepts.Loaded | services/model/concept_graph.py:16-27 | skips malformed lines and keys every other by its id |
| Concepts.LoadedLastWins | services/model/concept_graph.py:16-27 | a later line for a concept merges into it: the attributes it carries win, the ones it leaves out keep their values, other concepts are unchanged; a malformed line changes nothing |
| Concepts.LoadedBareLineKeepsLabels | services/model/concept_graph.py:16-27 | a bare line after a labelled one keeps the concept's refs and labels, so a query by that label still finds it |
| Concepts.ConceptGraph.constructor | services/model/concept_graph.py:9-14 | the graph is the loaded one |
| Concepts.ConceptGraph.Link | services/model/concept_graph.py:29-45 | the loop over nodes computes the corrected link |
| Concepts.ConceptGraph.AddRelation | services/model/concept_graph.py:47-50 | adds the relation |
| Concepts.ConceptGraph.Query | services/model/concept_graph.py:52-60 | the label filter over the reached nodes |
| Teaching.RelateAll | services/model/teacher.py:16-18 | relating keeps the graph well formed |
| Teaching.RelateEach | services/model/teacher.py:16-18 | the loop over the relations leaves the graph object in the state the fold over the relations describes, still well formed |
| Teaching.RelateAllLinks | services/model/teacher.py:16-18 | every relation leaves an edge from the concept to its target, and both exist |
| Teaching.RelateAllFrames | services/model/teacher.py:16-18 | relations keep existing node data and add only the concept and the targets |
| Teaching.LastRelationWins | services/model/teacher.py:16-18 | a repeated target keeps the last type and weight, with weight 1.0 by default |
| Teaching.TeachKeepsExistingLabels | services/model/teacher.py:15 | teaching a proto already linked keeps that concept's labels and adds no node |
| Teaching.TeachNewConceptLabel | services/model/teacher.py:15 | teaching a new proto creates a concept labelled with the concept label, confidence 0.5 |
| Teaching.TeacherApi.constructor | services/model/teacher.py:5-9 | holds the graph, the memory and the key |
| Teaching.TeacherApi.Teach | services/model/teacher.py:11-32 | a missing or wrong key is Forbidden with no change; otherwise assign the normalised embedding with the taught meta, link with [label], add each relation, and return both ids; a created prototype advances the store's counter by one, a reused one leaves the store unchanged |
| Teaching.ForwardedHeaders | services/api/main.py:248-251 | every raw header reaches the map under its lower-cased name |
| Teaching.FirstNameWins | services/api/main.py:248-251 | a repeated name keeps the value of its first occurrence |
| Teaching.UnsentNameAbsent | services/api/main.py:248-251 | a name that no raw header lower-cases to is not in the map |
| Teaching.ForwardedNamesLower | services/api/main.py:248-251 | every forwarded name is lower-case |
| Teaching.ForwardedFromRaw | services/api/main.py:248-251 | every forwarded value came from a raw header of that name |
| Teaching.TeachOverHttpForbidden | services/model/teacher.py:11-13 | as written, every request through the endpoint is refused, whatever key it carries |
| Teaching.ForwardedKeyAccepted | services/model/teacher.py:11-13 | with the lower-cased lookup, a request whose first key header, in any case, carries the key is accepted |
| Teaching.RepeatedKeyHeaderFirstWins | services/model/teacher.py:11-13 | a wrong key sent before the right one is what the lookup sees, so the request is refused |
| Teaching.ForwardedKeyCarried | services/model/teacher.py:11-13 | with the lower-cased lookup, an accepted request carried the key in a header of that name |

## Left out

- I/O is not modelled: the JSONL files written by `_dump_all`, the audit and memory-log appends, localStorage, uploaded-file writes and the FAISS index files. Loading takes the already-parsed lines as input.
- Locks and threads are not modelled. `concept_graph.py` acquires its non-reentrant lock again inside `_dump_all` while `link` and `add_relation` hold it (lines 30, 44, 48-50, 63). The model treats each call as completing.
- Randomness is a parameter: `Math.random`, `uuid` and `random.choice`. So are clocks (`now`).
- three.js rendering, the camera and NDC projection, raycasting, OrbitControls, timers and DOM listeners are not modelled. Positions and projections are the parameters `pos` and `project`.
- The FAISS index itself is an oracle: `hits` and `sims`/`dists` are inputs. networkx BFS is an oracle too: `reached` is an input, and a query from an unknown node, which raises, is not modelled.
- The concept graph's `provenance` attribute and `checkpoint` are not modelled. Neither is the embedding passed to `link`, which `link` ignores.
- Teaching.TeacherApi.Teach: a bundle without "embedding" or "modality" and a relation without "to" or "type" raise `KeyError` in the source (teacher.py:14 and 18), the latter after `assign` and `link` have already changed the memory and the graph; the model takes the bundle and the relations as typed values, so these errors and that partial state are not modelled.
- Teaching.TeacherApi.Teach: `teacher_id` and `trace_id` only go into the memory log, which is not modelled. The header map is a parameter; what the HTTP endpoint passes is modelled by `ForwardedHeaders` (see Findings).
- HTTP transport and axios are not modelled. Neither are upload progress percentages, `buttonsDisabled` and `loadingThumbs` timers, or the `[AI-Enhanced]` button.
- Python `lower` and `strip` and JavaScript `toLowerCase` are modelled on ASCII characters only: non-ASCII white space and letters are left as they are.
- fuzzysort is an oracle: `fuzzy` is a parameter.
- CenterPanel.OnDragEnd: requires the drag indices to be in range, as the drag library guarantees.
- Non-numeric tab keys and the nested snapshot structure are not modelled; snapshots are flat result lists.
- Prototypes.ProtoMemory.constructor takes the loaded map. `LoadMetadata` returns an error where the Python raises on a malformed line.
- Prototypes.AssignMissCreates requires the dense-id invariant: the ids are p_00000.. p_(n-1), which holds for maps that `assign` alone has built.
- The `search` passthrough of `proto_memory.py` is not modelled.
- `RiskScorer`, auto-documentation, git, the subprocess sandbox, the language-model patcher, `apply_best_pending_batch`, `SelfHealingRollback` and the thread pool of the agent are not modelled. Sandbox runs and model verdicts are inputs.
- SelfModifyingAgent.Agent.ApplySingleUpdate follows the code where its documentation says more:
  - forbidden attrs are not re-checked at apply time;
  - the repository path check happens only at apply time;
  - a patched code update writes the original code.
- SelfModifyingAgent.FirstFailingRule: custom rules are total functions; a rule that raises is not modelled.
- ApiMain.Upload: the size guard is modelled as the code has it, at 4 MiB. An integration test uploads 50 MiB, which the code refuses.
- VectorStore.FaissStore: `save` (faiss_store.py:62-65) only writes files, which is not modelled; the constructor takes what `_load` reads. `ProtoMemory.save` and `load`, which tests/test_faiss_persistence.py:13,17 call, do not exist in proto_memory.py.

- SelfModifyingAgent.ParsesAsFloat: digit groups with underscores ("1_000") and non-ASCII decimal digits, both of which `float()` accepts, are not accepted.
- SelfModifyingAgent.TypeCheckAcceptsIff: inherits the ParsesAsFloat gap, so a string such as "1_000" beside a number is reported unsafe where the source coerces it.
- SelfModifyingAgent.CheckPassesIff: inherits the same ParsesAsFloat gap through the type check.
- SelfModifyingAgent.PyEq: floats are reals, so NaN and the infinities are not values; `nan != nan` and the NaN that NanParses accepts have no value counterpart.
- VectorStore.Normalize: the norm is a parameter that must square to the sum of squares (no square root is computed), and float32 rounding is not modelled, so unit length is not stated.
- Concepts.AddNode: only the four attributes `link` writes are modelled per key; other attributes of a loaded line are dropped.

## Findings

| source | as written | input that shows it | evidently intended | confidence | as-written member | corrected member |
|---|---|---|---|---|---|---|
| services/gui/src/components/RightSidebar.js:249-281 | the resize and scroll handlers are created once at mount and read the selection captured then, which is empty | select a node, then resize or scroll the view | the popover follows the selected node to its new projection | high, not executed | RightSidebar.RepositionAsWrittenLeavesStaleAnchor | RightSidebar.NodeGlobe.Reposition |
| services/gui/src/components/LeftSidebar.js:156-158 | the interval's fetch falls back to the metrics captured when the interval was set, the initial zeros | a reply with all metrics, then a reply missing cpu | a missing metric keeps its previous value | high, not executed | LeftSidebar.StaleFallback | LeftSidebar.FetchKeepsMissingFields |
| services/model/concept_graph.py:35 | the new concept id is "c_" + node count, but a node with that id may already exist, loaded from the saved graph or created by `add_relation` (lines 47-49) | start from a saved graph holding c_00000 (referring to p_00000) and a bare c_00002, then link p_00001: it names its concept c_00002 and takes that node over instead of adding one (the call then blocks in `_dump_all`, which re-acquires the non-reentrant lock, lines 30, 44, 63) | a fresh id; the node count grows by one | high, not executed | Concepts.LinkAsWrittenCollides | Concepts.LinkSpec |
| services/model/teacher.py:11-13 | the teacher looks up the header "X-API-KEY", but the endpoint (services/api/main.py:248-251) passes `dict(request.headers)`, whose names the HTTP layer has lower-cased | POST /teacher/teach with the header X-API-KEY set to the configured key | a request carrying the key is accepted | high, not executed | Teaching.TeachOverHttpForbidden | Teaching.ForwardedKeyAccepted |

=== FILE: api_main.dfy ===
/** The HTTP service's own rules: the CORS origin list read from the environment, the API-key
    gate, the upload size limit, and the endpoints that put jobs on the worker queue. */
module ApiMain {
  import opened Wrappers
  import opened Text

  // ---------------------------------------------------------------- CORS origins

  /** The comprehension `[o.strip() for o in parts if o.strip()]`. */
  function CleanParts(parts: seq<string>): (r: seq<string>)
    ensures |r| <= |parts|
    ensures forall k :: 0 <= k < |r| ==> r[k] != ""
  {
    if parts == [] then []
    else
      var rest := CleanParts(parts[1..]);
      if Strip(parts[0]) != "" then [Strip(parts[0])] + rest else rest
  }

  /** The allowed origins for the raw `CORS_ALLOW_ORIGINS` value. */
  function ParseOrigins(raw: string): (origins: seq<string>)
  {
    var r := Strip(raw);
    if r == "" || r == "*" then ["*"] else CleanParts(Split(r, ','))
  }

  /** An origin as the parser leaves it: non-empty, without a comma, without white space at
      either end. */
  predicate Tidy(o: string)
  {
    o != "" && ',' !in o && !IsSpace(o[0]) && !IsSpace(o[|o| - 1])
  }

  /** Blank or "*" allows every origin; otherwise every origin listed is tidy. */
  lemma OriginsAreClean(raw: string)
    ensures Strip(raw) == "" || Strip(raw) == "*" ==> ParseOrigins(raw) == ["*"]
    ensures forall k :: 0 <= k < |ParseOrigins(raw)| ==> Tidy(ParseOrigins(raw)[k])
  {
    var r := Strip(raw);
    if r != "" && r != "*" {
      ParseOriginsList(raw);
      CleanPartsTidy(Split(r, ','));
    } else {
      StarIsTidy();
    }
  }

  lemma ParseOriginsList(raw: string)
    requires Strip(raw) != "" && Strip(raw) != "*"
    ensures ParseOrigins(raw) == CleanParts(Split(Strip(raw), ','))
  {
  }

  lemma StarIsTidy()
    ensures Tidy("*")
  {
  }

  /** Parts without a comma clean up into tidy origins. */
  lemma {:induction false} CleanPartsTidy(parts: seq<string>)
    requires forall j :: 0 <= j < |parts| ==> ',' !in parts[j]
    ensures forall k :: 0 <= k < |CleanParts(parts)| ==> Tidy(CleanParts(parts)[k])
    decreases |parts|
  {
    if parts != [] {
      CleanPartsTidy(parts[1..]);
      var h := Strip(parts[0]);
      if h != "" {
        StripTidy(parts[0]);
        TidyCons(h, CleanParts(parts[1..]));
      }
    }
  }

  /** The strip of a part without a comma is tidy unless it is empty. */
  lemma StripTidy(s: string)
    requires ',' !in s && Strip(s) != ""
    ensures Tidy(Strip(s))
  {
    StripKeepsOut(s, ',');
    StripEnds(s);
  }

  lemma TidyCons(h: string, rest: seq<string>)
    requires Tidy(h) && forall k :: 0 <= k < |rest| ==> Tidy(rest[k])
    ensures forall k :: 0 <= k < |[h] + rest| ==> Tidy(([h] + rest)[k])
  {
  }

  /** A non-empty strip starts and ends with a non-space character. */
  lemma StripEnds(s: string)
    requires Strip(s) != ""
    ensures !IsSpace(Strip(s)[0]) && !IsSpace(Strip(s)[|Strip(s)| - 1])
  {
    var l := StripLeft(s);
    var r := StripRight(l);
    assert r[0] == l[0];
  }

  lemma StripKeepsOut(s: string, c: char)
    requires c !in s
    ensures c !in Strip(s)
  {
    var l := StripLeft(s);
    assert forall x :: x in l ==> x in s;
    var r := StripRight(l);
    assert forall x :: x in r ==> x in l;
  }

  /** A list of origins written out with commas reads back as the same list (the single entry
      "*" stands for "every origin" instead). */
  lemma OriginsRoundTrip(origins: seq<string>)
    requires |origins| >= 1 && origins != ["*"]
    requires forall k :: 0 <= k < |origins| ==> Tidy(origins[k])
    ensures ParseOrigins(Join(origins, ',')) == origins
  {
    var raw := Join(origins, ',');
    JoinEnds(origins, ',');
    assert Strip(raw) == raw by { StripUnchanged(raw); }
    JoinNotStar(origins);
    assert Split(raw, ',') == origins by { SplitJoin(origins, ','); }
    assert CleanParts(origins) == origins by { CleanKeeps(origins); }
  }

  lemma JoinNotStar(origins: seq<string>)
    requires |origins| >= 1 && origins != ["*"] && origins[0] != ""
    ensures Join(origins, ',') != "*"
  {
    if |origins| == 1 {
      assert origins == [origins[0]];
    } else {
      assert |Join(origins, ',')| >= |origins[0]| + 1;
    }
  }

  lemma {:induction false} JoinEnds(parts: seq<string>, sep: char)
    requires |parts| >= 1 && forall k :: 0 <= k < |parts| ==> parts[k] != ""
    ensures |Join(parts, sep)| >= |parts[0]|
    ensures Join(parts, sep)[..|parts[0]|] == parts[0]
    ensures Join(parts, sep)[|Join(parts, sep)| - 1] == parts[|parts| - 1][|parts[|parts| - 1]| - 1]
    decreases |parts|
  {
    if |parts| > 1 {
      JoinEnds(parts[1..], sep);
    }
  }

  lemma {:induction false} CleanKeeps(parts: seq<string>)
    requires forall k :: 0 <= k < |parts| ==>
      parts[k] != "" && !IsSpace(parts[k][0]) && !IsSpace(parts[k][|parts[k]| - 1])
    ensures CleanParts(parts) == parts
    decreases |parts|
  {
    if parts != [] {
      assert Strip(parts[0]) == parts[0] by { StripUnchanged(parts[0]); }
      CleanKeeps(parts[1..]);
      assert parts == [parts[0]] + parts[1..];
    }
  }

  /** A value made only of commas allows no origin at all. */
  lemma OnlyCommasAllowNothing()
    ensures ParseOrigins(",") == []
  {
    StripUnchanged(",");
    assert Split(",", ',') == ["", ""];
    assert CleanParts(["", ""]) == CleanParts([""]);
  }

  // ---------------------------------------------------------------- guards

  const DefaultApiKey := "changeme"
  const DefaultMaxUploadSize := 4 * 1024 * 1024

  /** `get_api_key`: anything but the configured key, a missing header included, is refused
      with 403. */
  function CheckApiKey(header: Option<string>, apiKey: string): (r: Result<string, nat>)
    ensures r.Ok? <==> header == Some(apiKey)
    ensures r.Ok? ==> r.value == apiKey
    ensures r.Err? ==> r.error == 403
  {
    if header != Some(apiKey) then Err(403) else Ok(header.value)
  }

  /** The saved name and size an accepted upload reports. */
  datatype Saved = Saved(savedAs: string, size: nat)

  /** `upload_file` after the key gate: more than `maxSize` bytes is refused with 413; otherwise
      the contents are stored under a new name and their length is reported. */
  function Upload(size: nat, filename: string, hex: string, maxSize: nat): (r: Result<Saved, nat>)
    ensures r.Err? <==> size > maxSize
    ensures r.Err? ==> r.error == 413
    ensures r.Ok? ==> r.value.size == size && r.value.savedAs == "data/uploads/" + hex + "_" + filename
  {
    if size > maxSize then Err(413) else Ok(Saved("data/uploads/" + hex + "_" + filename, size))
  }

  /** Exactly one header value gets through, the configured key; a missing header never does. */
  lemma ApiKeyAcceptsOneValue(h1: Option<string>, h2: Option<string>, apiKey: string)
    ensures CheckApiKey(h1, apiKey).Ok? && CheckApiKey(h2, apiKey).Ok? ==> h1 == h2
    ensures CheckApiKey(Some(apiKey), apiKey).Ok? && CheckApiKey(None, apiKey).Err?
  {
  }

  /** Whether an upload is accepted depends on its size alone, and every upload no larger than
      an accepted one is accepted too. */
  lemma UploadAcceptsBySize(size: nat, smaller: nat, f1: string, f2: string, h1: string, h2: string, maxSize: nat)
    ensures Upload(size, f1, h1, maxSize).Ok? <==> Upload(size, f2, h2, maxSize).Ok?
    ensures Upload(size, f1, h1, maxSize).Ok? && smaller <= size ==> Upload(smaller, f2, h2, maxSize).Ok?
  {
  }

  lemma UploadLimitIsInclusive()
    ensures Upload(DefaultMaxUploadSize, "f", "0", DefaultMaxUploadSize).Ok?
    ensures Upload(DefaultMaxUploadSize + 1, "f", "0", DefaultMaxUploadSize) == Err(413)
  {
  }

  // ---------------------------------------------------------------- job queue

  /** A job put on the worker queue: a dictionary of strings. */
  type Job = map<string, string>

  /** A reply of the administrative endpoints. */
  datatype AdminReply = AdminReply(status: string, message: string, traceId: string)

  /** `job.get("trace_id") or <new id>`. */
  function TraceIdOf(job: Job, newId: string): string
  {
    if "trace_id" in job && job["trace_id"] != "" then job["trace_id"] else newId
  }

  /** The service's queue of jobs for the consolidation worker and the events it logs. */
  class Service {
    const apiKey: string
    var queue: seq<Job>
    var events: seq<(string, string)>

    constructor (apiKey: string)
      ensures this.apiKey == apiKey && queue == [] && events == []
    {
      this.apiKey := apiKey;
      queue := [];
      events := [];
    }

    /** `trigger_consolidation`: keeps a non-empty trace id, otherwise assigns `newId`; enqueues
        exactly that job and answers with its trace id. */
    method TriggerConsolidation(header: Option<string>, job: Job, newId: string) returns (r: Result<string, nat>)
      modifies this
      ensures CheckApiKey(header, apiKey).Err? ==> r == Err(403) && queue == old(queue) && events == old(events)
      ensures CheckApiKey(header, apiKey).Ok? ==>
        r == Ok(TraceIdOf(job, newId))
        && queue == old(queue) + [job["trace_id" := TraceIdOf(job, newId)]]
        && events == old(events) + [("consolidation_trigger", TraceIdOf(job, newId))]
    {
      var gate := CheckApiKey(header, apiKey);
      if gate.Err? {
        return Err(gate.error);
      }
      var traceId := if "trace_id" in job && job["trace_id"] != "" then job["trace_id"] else newId;
      var stamped := job["trace_id" := traceId];
      queue := queue + [stamped];
      events := events + [("consolidation_trigger", traceId)];
      r := Ok(stamped["trace_id"]);
    }

    /** `restart_worker` and `export_logs`: one job of the given type with a new trace id. */
    method EnqueueAdmin(header: Option<string>, kind: string, cmd: string, message: string, newId: string)
      returns (r: Result<AdminReply, nat>)
      modifies this
      ensures CheckApiKey(header, apiKey).Err? ==> r == Err(403) && queue == old(queue) && events == old(events)
      ensures CheckApiKey(header, apiKey).Ok? ==>
        r == Ok(AdminReply("ok", message, newId))
        && queue == old(queue) + [map["type" := kind, "trace_id" := newId]]
        && events == old(events) + [("admin_command", cmd)]
    {
      var gate := CheckApiKey(header, apiKey);
      if gate.Err? {
        return Err(gate.error);
      }
      var job := map["type" := kind, "trace_id" := newId];
      queue := queue + [job];
      events := events + [("admin_command", cmd)];
      r := Ok(AdminReply("ok", message, job["trace_id"]));
    }

    method Restart(header: Option<string>, newId: string) returns (r: Result<AdminReply, nat>)
      modifies this
      ensures CheckApiKey(header, apiKey).Err? ==> r == Err(403) && queue == old(queue) && events == old(events)
      ensures CheckApiKey(header, apiKey).Ok? ==>
        r == Ok(AdminReply("ok", "restart enqueued", newId))
        && queue == old(queue) + [map["type" := "admin_restart", "trace_id" := newId]]
        && events == old(events) + [("admin_command", "restart")]
    {
      r := EnqueueAdmin(header, "admin_restart", "restart", "restart enqueued", newId);
    }

    method ExportLogs(header: Option<string>, newId: string) returns (r: Result<AdminReply, nat>)
      modifies this
      ensures CheckApiKey(header, apiKey).Err? ==> r == Err(403) && queue == old(queue) && events == old(events)
      ensures CheckApiKey(header, apiKey).Ok? ==>
        r == Ok(AdminReply("ok", "export started", newId))
        && queue == old(queue) + [map["type" := "export_logs", "trace_id" := newId]]
        && events == old(events) + [("admin_command", "export_logs")]
    {
      r := EnqueueAdmin(header, "export_logs", "export_logs", "export started", newId);
    }

    /** `upload_file`, key gate first, then the size guard; an accepted upload logs its size. */
    method UploadFile(header: Option<string>, size: nat, filename: string, hex: string, maxSize: nat)
      returns (r: Result<Saved, nat>)
      modifies this
      ensures queue == old(queue)
      ensures CheckApiKey(header, apiKey).Err? ==> r == Err(403) && events == old(events)
      ensures CheckApiKey(header, apiKey).Ok? ==> r == Upload(size, filename, hex, maxSize)
      ensures r.Ok? ==> events == old(events) + [("file_upload", r.value.savedAs)]
      ensures r.Err? ==> events == old(events)
    {
      var gate := CheckApiKey(header, apiKey);
      if gate.Err? {
        return Err(gate.error);
      }
      r := Upload(size, filename, hex, maxSize);
      if r.Ok? {
        events := events + [("file_upload", r.value.savedAs)];
      }
    }
  }

  /** A present trace id survives; a missing or empty one is replaced by the new one. Stamping
      is idempotent: a stamped job sent again keeps its trace id whatever new id is drawn. */
  lemma TraceIdKept(job: Job, newId: string)
    ensures "trace_id" in job && job["trace_id"] != "" ==> TraceIdOf(job, newId) == job["trace_id"]
    ensures ("trace_id" !in job || job["trace_id"] == "") ==> TraceIdOf(job, newId) == newId
    ensures TraceIdOf(job, newId) != "" || newId == ""
    ensures newId != "" ==>
      var stamped := job["trace_id" := TraceIdOf(job, newId)];
      forall other :: TraceIdOf(stamped, other) == TraceIdOf(job, newId)
                      && stamped["trace_id" := TraceIdOf(stamped, other)] == stamped
  {
  }
}

=== FILE: center_panel.dfy ===
/** The centre panel's per-tab result history ("time travel"): each tab keeps a list of
    snapshots (lists of results) and a current index; a new result makes a new snapshot from
    the current one; the arrows move the index; the tabs can be reordered by dragging; the
    current snapshot is filtered and grouped by category for display. */
module CenterPanel {
  import opened Wrappers
  import opened JsArray

  /** A result as the panel sees it: a record with a type and a category ("" when absent), or
      the empty array the "clear" action passes. */
  datatype Entry = Item(kind: string, category: string, body: string) | EmptyArray

  function KindOf(e: Entry): string { if e.Item? then e.kind else "" }

  function CategoryOf(e: Entry): string { if e.Item? then e.category else "" }

  type Snapshot = seq<Entry>

  const SnapshotCap := 10
  const MaxSnapshots := 20

  /** One tab's history: its snapshots and the index of the current one (which may lie outside
      the list, e.g. -1 after moving on an empty list). */
  datatype TabHistory = TabHistory(snaps: seq<Snapshot>, index: int)

  /** `snapshots[tab][index] || []`. */
  function Current(h: TabHistory): Snapshot
  {
    if 0 <= h.index < |h.snaps| then h.snaps[h.index] else []
  }

  /** The snapshot `handleResult` builds: the result, then the current snapshot, at most ten. */
  function NewSnapshot(h: TabHistory, res: Entry): (s: Snapshot)
    ensures 1 <= |s| <= SnapshotCap && s[0] == res
    ensures s[1..] == if |Current(h)| < SnapshotCap then Current(h) else Current(h)[..SnapshotCap - 1]
  {
    Slice([res] + Current(h), 0, SnapshotCap)
  }

  /** The list before the cap: the new snapshot inserted right after the current index. */
  function Inserted(h: TabHistory, res: Entry): seq<Snapshot>
  {
    Slice(h.snaps, 0, h.index + 1) + [NewSnapshot(h, res)] + SliceFrom(h.snaps, h.index + 1)
  }

  /** `handleResult`: insert the new snapshot after the current one, keep the last twenty, and
      point the index at the last one. */
  function HandleResult(h: TabHistory, res: Entry): TabHistory
  {
    var all := Inserted(h, res);
    var kept := SliceFrom(all, -MaxSnapshots);
    TabHistory(kept, |kept| - 1)
  }

  /** The history never exceeds twenty snapshots and the index lands on the last one. */
  lemma HandleResultBounds(h: TabHistory, res: Entry)
    ensures var r := HandleResult(h, res);
      1 <= |r.snaps| <= MaxSnapshots && r.index == |r.snaps| - 1
      && r.snaps == if |Inserted(h, res)| <= MaxSnapshots then Inserted(h, res)
                    else Inserted(h, res)[|Inserted(h, res)| - MaxSnapshots..]
  {
    TailWindow(Inserted(h, res), MaxSnapshots);
  }

  /** From a valid index, the new snapshot sits right after the current one, with the earlier
      and later snapshots kept in order around it. */
  lemma InsertedAfterCurrent(h: TabHistory, res: Entry)
    requires 0 <= h.index < |h.snaps|
    ensures Inserted(h, res) == h.snaps[..h.index + 1] + [NewSnapshot(h, res)] + h.snaps[h.index + 1..]
    ensures NewSnapshot(h, res)[0] == res
  {
  }

  /** From a valid index and below the cap, the new current snapshot is the inserted one exactly
      when the previous index was the last; otherwise the view jumps to the last snapshot. */
  lemma IndexLandsOnInsertedIff(h: TabHistory, res: Entry)
    requires 0 <= h.index < |h.snaps| < MaxSnapshots
    ensures HandleResult(h, res).index == h.index + 1 <==> h.index == |h.snaps| - 1
    ensures Current(HandleResult(h, res)) == if h.index == |h.snaps| - 1 then NewSnapshot(h, res) else h.snaps[|h.snaps| - 1]
  {
    HandleBelowCap(h, res);
    InsertedLast(h, res);
    var r := HandleResult(h, res);
    assert r.index == |h.snaps|;
    assert Current(r) == r.snaps[|h.snaps|];
  }

  /** Below the cap nothing is dropped: the index is the old length. */
  lemma HandleBelowCap(h: TabHistory, res: Entry)
    requires 0 <= h.index < |h.snaps| < MaxSnapshots
    ensures |Inserted(h, res)| == |h.snaps| + 1
    ensures HandleResult(h, res).snaps == Inserted(h, res)
    ensures HandleResult(h, res).index == |h.snaps|
  {
    InsertedAfterCurrent(h, res);
    TailWindow(Inserted(h, res), MaxSnapshots);
  }

  /** The last snapshot after the insertion: the new one when it went to the end. */
  lemma InsertedLast(h: TabHistory, res: Entry)
    requires 0 <= h.index < |h.snaps|
    ensures |Inserted(h, res)| == |h.snaps| + 1
    ensures Inserted(h, res)[|h.snaps|] == if h.index == |h.snaps| - 1 then NewSnapshot(h, res) else h.snaps[|h.snaps| - 1]
  {
    InsertedAfterCurrent(h, res);
    var after := h.snaps[h.index + 1..];
    if h.index < |h.snaps| - 1 {
      assert after[|after| - 1] == h.snaps[|h.snaps| - 1];
    }
  }

  /** The "clear" button adds a snapshot headed by an empty array: the older results stay. */
  lemma ClearKeepsOlderResults(h: TabHistory)
    requires 0 <= h.index < |h.snaps| && 0 < |h.snaps[h.index]| < SnapshotCap
    ensures NewSnapshot(h, EmptyArray) == [EmptyArray] + h.snaps[h.index]
  {
  }

  /** `goToSnapshot`: move by `direction`, clamped to `[0, length - 1]` (which is -1 for an empty
      list). */
  function GoToSnapshot(h: TabHistory, direction: int): TabHistory
  {
    h.(index := Min(Max(h.index + direction, 0), |h.snaps| - 1))
  }

  /** On a non-empty list the index always lands inside it, moving by one step when it can; on an
      empty list it becomes -1. */
  lemma GoToSnapshotClamps(h: TabHistory, direction: int)
    ensures var i := GoToSnapshot(h, direction).index;
      (|h.snaps| > 0 ==> 0 <= i < |h.snaps|)
      && (|h.snaps| == 0 ==> i == -1)
      && (0 <= h.index + direction < |h.snaps| ==> i == h.index + direction)
    ensures GoToSnapshot(h, direction).snaps == h.snaps
  {
  }

  /** Pressing "back" at the first snapshot and "forward" at the last change nothing. */
  lemma GoToSnapshotAtEnds(h: TabHistory)
    requires |h.snaps| > 0
    ensures h.index == 0 ==> GoToSnapshot(h, -1) == h
    ensures h.index == |h.snaps| - 1 ==> GoToSnapshot(h, 1) == h
  {
  }

  // ---------------------------------------------------------------- tab reordering

  /** `order` with element `src` moved to position `dst` (of the list without it). */
  function Moved<T>(order: seq<T>, src: nat, dst: nat): seq<T>
    requires src < |order| && dst < |order|
  {
    var rest := order[..src] + order[src + 1..];
    rest[..dst] + [order[src]] + rest[dst..]
  }

  /** `onDragEnd`: no destination keeps the order; otherwise the dragged tab is spliced out of a
      copy and spliced back in at the destination. The drag library reports indices of the
      current list. */
  method OnDragEnd<T>(order: seq<T>, drag: Option<(nat, nat)>) returns (r: seq<T>)
    requires drag.Some? ==> drag.value.0 < |order| && drag.value.1 < |order|
    ensures drag.None? ==> r == order
    ensures drag.Some? ==> r == Moved(order, drag.value.0, drag.value.1)
    ensures multiset(r) == multiset(order)
    ensures drag.Some? ==> r[drag.value.1] == order[drag.value.0]
  {
    if drag.None? {
      return order;
    }
    var (src, dst) := drag.value;
    var reordered := order;
    var removed := reordered[src];
    reordered := reordered[..src] + reordered[src + 1..];
    reordered := reordered[..dst] + [removed] + reordered[dst..];
    MovedIsPermutation(order, src, dst);
    return reordered;
  }

  /** A move is a permutation that puts the dragged tab at the destination and keeps the other
      tabs in their relative order. */
  lemma MovedIsPermutation<T>(order: seq<T>, src: nat, dst: nat)
    requires src < |order| && dst < |order|
    ensures |Moved(order, src, dst)| == |order|
    ensures multiset(Moved(order, src, dst)) == multiset(order)
    ensures Moved(order, src, dst)[dst] == order[src]
    ensures var m := Moved(order, src, dst); m[..dst] + m[dst + 1..] == order[..src] + order[src + 1..]
  {
    var rest := order[..src] + order[src + 1..];
    var m := Moved(order, src, dst);
    assert order == order[..src] + [order[src]] + order[src + 1..];
    assert rest == rest[..dst] + rest[dst..];
    assert m[..dst] == rest[..dst];
    assert m[dst + 1..] == rest[dst..];
    calc {
      multiset(m);
      multiset(rest[..dst]) + multiset([order[src]]) + multiset(rest[dst..]);
      multiset(rest) + multiset([order[src]]);
      multiset(order[..src]) + multiset(order[src + 1..]) + multiset([order[src]]);
      multiset(order);
    }
  }

  // ---------------------------------------------------------------- filtering and grouping

  /** A tab's filters; "" means the filter is not set. */
  datatype Filters = Filters(kind: string, category: string)

  /** The filter over the current snapshot: a set type or category must match exactly. */
  function FilteredResults(rs: Snapshot, f: Filters): (r: Snapshot)
    ensures |r| <= |rs|
    ensures forall i :: 0 <= i < |r| ==> r[i] in rs
  {
    if rs == [] then []
    else
      var keep := (f.kind == "" || KindOf(rs[0]) == f.kind) && (f.category == "" || CategoryOf(rs[0]) == f.category);
      (if keep then [rs[0]] else []) + FilteredResults(rs[1..], f)
  }

  /** A result survives the filter exactly when it matches every filter that is set. */
  lemma {:induction false} FilterKeepsIff(rs: Snapshot, f: Filters, e: Entry)
    ensures e in FilteredResults(rs, f) <==>
      e in rs && (f.kind == "" || KindOf(e) == f.kind) && (f.category == "" || CategoryOf(e) == f.category)
    decreases |rs|
  {
    if rs != [] {
      FilterKeepsIff(rs[1..], f, e);
      assert rs == [rs[0]] + rs[1..];
    }
  }

  /** The group a result goes to: its category, or "Other" when it has none. */
  function GroupKey(e: Entry): string
  {
    if CategoryOf(e) == "" then "Other" else CategoryOf(e)
  }

  /** The results of group `c`, in their original order. */
  function InGroup(rs: Snapshot, c: string): (g: Snapshot)
    ensures |g| <= |rs|
  {
    if rs == [] then []
    else InGroup(rs[..|rs| - 1], c) + (if GroupKey(rs[|rs| - 1]) == c then [rs[|rs| - 1]] else [])
  }

  lemma InGroupAppend(rs: Snapshot, e: Entry, c: string)
    ensures InGroup(rs + [e], c) == InGroup(rs, c) + (if GroupKey(e) == c then [e] else [])
  {
    assert (rs + [e])[..|rs|] == rs;
  }

  /** Each result belongs to exactly the group of its own key. */
  lemma {:induction false} InGroupIff(rs: Snapshot, c: string, e: Entry)
    ensures e in InGroup(rs, c) <==> e in rs && GroupKey(e) == c
    decreases |rs|
  {
    if rs != [] {
      InGroupIff(rs[..|rs| - 1], c, e);
      assert rs == rs[..|rs| - 1] + [rs[|rs| - 1]];
    }
  }

  /** The groups present: the keys of the results. */
  function GroupKeys(rs: Snapshot): set<string>
  {
    set i | 0 <= i < |rs| :: GroupKey(rs[i])
  }

  /** One more result adds its key to the set of keys. */
  lemma GroupKeysAppend(rs: Snapshot, e: Entry)
    ensures GroupKeys(rs + [e]) == GroupKeys(rs) + {GroupKey(e)}
  {
    var all := rs + [e];
    forall x | x in GroupKeys(all) ensures x in GroupKeys(rs) + {GroupKey(e)} {
      var j :| 0 <= j < |all| && GroupKey(all[j]) == x;
      if j < |rs| {
        assert all[j] == rs[j];
      }
    }
    forall x | x in GroupKeys(rs) ensures x in GroupKeys(all) {
      var j :| 0 <= j < |rs| && GroupKey(rs[j]) == x;
      assert all[j] == rs[j];
    }
    assert all[|rs|] == e;
  }

  /** A key no result has gets an empty group. */
  lemma {:induction false} InGroupOfAbsentKey(rs: Snapshot, c: string)
    requires c !in GroupKeys(rs)
    ensures InGroup(rs, c) == []
    decreases |rs|
  {
    if rs != [] {
      var init := rs[..|rs| - 1];
      assert GroupKeys(init) <= GroupKeys(rs) by {
        forall x | x in GroupKeys(init) ensures x in GroupKeys(rs) {
          var j :| 0 <= j < |init| && GroupKey(init[j]) == x;
          assert rs[j] == init[j];
        }
      }
      InGroupOfAbsentKey(init, c);
      assert GroupKey(rs[|rs| - 1]) in GroupKeys(rs);
    }
  }

  /** The properties every plain JavaScript object inherits from `Object.prototype`. Looking
      one of them up on `{}` finds a function or the prototype itself, never an array. */
  const InheritedNames: set<string> := {"constructor", "__proto__", "hasOwnProperty", "isPrototypeOf",
    "propertyIsEnumerable", "toLocaleString", "toString", "valueOf", "__defineGetter__",
    "__defineSetter__", "__lookupGetter__", "__lookupSetter__"}

  /** Whether a category names an inherited property. */
  predicate Inherited(key: string) { key in InheritedNames }

  /** `groupByCategory`: walks the results once, pushing each onto its group's list. Every
      result lands in the group of its category (or "Other"), groups keep the original order,
      and only keys that occur get a group. A category naming an inherited property finds a
      truthy non-array there, so its `push` throws a `TypeError`. */
  method GroupByCategory(rs: Snapshot) returns (grouped: Result<map<string, Snapshot>, string>)
    ensures grouped.Err? <==> exists i :: 0 <= i < |rs| && Inherited(GroupKey(rs[i]))
    ensures grouped.Err? ==> grouped.error == "TypeError: grouped[category].push is not a function"
    ensures grouped.Ok? ==> GroupsOf(grouped.value, rs)
  {
    if FirstInherited(rs).Some? {
      return Err("TypeError: grouped[category].push is not a function");
    }
    var g := GroupAll(rs);
    return Ok(g);
  }

  /** The first result whose key is an inherited property, where the walk would throw. */
  function FirstInherited(rs: Snapshot): (k: Option<nat>)
    ensures k.Some? ==> k.value < |rs| && Inherited(GroupKey(rs[k.value]))
    ensures k.None? ==> forall i :: 0 <= i < |rs| ==> !Inherited(GroupKey(rs[i]))
  {
    if rs == [] then None
    else if Inherited(GroupKey(rs[0])) then Some(0)
    else
      var rest := FirstInherited(rs[1..]);
      assert forall i :: 1 <= i < |rs| ==> rs[i] == rs[1..][i - 1];
      if rest.None? then None else Some(rest.value + 1)
  }

  /** The walk over results none of which names an inherited property. */
  method GroupAll(rs: Snapshot) returns (grouped: map<string, Snapshot>)
    ensures GroupsOf(grouped, rs)
  {
    grouped := map[];
    for i := 0 to |rs|
      invariant GroupsOf(grouped, rs[..i])
    {
      GroupPush(grouped, rs[..i], rs[i]);
      assert rs[..i + 1] == rs[..i] + [rs[i]];
      grouped := PushEntry(grouped, rs[i]);
    }
    assert rs[..|rs|] == rs;
  }

  /** The loop body: create the result's group if missing, then push the result onto it. */
  method PushEntry(g: map<string, Snapshot>, e: Entry) returns (r: map<string, Snapshot>)
    ensures r == Pushed(g, e)
  {
    var key := GroupKey(e);
    r := g;
    if key !in r {
      r := r[key := []];
    }
    r := r[key := r[key] + [e]];
  }

  /** `g` is the grouping of `rs`: one group per key that occurs, holding that key's results. */
  predicate GroupsOf(g: map<string, Snapshot>, rs: Snapshot)
  {
    g.Keys == GroupKeys(rs) && forall c :: c in g ==> g[c] == InGroup(rs, c)
  }

  /** One step of the walk: the result's key gets an empty group if it has none, then the result
      is pushed onto it. */
  function Pushed(g: map<string, Snapshot>, e: Entry): (r: map<string, Snapshot>)
    ensures r.Keys == g.Keys + {GroupKey(e)}
  {
    var key := GroupKey(e);
    var g1 := if key !in g then g[key := []] else g;
    g1[key := g1[key] + [e]]
  }

  /** Pushing one more result gives the grouping of the longer list. */
  lemma GroupPush(g: map<string, Snapshot>, rs: Snapshot, e: Entry)
    requires GroupsOf(g, rs)
    ensures GroupsOf(Pushed(g, e), rs + [e])
  {
    GroupKeysAppend(rs, e);
    PushedGroups(g, rs, e);
  }

  lemma PushedGroups(g: map<string, Snapshot>, rs: Snapshot, e: Entry)
    requires g.Keys == GroupKeys(rs)
    requires forall c :: c in g ==> g[c] == InGroup(rs, c)
    ensures forall c :: c in Pushed(g, e) ==> Pushed(g, e)[c] == InGroup(rs + [e], c)
  {
    var key := GroupKey(e);
    if key !in g {
      InGroupOfAbsentKey(rs, key);
    }
    forall c | c in Pushed(g, e) ensures Pushed(g, e)[c] == InGroup(rs + [e], c) {
      InGroupAppend(rs, e, c);
    }
  }

  /** Every group is non-empty and holds exactly the results with its key. */
  lemma GroupsAreExact(rs: Snapshot, c: string, e: Entry)
    requires c in GroupKeys(rs)
    ensures InGroup(rs, c) != []
    ensures e in InGroup(rs, c) <==> e in rs && GroupKey(e) == c
  {
    var j :| 0 <= j < |rs| && GroupKey(rs[j]) == c;
    InGroupIff(rs, c, e);
    InGroupIff(rs, c, rs[j]);
  }
}

=== FILE: concept_graph.dfy ===
/** The concept graph: concepts found or created for a prototype, relations between concepts,
    label-filtered neighbourhood queries and loading from saved lines. The graph is modelled
    as its node order, the attributes of each node and its undirected edges. */
module Concepts {
  import opened Wrappers
  import opened Text

  /** A node's attributes: each of the four that `link` sets is present or absent. A node that
      only an edge created has none. */
  datatype NodeData = NodeData(protoRefs: Option<seq<string>>, labels: Option<seq<string>>,
                               confidence: Option<real>, lastUpdated: Option<int>)

  /** No attributes at all. */
  const Bare := NodeData(None, None, None, None)

  /** The attributes `link` gives a new concept. */
  function Attrs(protoRefs: seq<string>, labels: seq<string>, confidence: real, lastUpdated: int): NodeData
  {
    NodeData(Some(protoRefs), Some(labels), Some(confidence), Some(lastUpdated))
  }

  /** `data.get("proto_refs", [])`. */
  function Refs(d: NodeData): seq<string> { if d.protoRefs.Some? then d.protoRefs.value else [] }

  /** `data.get("labels", [])`. */
  function Labels(d: NodeData): seq<string> { if d.labels.Some? then d.labels.value else [] }

  function Or<T>(x: Option<T>, y: Option<T>): Option<T> { if x.Some? then x else y }

  /** The node's attribute dict `prev` after `update(next)`: an attribute `next` carries
      replaces the earlier one, the others stay. */
  function Merge(prev: NodeData, next: NodeData): (r: NodeData)
    ensures next == Bare ==> r == prev
    ensures next.protoRefs.Some? && next.labels.Some? && next.confidence.Some? && next.lastUpdated.Some? ==> r == next
  {
    NodeData(Or(next.protoRefs, prev.protoRefs), Or(next.labels, prev.labels),
             Or(next.confidence, prev.confidence), Or(next.lastUpdated, prev.lastUpdated))
  }

  /** Updating twice is updating once with the later attributes laid over the earlier ones. */
  lemma MergeTwice(d: NodeData, a: NodeData, b: NodeData)
    ensures Merge(Merge(d, a), b) == Merge(d, Merge(a, b))
  {
  }

  datatype Edge = Edge(relType: string, weight: real)

  /** Nodes in insertion order, their attributes, and edges keyed by their two end points. */
  datatype Graph = Graph(order: seq<string>, data: map<string, NodeData>, edges: map<set<string>, Edge>)

  ghost predicate WellFormed(g: Graph)
  {
    (forall i, j :: 0 <= i < j < |g.order| ==> g.order[i] != g.order[j])
    && (forall k :: k in g.data <==> k in g.order)
  }

  /** `f"c_{n:05d}"`. */
  function ConceptIdFor(n: nat): string { "c_" + Pad5(n) }

  lemma ConceptIdInjective(a: nat, b: nat)
    ensures ConceptIdFor(a) == ConceptIdFor(b) ==> a == b
  {
    if ConceptIdFor(a) == ConceptIdFor(b) {
      assert ConceptIdFor(a)[2..] == Pad5(a) && ConceptIdFor(b)[2..] == Pad5(b);
      Pad5Injective(a, b);
    }
  }

  /** networkx `add_node(id, **attrs)`: a new node goes last with the given attributes; an
      existing one keeps its place and merges them into its own. */
  function AddNode(g: Graph, id: string, d: NodeData): (r: Graph)
    ensures (WellFormed(g) ==> WellFormed(r)) && r.edges == g.edges
    ensures id in g.data ==> r.order == g.order && r.data == g.data[id := Merge(g.data[id], d)]
    ensures id !in g.data ==> r.order == g.order + [id] && r.data == g.data[id := d]
  {
    if id in g.data then g.(data := g.data[id := Merge(g.data[id], d)])
    else Graph(g.order + [id], g.data[id := d], g.edges)
  }

  /** The node `add_edge` creates for a missing end point. */
  function AddIfMissing(g: Graph, id: string): (r: Graph)
    ensures (WellFormed(g) ==> WellFormed(r)) && r.edges == g.edges
    ensures id in g.data ==> r == g
    ensures id !in g.data ==> r.order == g.order + [id] && r.data == g.data[id := Bare]
  {
    if id in g.data then g else AddNode(g, id, Bare)
  }

  /** The first node, in order, that already refers to `protoId`. */
  function FindRef(order: seq<string>, data: map<string, NodeData>, protoId: string): (r: Option<nat>)
    requires forall k :: k in order ==> k in data
    ensures r.Some? ==> r.value < |order| && protoId in Refs(data[order[r.value]])
    ensures r.Some? ==> forall j :: 0 <= j < r.value ==> protoId !in Refs(data[order[j]])
    ensures r.None? ==> forall j :: 0 <= j < |order| ==> protoId !in Refs(data[order[j]])
  {
    if order == [] then None
    else if protoId in Refs(data[order[0]]) then Some(0)
    else
      var rest := FindRef(order[1..], data, protoId);
      if rest.None? then None else Some(rest.value + 1)
  }

  /** `labels or []`. */
  function LabelsOr(labels: Option<seq<string>>): seq<string> { if labels.Some? then labels.value else [] }

  /** The concept `link` touches or creates under the id `cid`, and the graph after it. */
  function LinkWith(g: Graph, cid: string, protoId: string, labels: Option<seq<string>>, confidence: real, now: int): (Graph, string)
    requires WellFormed(g)
  {
    var hit := FindRef(g.order, g.data, protoId);
    if hit.Some? then
      var n := g.order[hit.value];
      (g.(data := g.data[n := g.data[n].(lastUpdated := Some(now))]), n)
    else
      (AddNode(g, cid, Attrs([protoId], LabelsOr(labels), confidence, now)), cid)
  }

  /** `link` as written: a new concept is named after the node count. */
  function LinkAsWritten(g: Graph, protoId: string, labels: Option<seq<string>>, confidence: real, now: int): (Graph, string)
    requires WellFormed(g)
  {
    LinkWith(g, ConceptIdFor(|g.order|), protoId, labels, confidence, now)
  }

  /** The first sequential concept id from `n` on that no node uses. */
  function FirstFree(used: set<string>, n: nat): (m: nat)
    ensures n <= m && ConceptIdFor(m) !in used
    ensures forall j :: n <= j < m ==> ConceptIdFor(j) in used
    decreases |used|
  {
    if ConceptIdFor(n) !in used then n
    else
      var m := FirstFree(used - {ConceptIdFor(n)}, n + 1);
      ConceptIdInjective(m, n);
      assert forall j :: n < j < m ==> ConceptIdFor(j) in used;
      m
  }

  /** The id a new concept gets: the node count, moved past any id already taken. */
  function NewConceptId(g: Graph): string
  {
    ConceptIdFor(FirstFree(g.data.Keys, |g.order|))
  }

  /** `link` with the id made fresh. */
  function Linked(g: Graph, protoId: string, labels: Option<seq<string>>, confidence: real, now: int): (Graph, string)
    requires WellFormed(g)
  {
    LinkWith(g, NewConceptId(g), protoId, labels, confidence, now)
  }

  /** A known prototype returns its concept, adds no node and changes no other node; an unknown
      one creates exactly one new concept, under an unused id, referring to the prototype, with
      the given labels (none by default) and confidence. */
  lemma LinkSpec(g: Graph, protoId: string, labels: Option<seq<string>>, confidence: real, now: int)
    requires WellFormed(g)
    ensures var (h, cid) := Linked(g, protoId, labels, confidence, now);
      WellFormed(h) && h.edges == g.edges
      && (FindRef(g.order, g.data, protoId).Some? ==>
            h.order == g.order && cid in g.data && protoId in Refs(g.data[cid])
            && h.data == g.data[cid := g.data[cid].(lastUpdated := Some(now))])
      && (FindRef(g.order, g.data, protoId).None? ==>
            cid !in g.data && h.order == g.order + [cid] && |h.order| == |g.order| + 1
            && h.data == g.data[cid := Attrs([protoId], LabelsOr(labels), confidence, now)])
  {
    var hit := FindRef(g.order, g.data, protoId);
    if hit.Some? {
      var n := g.order[hit.value];
      assert g.data[n].protoRefs.Some?;
    }
  }

  /** Whenever the node count is not already a concept's name, the fresh id is the one the
      source picks. */
  lemma LinkAgreesWithoutCollision(g: Graph, protoId: string, labels: Option<seq<string>>, confidence: real, now: int)
    requires WellFormed(g) && ConceptIdFor(|g.order|) !in g.data
    ensures Linked(g, protoId, labels, confidence, now) == LinkAsWritten(g, protoId, labels, confidence, now)
  {
  }

  /** `add_relation`: missing end points become bare nodes, and the edge between `a` and `b`
      gets the relation type and weight. */
  function Related(g: Graph, a: string, b: string, relType: string, weight: real): (r: Graph)
    ensures WellFormed(g) ==> WellFormed(r)
    ensures r.edges == g.edges[{a, b} := Edge(relType, weight)]
    ensures a in r.data && b in r.data
    ensures forall k :: k in g.data ==> k in r.data && r.data[k] == g.data[k]
    ensures forall k :: k in r.data && k !in g.data ==> k == a || k == b
  {
    var g1 := AddIfMissing(AddIfMissing(g, a), b);
    g1.(edges := g1.edges[{a, b} := Edge(relType, weight)])
  }

  /** The graph the collision shows on: a saved file holding concept 0, which refers to
      `p_00000`, and a bare node named concept 2. */
  function CollisionSetup(): Graph
  {
    Loaded([Some((ConceptIdFor(0), Attrs(["p_00000"], [], 0.5, 0))), Some((ConceptIdFor(2), Bare))])
  }

  /** As written, the next `link` names its concept after the node count (2), which is the
      bare node already loaded: no node is added and that node is taken over. */
  lemma LinkAsWrittenCollides()
    ensures var g := CollisionSetup();
      |g.order| == 2 && ConceptIdFor(2) in g.data
      && var (h, cid) := LinkAsWritten(g, "p_00001", None, 0.5, 1);
         cid == ConceptIdFor(2) && g.data[cid] == Bare && |h.order| == |g.order|
         && h.data[cid] == Attrs(["p_00001"], [], 0.5, 1)
  {
    var g := CollisionSetup();
    CollisionSetupShape();
    NewProtoUnreferenced(g);
  }

  /** The setup holds concept 0, then the bare node concept 2. */
  lemma CollisionSetupShape()
    ensures var g := CollisionSetup();
      WellFormed(g) && g.order == [ConceptIdFor(0), ConceptIdFor(2)]
      && g.data.Keys == {ConceptIdFor(0), ConceptIdFor(2)}
      && g.data[ConceptIdFor(0)] == Attrs(["p_00000"], [], 0.5, 0) && g.data[ConceptIdFor(2)] == Bare
  {
    ConceptIdInjective(0, 2);
    var l0: Line := Some((ConceptIdFor(0), Attrs(["p_00000"], [], 0.5, 0)));
    var l1: Line := Some((ConceptIdFor(2), Bare));
    assert [l0][..0] == [];
    assert Loaded([l0]) == AddNode(Loaded([]), ConceptIdFor(0), Attrs(["p_00000"], [], 0.5, 0));
    assert [l0, l1][..1] == [l0];
    assert Loaded([l0, l1]) == AddNode(Loaded([l0]), ConceptIdFor(2), Bare);
  }

  /** No concept of the setup refers to `p_00001`. */
  lemma NewProtoUnreferenced(g: Graph)
    requires g.order == [ConceptIdFor(0), ConceptIdFor(2)]
    requires g.data.Keys == {ConceptIdFor(0), ConceptIdFor(2)}
    requires g.data[ConceptIdFor(0)] == Attrs(["p_00000"], [], 0.5, 0) && g.data[ConceptIdFor(2)] == Bare
    ensures FindRef(g.order, g.data, "p_00001").None?
  {
    assert "p_00001" != "p_00000";
  }

  /** `query`'s filter: without types every reached node is kept, otherwise those with a label
      among the types. */
  predicate Keeps(d: NodeData, types: seq<string>)
  {
    types == [] || exists t :: t in types && t in Labels(d)
  }

  function QueryFilter(data: map<string, NodeData>, reached: seq<string>, types: seq<string>): (r: seq<(string, NodeData)>)
    requires forall n :: n in reached ==> n in data
    ensures forall x :: x in r <==> x.0 in reached && x.1 == data[x.0] && Keeps(data[x.0], types)
  {
    if reached == [] then []
    else
      var init := QueryFilter(data, reached[..|reached| - 1], types);
      var n := reached[|reached| - 1];
      assert forall x :: x in reached <==> x in reached[..|reached| - 1] || x == n;
      if Keeps(data[n], types) then init + [(n, data[n])] else init
  }

  /** A saved line: a concept id with its attributes, or None for a line that does not parse or
      has no concept id. */
  type Line = Option<(string, NodeData)>

  /** `_load`: malformed lines are skipped, the others added in order. */
  function Loaded(lines: seq<Line>): (g: Graph)
    ensures WellFormed(g) && g.edges == map[]
    ensures forall k :: k in g.data <==> exists i :: 0 <= i < |lines| && lines[i].Some? && lines[i].value.0 == k
  {
    if lines == [] then Graph([], map[], map[])
    else
      var init := lines[..|lines| - 1];
      var last := lines[|lines| - 1];
      var g := Loaded(init);
      assert forall i :: 0 <= i < |init| ==> init[i] == lines[i];
      if last.None? then g else AddNode(g, last.value.0, last.value.1)
  }

  /** A later line for a concept merges into what the earlier lines left: each attribute it
      carries wins, each it leaves out keeps its earlier value, and other concepts are
      untouched. A malformed line changes nothing. */
  lemma LoadedLastWins(lines: seq<Line>, id: string, d: NodeData)
    ensures var before := Loaded(lines);
      var after := Loaded(lines + [Some((id, d))]);
      id in after.data
      && after.data[id] == (if id in before.data then Merge(before.data[id], d) else d)
      && (d.protoRefs.Some? ==> Refs(after.data[id]) == d.protoRefs.value)
      && (d.labels.Some? ==> Labels(after.data[id]) == d.labels.value)
      && (id in before.data && d.protoRefs.None? ==> Refs(after.data[id]) == Refs(before.data[id]))
      && (id in before.data && d.labels.None? ==> Labels(after.data[id]) == Labels(before.data[id]))
      && forall k :: k in before.data && k != id ==> after.data[k] == before.data[k]
    ensures Loaded(lines + [None]) == Loaded(lines)
  {
    assert (lines + [Some((id, d))])[..|lines|] == lines;
    assert (lines + [None])[..|lines|] == lines;
  }

  /** A concept saved with a prototype and the label "cat", then a line holding only its id:
      the node keeps both, so a query for "cat" still finds it. */
  lemma LoadedBareLineKeepsLabels()
    ensures var d := Loaded([Some(("c_00000", NodeData(Some(["p_00000"]), Some(["cat"]), None, None))),
                             Some(("c_00000", Bare))]).data["c_00000"];
      Refs(d) == ["p_00000"] && Labels(d) == ["cat"] && Keeps(d, ["cat"])
  {
    var l0: Line := Some(("c_00000", NodeData(Some(["p_00000"]), Some(["cat"]), None, None)));
    LoadedLastWins([], "c_00000", NodeData(Some(["p_00000"]), Some(["cat"]), None, None));
    LoadedLastWins([l0], "c_00000", Bare);
    assert [l0] + [Some(("c_00000", Bare))] == [l0, Some(("c_00000", Bare))];
    var d := Loaded([l0, Some(("c_00000", Bare))]).data["c_00000"];
    assert "cat" in ["cat"] && "cat" in Labels(d);
  }

  class ConceptGraph {
    var order: seq<string>
    var data: map<string, NodeData>
    var edges: map<set<string>, Edge>

    function State(): Graph
      reads this
    {
      Graph(order, data, edges)
    }

    ghost predicate Valid()
      reads this
    {
      WellFormed(State())
    }

    /** `__init__`: the lines of the saved file, if any. */
    constructor (lines: seq<Line>)
      ensures Valid() && State() == Loaded(lines)
    {
      var g := Loaded(lines);
      order, data, edges := g.order, g.data, g.edges;
    }

    /** `link`, with a fresh id for a new concept. */
    method Link(protoId: string, labels: Option<seq<string>>, confidence: real, now: int) returns (cid: string)
      requires Valid()
      modifies this
      ensures Valid()
      ensures (State(), cid) == Linked(old(State()), protoId, labels, confidence, now)
    {
      var i := 0;
      while i < |order|
        invariant 0 <= i <= |order|
        invariant forall j :: 0 <= j < i ==> protoId !in Refs(data[order[j]])
      {
        var n := order[i];
        if protoId in Refs(data[n]) {
          assert FindRef(order, data, protoId) == Some(i);
          data := data[n := data[n].(lastUpdated := Some(now))];
          return n;
        }
        i := i + 1;
      }
      assert FindRef(order, data, protoId).None?;
      cid := NewConceptId(State());
      var g := AddNode(State(), cid, Attrs([protoId], LabelsOr(labels), confidence, now));
      order, data := g.order, g.data;
    }

    /** `add_relation`. */
    method AddRelation(a: string, b: string, relType: string, weight: real)
      requires Valid()
      modifies this
      ensures Valid()
      ensures State() == Related(old(State()), a, b, relType, weight)
    {
      if a !in data {
        order, data := order + [a], data[a := Bare];
      }
      if b !in data {
        order, data := order + [b], data[b := Bare];
      }
      edges := edges[{a, b} := Edge(relType, weight)];
    }

    /** `query`: `reached` are the nodes within the requested depth of the start node, in the
        order the breadth-first search yields them. */
    method Query(reached: seq<string>, types: seq<string>) returns (result: seq<(string, NodeData)>)
      requires forall n :: n in reached ==> n in data
      ensures result == QueryFilter(data, reached, types)
    {
      result := [];
      for i := 0 to |reached|
        invariant result == QueryFilter(data, reached[..i], types)
      {
        assert reached[..i + 1][..i] == reached[..i];
        var n := reached[i];
        if types == [] || exists t :: t in types && t in Labels(data[n]) {
          result := result + [(n, data[n])];
        }
      }
      assert reached[..|reached|] == reached;
    }
  }
}

=== FILE: console_panel.dfy ===
/** The console panel: typing sets the modality and refreshes suggestions and live predictions;
    sending posts the input with up to four attempts and appends it to a bounded history;
    ArrowUp recalls the last input. The HTTP responses, the fuzzy matcher, the result id and
    the clock are inputs. */
module ConsolePanel {
  import opened Wrappers
  import opened Text
  import opened JsArray

  // ---------------------------------------------------------------- modality

  predicate EndsWithAny(s: string, suffixes: seq<string>)
  {
    exists i :: 0 <= i < |suffixes| && EndsWith(s, suffixes[i])
  }

  /** The modality effect: an empty input leaves the modality as it is; a link ending in an
      audio extension is audio, one ending in an image extension is a file; anything else is
      text. */
  function DetectModality(input: string, current: string): string
  {
    if input == "" then current
    else if Contains(input, "http") && EndsWithAny(input, [".mp3", ".wav", ".ogg"]) then "audio"
    else if Contains(input, "http") && EndsWithAny(input, [".jpg", ".png", ".gif"]) then "file"
    else "text"
  }

  /** The same rule stated case by case. */
  lemma DetectModalityCases(input: string, current: string)
    ensures input == "" ==> DetectModality(input, current) == current
    ensures input != "" ==> DetectModality(input, current) in {"audio", "file", "text"}
    ensures DetectModality(input, current) == "audio" && input != "" ==>
      Contains(input, "http") && (EndsWith(input, ".mp3") || EndsWith(input, ".wav") || EndsWith(input, ".ogg"))
    ensures input != "" && !Contains(input, "http") ==> DetectModality(input, current) == "text"
  {
    if DetectModality(input, current) == "audio" && input != "" {
      var i :| 0 <= i < 3 && EndsWith(input, [".mp3", ".wav", ".ogg"][i]);
    }
  }

  lemma AudioLinkExample()
    ensures DetectModality("http://x/a.mp3", "text") == "audio"
  {
    var s := "http://x/a.mp3";
    ContainsAt(s, "http", 0);
    assert EndsWith(s, [".mp3", ".wav", ".ogg"][0]);
  }

  // ---------------------------------------------------------------- history

  datatype HistoryItem = HistoryItem(input: string, modality: string, timestamp: string)

  /** The history after a successful send: the last nineteen items, then the new one. */
  function AppendHistory(h: seq<HistoryItem>, item: HistoryItem): seq<HistoryItem>
  {
    SliceFrom(h, -19) + [item]
  }

  /** The history stays within twenty items, ends with the new one, and keeps the newest of the
      old ones in order. */
  lemma AppendHistoryBounded(h: seq<HistoryItem>, item: HistoryItem)
    ensures var r := AppendHistory(h, item);
      1 <= |r| <= 20 && r[|r| - 1] == item
      && r[..|r| - 1] == (if |h| <= 19 then h else h[|h| - 19..])
  {
    TailWindow(h, 19);
    var r := AppendHistory(h, item);
    assert r[..|r| - 1] == SliceFrom(h, -19);
  }

  // ---------------------------------------------------------------- suggestions

  /** `[...new Set(s)]`: the first occurrence of each element, in order. */
  function Dedup(s: seq<string>): (r: seq<string>)
    ensures forall x :: x in r <==> x in s
    ensures forall i, j :: 0 <= i < j < |r| ==> r[i] != r[j]
  {
    if s == [] then []
    else
      var d := Dedup(s[..|s| - 1]);
      var x := s[|s| - 1];
      assert forall y :: y in s <==> y in s[..|s| - 1] || y == x by {
        assert s == s[..|s| - 1] + [x];
      }
      if x in d then d else d + [x]
  }

  /** The position of the first occurrence of `x` in `s`. */
  function FirstIndex(s: seq<string>, x: string): (r: nat)
    requires x in s
    ensures r < |s| && s[r] == x && x !in s[..r]
  {
    if s[0] == x then 0
    else
      var r := 1 + FirstIndex(s[1..], x);
      assert s[..r] == [s[0]] + s[1..][..r - 1];
      r
  }

  lemma FirstIndexUnique(s: seq<string>, x: string, k: nat)
    requires k < |s| && s[k] == x && x !in s[..k]
    ensures FirstIndex(s, x) == k
  {
  }

  /** `[...new Set(s)]` lists the elements in the order of their first occurrence in `s`. */
  lemma {:induction false} DedupFirstOccurrenceOrder(s: seq<string>)
    ensures forall i, j :: 0 <= i < j < |Dedup(s)| ==> FirstIndex(s, Dedup(s)[i]) < FirstIndex(s, Dedup(s)[j])
  {
    if s != [] {
      var p := s[..|s| - 1];
      var x := s[|s| - 1];
      var d := Dedup(p);
      DedupFirstOccurrenceOrder(p);
      forall y | y in p ensures FirstIndex(s, y) == FirstIndex(p, y) {
        var k := FirstIndex(p, y);
        assert s[..k] == p[..k];
        FirstIndexUnique(s, y, k);
      }
      if x !in d {
        assert x !in p;
        assert s[..|s| - 1] == p;
        FirstIndexUnique(s, x, |s| - 1);
      }
    }
  }

  /** History inputs the fuzzy matcher accepts for the text, in history order. */
  function FuzzyHits(text: string, inputs: seq<string>, fuzzy: (string, string) -> bool): seq<string>
  {
    if inputs == [] then []
    else FuzzyHits(text, inputs[..|inputs| - 1], fuzzy)
         + (if fuzzy(text, inputs[|inputs| - 1]) then [inputs[|inputs| - 1]] else [])
  }

  /** Inputs of results in the centre panel's snapshots that contain the text but differ from it. */
  function SnapshotHits(text: string, inputs: seq<string>): (r: seq<string>)
    ensures forall i :: 0 <= i < |r| ==> Contains(r[i], text) && r[i] != text && r[i] in inputs
  {
    if inputs == [] then []
    else
      var last := inputs[|inputs| - 1];
      SnapshotHits(text, inputs[..|inputs| - 1]) + (if Contains(last, text) && last != text then [last] else [])
  }

  /** Every suggestion is either a history input the matcher accepts or a snapshot input that
      contains the text without being equal to it. */
  lemma {:induction false} FuzzyHitsSound(text: string, inputs: seq<string>, fuzzy: (string, string) -> bool)
    ensures forall x :: x in FuzzyHits(text, inputs, fuzzy) ==> x in inputs && fuzzy(text, x)
    decreases |inputs|
  {
    if inputs != [] {
      FuzzyHitsSound(text, inputs[..|inputs| - 1], fuzzy);
    }
  }

  /** `generateSmartSuggestions`: collects fuzzy hits from the history, then snapshot hits, keeps
      the first occurrence of each, and at most five. History inputs and snapshot inputs are
      given in the order the panel walks them. */
  method SmartSuggestions(text: string, historyInputs: seq<string>, snapshotInputs: seq<string>,
                          fuzzy: (string, string) -> bool) returns (r: seq<string>)
    ensures r == Slice(Dedup(FuzzyHits(text, historyInputs, fuzzy) + SnapshotHits(text, snapshotInputs)), 0, 5)
    ensures |r| <= 5 && forall i, j :: 0 <= i < j < |r| ==> r[i] != r[j]
    ensures forall x :: x in r ==> (x in historyInputs && fuzzy(text, x))
                                   || (x in snapshotInputs && Contains(x, text) && x != text)
    ensures var hits := FuzzyHits(text, historyInputs, fuzzy) + SnapshotHits(text, snapshotInputs);
      forall i, j :: 0 <= i < j < |r| ==> r[i] in hits && r[j] in hits && FirstIndex(hits, r[i]) < FirstIndex(hits, r[j])
  {
    var suggestions: seq<string> := [];
    for i := 0 to |historyInputs|
      invariant suggestions == FuzzyHits(text, historyInputs[..i], fuzzy)
    {
      assert historyInputs[..i + 1][..i] == historyInputs[..i];
      if fuzzy(text, historyInputs[i]) {
        suggestions := suggestions + [historyInputs[i]];
      }
    }
    assert historyInputs[..|historyInputs|] == historyInputs;
    ghost var fromHistory := suggestions;
    for j := 0 to |snapshotInputs|
      invariant suggestions == fromHistory + SnapshotHits(text, snapshotInputs[..j])
    {
      assert snapshotInputs[..j + 1][..j] == snapshotInputs[..j];
      var s := snapshotInputs[j];
      if Contains(s, text) && s != text {
        suggestions := suggestions + [s];
      }
    }
    assert snapshotInputs[..|snapshotInputs|] == snapshotInputs;
    r := Slice(Dedup(suggestions), 0, 5);
    FirstFiveInOrder(suggestions);
    FuzzyHitsSound(text, historyInputs, fuzzy);
  }

  /** The first five of `[...new Set(s)]` are distinct items of `s`, in the order of their first
      occurrence. */
  lemma FirstFiveInOrder(s: seq<string>)
    ensures var r := Slice(Dedup(s), 0, 5);
      |r| <= 5 && (forall i, j :: 0 <= i < j < |r| ==> r[i] != r[j])
      && (forall x :: x in r ==> x in s)
      && forall i, j :: 0 <= i < j < |r| ==> r[i] in s && r[j] in s && FirstIndex(s, r[i]) < FirstIndex(s, r[j])
  {
    var d := Dedup(s);
    TailWindow(d, 5);
    DedupFirstOccurrenceOrder(s);
    assert forall i :: 0 <= i < |Slice(d, 0, 5)| ==> Slice(d, 0, 5)[i] == d[i];
  }

  // ---------------------------------------------------------------- live predictions

  function Predicted(h: seq<HistoryItem>, text: string): (r: seq<string>)
    ensures |r| <= |h|
  {
    if h == [] then []
    else (if Contains(h[0].input, text) then [h[0].input + " → predicted output"] else []) + Predicted(h[1..], text)
  }

  /** `generateLivePredictions` over the last ten history items. */
  function LivePredictions(text: string, history: seq<HistoryItem>): seq<string>
  {
    var p := Predicted(SliceFrom(history, -10), text);
    if p == [] then ["No live predictions"] else p
  }

  /** Predictions come only from the last ten items that contain the text; with none the answer
      is exactly the placeholder. */
  lemma {:induction false} PredictedFrom(h: seq<HistoryItem>, text: string, k: nat)
    requires k < |Predicted(h, text)|
    ensures exists i :: 0 <= i < |h| && Contains(h[i].input, text)
                        && Predicted(h, text)[k] == h[i].input + " → predicted output"
    decreases |h|
  {
    if !Contains(h[0].input, text) || k > 0 {
      var k' := if Contains(h[0].input, text) then k - 1 else k;
      PredictedFrom(h[1..], text, k');
      var i :| 0 <= i < |h[1..]| && Contains(h[1..][i].input, text)
               && Predicted(h[1..], text)[k'] == h[1..][i].input + " → predicted output";
      assert h[i + 1] == h[1..][i];
    } else {
      assert Contains(h[0].input, text);
    }
  }

  lemma {:induction false} PredictedEmptyIff(h: seq<HistoryItem>, text: string)
    ensures Predicted(h, text) == [] <==> forall i :: 0 <= i < |h| ==> !Contains(h[i].input, text)
    decreases |h|
  {
    if h != [] {
      PredictedEmptyIff(h[1..], text);
      assert forall i :: 1 <= i < |h| ==> h[i] == h[1..][i - 1];
    }
  }

  /** The placeholder is shown exactly when none of the last ten items contains the text;
      otherwise every prediction comes from one of those ten. */
  lemma LivePredictionsCases(text: string, history: seq<HistoryItem>)
    ensures var w := SliceFrom(history, -10);
      |w| <= 10
      && (LivePredictions(text, history) == ["No live predictions"] <==> forall i :: 0 <= i < |w| ==> !Contains(w[i].input, text))
  {
    var w := SliceFrom(history, -10);
    TailWindow(history, 10);
    PredictedEmptyIff(w, text);
    if Predicted(w, text) != [] {
      PredictedFrom(w, text, 0);
      var i :| 0 <= i < |w| && Contains(w[i].input, text)
               && Predicted(w, text)[0] == w[i].input + " → predicted output";
      PredictionNotPlaceholder(w[i].input);
    }
  }

  /** A prediction line never reads like the placeholder. */
  lemma PredictionNotPlaceholder(x: string)
    ensures x + " → predicted output" != "No live predictions"
  {
    var y := x + " → predicted output";
    assert y[|y| - 1] == 't';
  }

  // ---------------------------------------------------------------- the panel

  /** A failed request's error: the server's detail, else the error message. */
  datatype Response = Success(data: string) | Failure(detail: string, message: string)

  function ErrorText(r: Response): string
    requires r.Failure?
  {
    if r.detail != "" then r.detail else if r.message != "" then r.message else "Unknown error"
  }

  /** The result passed to `onResult`. */
  datatype Sent = Sent(id: string, kind: string, data: string, input: string, timestamp: string,
                       context: seq<HistoryItem>)

  const MaxRetries := 3

  /** The first successful response among the first four, if any. */
  function FirstSuccess(responses: seq<Response>): (k: Option<nat>)
    ensures k.Some? ==> k.value < |responses| && k.value <= MaxRetries && responses[k.value].Success?
                        && forall j :: 0 <= j < k.value ==> responses[j].Failure?
    ensures k.None? ==> forall j :: 0 <= j < |responses| && j <= MaxRetries ==> responses[j].Failure?
  {
    FirstSuccessFrom(responses, 0)
  }

  function FirstSuccessFrom(responses: seq<Response>, i: nat): (k: Option<nat>)
    requires i <= |responses| && forall j :: 0 <= j < i ==> responses[j].Failure?
    ensures k.Some? ==> i <= k.value < |responses| && k.value <= MaxRetries && responses[k.value].Success?
                        && forall j :: 0 <= j < k.value ==> responses[j].Failure?
    ensures k.None? ==> forall j :: 0 <= j < |responses| && j <= MaxRetries ==> responses[j].Failure?
    decreases |responses| - i
  {
    if i == |responses| || i > MaxRetries then None
    else if responses[i].Success? then Some(i)
    else FirstSuccessFrom(responses, i + 1)
  }

  class Console {
    var input: string
    var modality: string
    var error: string
    var loading: bool
    var history: seq<HistoryItem>
    var retryCount: int
    var streak: int
    var suggestions: seq<string>
    var predictions: seq<string>
    var sent: seq<Sent>

    /** Mount: the saved history (possibly empty) and everything else at its initial value. */
    constructor (savedHistory: seq<HistoryItem>)
      ensures input == "" && modality == "text" && error == "" && !loading
      ensures history == savedHistory && retryCount == 0 && streak == 0
      ensures suggestions == [] && predictions == [] && sent == []
    {
      input, modality, error, loading := "", "text", "", false;
      history, retryCount, streak := savedHistory, 0, 0;
      suggestions, predictions, sent := [], [], [];
    }

    /** Typing: the input changes, then the modality and the suggestion effects run. */
    method Type(text: string, snapshotInputs: seq<string>, fuzzy: (string, string) -> bool)
      modifies this
      ensures input == text && modality == DetectModality(text, old(modality))
      ensures text == "" ==> suggestions == [] && predictions == []
      ensures text != "" ==>
        suggestions == Slice(Dedup(FuzzyHits(text, HistoryInputs(history), fuzzy) + SnapshotHits(text, snapshotInputs)), 0, 5)
        && predictions == LivePredictions(text, history)
      ensures history == old(history) && sent == old(sent) && error == old(error) && streak == old(streak)
      ensures retryCount == old(retryCount) && loading == old(loading)
    {
      input := text;
      modality := DetectModality(text, modality);
      if text == "" {
        suggestions, predictions := [], [];
      } else {
        suggestions := SmartSuggestions(text, HistoryInputs(history), snapshotInputs, fuzzy);
        predictions := LivePredictions(text, history);
      }
    }

    /** ArrowUp: recall the last history input, if there is one. Setting a different input
        re-runs the input effects exactly as typing it would; setting the same input re-runs
        nothing. */
    method RecallLast(snapshotInputs: seq<string>, fuzzy: (string, string) -> bool)
      modifies this
      ensures history == old(history) && sent == old(sent) && error == old(error)
      ensures streak == old(streak) && retryCount == old(retryCount) && loading == old(loading)
      ensures history != [] ==> input == history[|history| - 1].input
      ensures history != [] && history[|history| - 1].input != old(input) ==>
        var text := history[|history| - 1].input;
        modality == DetectModality(text, old(modality))
        && (text == "" ==> suggestions == [] && predictions == [])
        && (text != "" ==>
              suggestions == Slice(Dedup(FuzzyHits(text, HistoryInputs(history), fuzzy) + SnapshotHits(text, snapshotInputs)), 0, 5)
              && predictions == LivePredictions(text, history))
      ensures history == [] || history[|history| - 1].input == old(input) ==>
        input == old(input) && modality == old(modality)
        && suggestions == old(suggestions) && predictions == old(predictions)
    {
      if |history| > 0 && history[|history| - 1].input != input {
        Type(history[|history| - 1].input, snapshotInputs, fuzzy);
      }
    }

    /** `handleSend`: nothing for an empty input; otherwise up to four attempts, stopping at the
        first success. `responses[i]` is the answer to attempt `i`; `id` and `now` are the
        result's id and timestamp. Returns the number of attempts made. */
    method HandleSend(overrideInput: Option<string>, overrideModality: Option<string>, responses: seq<Response>,
                      id: string, now: string) returns (attempts: nat)
      requires |responses| == MaxRetries + 1
      modifies this
      ensures var text := if overrideInput.Some? then overrideInput.value else old(input);
        var kind := if overrideModality.Some? then overrideModality.value else old(modality);
        if text == "" then
          attempts == 0 && input == old(input) && history == old(history) && sent == old(sent)
          && streak == old(streak) && retryCount == old(retryCount) && error == old(error) && loading == old(loading)
          && suggestions == old(suggestions) && predictions == old(predictions)
        else
          !loading && 1 <= attempts <= MaxRetries + 1
          && match FirstSuccess(responses)
             case Some(k) =>
               attempts == k + 1 && error == "" && input == "" && retryCount == 0 && streak == old(streak) + 1
               && history == AppendHistory(old(history), HistoryItem(text, kind, now))
               && sent == old(sent) + [Sent(id, kind, responses[k].data, text, now, old(history))]
               && suggestions == [] && predictions == []
             case None =>
               attempts == MaxRetries + 1 && error == ErrorText(responses[MaxRetries])
               && retryCount == MaxRetries + 1 && streak == 0
               && input == old(input) && history == old(history) && sent == old(sent)
               && suggestions == old(suggestions) && predictions == old(predictions)
      ensures modality == old(modality)
    {
      var text := if overrideInput.Some? then overrideInput.value else input;
      var kind := if overrideModality.Some? then overrideModality.value else modality;
      if text == "" {
        return 0;
      }
      error := "";
      loading := true;
      var attempt := 0;
      var success := false;
      while attempt <= MaxRetries && !success
        invariant 0 <= attempt <= MaxRetries + 1
        invariant modality == old(modality)
        invariant forall j :: 0 <= j < (if success then attempt - 1 else attempt) ==> responses[j].Failure?
        invariant !success ==> input == old(input) && history == old(history) && sent == old(sent)
                               && suggestions == old(suggestions) && predictions == old(predictions)
                               && streak == (if attempt > MaxRetries then 0 else old(streak))
                               && retryCount == (if attempt == 0 then old(retryCount) else attempt)
                               && error == (if attempt > MaxRetries then ErrorText(responses[MaxRetries]) else "")
        invariant success ==> 1 <= attempt <= MaxRetries + 1 && responses[attempt - 1].Success?
                              && FirstSuccess(responses) == Some(attempt - 1)
                              && error == "" && input == "" && retryCount == 0 && streak == old(streak) + 1
                              && history == AppendHistory(old(history), HistoryItem(text, kind, now))
                              && sent == old(sent) + [Sent(id, kind, responses[attempt - 1].data, text, now, old(history))]
                              && suggestions == [] && predictions == []
        decreases MaxRetries + 1 - attempt, !success
      {
        var response := responses[attempt];
        if response.Success? {
          RecordSuccess(text, kind, response.data, id, now);
          success := true;
          FirstSuccessIs(responses, attempt);
          attempt := attempt + 1;
        } else {
          attempt := attempt + 1;
          RecordFailure(attempt, response);
        }
      }
      if !success {
        FirstSuccessNone(responses);
      }
      loading := false;
      return attempt;
    }

    /** One successful attempt: the result is passed on, the history grows, the input clears
        and the streak goes up. The cleared input then empties the suggestions and the
        predictions. */
    method RecordSuccess(text: string, kind: string, data: string, id: string, now: string)
      modifies this
      ensures sent == old(sent) + [Sent(id, kind, data, text, now, old(history))]
      ensures history == AppendHistory(old(history), HistoryItem(text, kind, now))
      ensures input == "" && retryCount == 0 && streak == old(streak) + 1
      ensures suggestions == [] && predictions == []
      ensures modality == old(modality) && error == old(error) && loading == old(loading)
    {
      sent := sent + [Sent(id, kind, data, text, now, history)];
      history := AppendHistory(history, HistoryItem(text, kind, now));
      input := "";
      retryCount := 0;
      streak := streak + 1;
      suggestions, predictions := [], [];
    }

    /** One failed attempt, `attempts` being the count so far: the retry count follows it, and
        the last allowed failure sets the error and resets the streak. */
    method RecordFailure(attempts: nat, response: Response)
      requires response.Failure?
      modifies this
      ensures retryCount == attempts
      ensures attempts > MaxRetries ==> error == ErrorText(response) && streak == 0
      ensures attempts <= MaxRetries ==> error == old(error) && streak == old(streak)
      ensures input == old(input) && history == old(history) && sent == old(sent)
      ensures modality == old(modality) && loading == old(loading)
      ensures suggestions == old(suggestions) && predictions == old(predictions)
    {
      retryCount := attempts;
      if attempts > MaxRetries {
        error := ErrorText(response);
        streak := 0;
      }
    }
  }

  function HistoryInputs(h: seq<HistoryItem>): (r: seq<string>)
    ensures |r| == |h| && forall i :: 0 <= i < |h| ==> r[i] == h[i].input
  {
    if h == [] then [] else HistoryInputs(h[..|h| - 1]) + [h[|h| - 1].input]
  }

  lemma FirstSuccessIs(responses: seq<Response>, k: nat)
    requires k < |responses| && k <= MaxRetries && responses[k].Success?
    requires forall j :: 0 <= j < k ==> responses[j].Failure?
    ensures FirstSuccess(responses) == Some(k)
  {
  }

  lemma FirstSuccessNone(responses: seq<Response>)
    requires |responses| == MaxRetries + 1 && forall j :: 0 <= j <= MaxRetries ==> responses[j].Failure?
    ensures FirstSuccess(responses) == None
  {
  }
}

=== FILE: encoders.dfy ===
/** The multi-modal encoder's dispatch: which encoding a payload gets, the magic-byte and
    file-name sniffing behind "auto", and batch encoding. The seeded embeddings themselves are
    left to an oracle. */
module Encoders {
  import opened Wrappers
  import opened Text

  type byte = bv8

  /** What a caller passes: a string, raw bytes, or any other value. `hash` accepts the other
      values that are hashable (None, a number, a tuple) and raises `TypeError` for the rest (a
      list, a dict). */
  datatype Payload = Str(s: string) | Bytes(b: seq<byte>) | Other(hashable: bool)

  datatype Route = TextEncoding | ImageEncoding | AudioEncoding

  /** The embedding of `input` by the encoder `route` stands for the seeded random vector. */
  datatype Embedding = Embedding(route: Route, input: Payload)

  /** `inp[:4] == header` for a four-byte header. */
  predicate HasHeader(b: seq<byte>, header: seq<byte>)
    requires |header| == 4
  {
    |b| >= 4 && b[..4] == header
  }

  predicate EndsWithAny(s: string, suffixes: seq<string>)
  {
    exists k :: 0 <= k < |suffixes| && EndsWith(s, suffixes[k])
  }

  const JpegHeader: seq<byte> := [0xFF, 0xD8, 0xFF, 0xE0]
  const PngHeader: seq<byte> := [0x89, 0x50, 0x4E, 0x47]
  const RiffHeader: seq<byte> := [0x52, 0x49, 0x46, 0x46]
  const OggHeader: seq<byte> := [0x4F, 0x67, 0x67, 0x53]

  /** `_is_image`. */
  predicate IsImage(p: Payload)
  {
    match p
    case Bytes(b) => HasHeader(b, JpegHeader) || HasHeader(b, PngHeader)
    case Str(s) => EndsWithAny(Lower(s), [".jpg", ".jpeg", ".png", ".bmp"])
    case Other(_) => false
  }

  /** `_is_audio`. */
  predicate IsAudio(p: Payload)
  {
    match p
    case Bytes(b) => HasHeader(b, RiffHeader) || HasHeader(b, OggHeader)
    case Str(s) => EndsWithAny(Lower(s), [".wav", ".mp3", ".ogg"])
    case Other(_) => false
  }

  /** The `TypeError` the encoders' `hash(input)` raises for an unhashable value. */
  const UnhashableError := "unhashable type"

  /** The encoder `encode` dispatches to, if any. */
  function RouteOf(p: Payload, modality: string): Option<Route>
  {
    if modality == "text" || (modality == "auto" && p.Str?) then Some(TextEncoding)
    else if modality == "image" || (modality == "auto" && IsImage(p)) then Some(ImageEncoding)
    else if modality == "audio" || (modality == "auto" && IsAudio(p)) then Some(AudioEncoding)
    else None
  }

  /** `encode`: an explicit modality picks the encoder, "auto" sniffs the payload; anything else
      is an error naming the modality. The chosen encoder hashes the input, which fails for an
      unhashable value. */
  function Encode(p: Payload, modality: string): (r: Result<Embedding, string>)
    ensures r.Err? ==> r.error == "Unsupported modality or input type: " + modality || r.error == UnhashableError
    ensures r.Err? && r.error == UnhashableError && r.error != "Unsupported modality or input type: " + modality ==>
      p == Other(false)
    ensures r.Ok? ==> r.value.input == p && p != Other(false)
  {
    match RouteOf(p, modality)
    case None => Err("Unsupported modality or input type: " + modality)
    case Some(route) => if p == Other(false) then Err(UnhashableError) else Ok(Embedding(route, p))
  }

  /** The dispatch as a decision table: strings under "auto" always go to text encoding, so the
      file-name checks never decide anything there; bytes under "auto" go by their header. */
  lemma EncodeRoutes(p: Payload, modality: string)
    ensures modality == "text" && p != Other(false) ==> Encode(p, modality) == Ok(Embedding(TextEncoding, p))
    ensures modality == "image" && p != Other(false) ==> Encode(p, modality) == Ok(Embedding(ImageEncoding, p))
    ensures modality == "audio" && p != Other(false) ==> Encode(p, modality) == Ok(Embedding(AudioEncoding, p))
    ensures modality in {"text", "image", "audio"} ==> Encode(Other(false), modality) == Err(UnhashableError)
    ensures modality == "auto" && p.Str? ==> Encode(p, modality) == Ok(Embedding(TextEncoding, p))
    ensures modality == "auto" && p.Bytes? ==>
      (Encode(p, modality).Ok? <==> IsImage(p) || IsAudio(p))
      && (IsImage(p) ==> Encode(p, modality) == Ok(Embedding(ImageEncoding, p)))
      && (IsAudio(p) && !IsImage(p) ==> Encode(p, modality) == Ok(Embedding(AudioEncoding, p)))
    ensures modality !in {"text", "image", "audio", "auto"} ==> Encode(p, modality).Err?
    ensures modality == "auto" && p.Other? ==> Encode(p, modality) == Err("Unsupported modality or input type: auto")
  {
    if modality == "auto" && p.Other? {
      assert "Unsupported modality or input type: " + modality == "Unsupported modality or input type: auto";
    }
  }

  /** A JPEG or PNG header marks bytes as an image; shorter payloads never are. */
  lemma ImageHeaders(rest: seq<byte>)
    ensures IsImage(Bytes(JpegHeader + rest)) && IsImage(Bytes(PngHeader + rest))
    ensures IsAudio(Bytes(RiffHeader + rest)) && IsAudio(Bytes(OggHeader + rest))
    ensures forall b: seq<byte> :: |b| < 4 ==> !IsImage(Bytes(b)) && !IsAudio(Bytes(b))
  {
    assert (JpegHeader + rest)[..4] == JpegHeader;
    assert (PngHeader + rest)[..4] == PngHeader;
    assert (RiffHeader + rest)[..4] == RiffHeader;
    assert (OggHeader + rest)[..4] == OggHeader;
  }

  /** Name checks ignore case. */
  lemma NameChecksIgnoreCase(s: string)
    ensures IsImage(Str(s)) == IsImage(Str(Lower(s)))
    ensures IsAudio(Str(s)) == IsAudio(Str(Lower(s)))
  {
    LowerIdempotent(s);
  }

  /** `encode_batch`: the whole batch fails with the first error, otherwise one embedding per
      input, in order. */
  function EncodeBatch(ps: seq<Payload>, modality: string): (r: Result<seq<Embedding>, string>)
    ensures r.Ok? <==> forall i :: 0 <= i < |ps| ==> Encode(ps[i], modality).Ok?
    ensures r.Ok? ==> |r.value| == |ps| && forall i :: 0 <= i < |ps| ==> r.value[i] == Encode(ps[i], modality).value
    ensures r.Err? ==> exists i :: 0 <= i < |ps| && Encode(ps[i], modality) == Err(r.error)
  {
    if ps == [] then Ok([])
    else
      var head := Encode(ps[0], modality);
      if head.Err? then Err(head.error)
      else
        var rest := EncodeBatch(ps[1..], modality);
        assert forall i :: 1 <= i < |ps| ==> ps[i] == ps[1..][i - 1];
        if rest.Err? then
          var j :| 0 <= j < |ps[1..]| && Encode(ps[1..][j], modality) == Err(rest.error);
          assert ps[j + 1] == ps[1..][j];
          Err(rest.error)
        else Ok([head.value] + rest.value)
  }
}

=== FILE: experts.dfy ===
/** Expert routing: which expert a request goes to, what each expert answers, and the list of
    active experts. */
module Experts {
  import opened Text
  import opened Encoders

  datatype Expert = LangExpert | VisionExpert | PlannerExpert

  /** The expert chosen and the reason logged with the choice. */
  datatype Selection = Selection(expert: Expert, reason: string)

  /** The answer of `process`: an output, or an error; both echo the concept id. */
  datatype Answer = Output(output: string, conceptId: string, confidence: real)
                  | Failure(error: string, conceptId: string, confidence: real)

  predicate ImageName(p: Payload)
  {
    p.Str? && (EndsWith(p.s, ".jpg") || EndsWith(p.s, ".png"))
  }

  /** `ExpertRouter.select`. */
  function Select(p: Payload, modality: string): Selection
  {
    if modality == "image" || ImageName(p) then Selection(VisionExpert, "selected by image extension/modality")
    else if modality == "plan" then Selection(PlannerExpert, "selected by plan modality")
    else Selection(LangExpert, "default to language")
  }

  /** Routing: vision for the image modality or a .jpg/.png name (even when the modality says
      "plan"), then the planner for "plan", and the language expert for everything else. */
  lemma SelectRoutes(p: Payload, modality: string)
    ensures Select(p, modality).expert == VisionExpert <==> modality == "image" || ImageName(p)
    ensures Select(p, modality).expert == PlannerExpert <==> modality == "plan" && !ImageName(p)
    ensures Select(p, modality).expert == LangExpert <==> modality != "image" && modality != "plan" && !ImageName(p)
  {
  }

  const VisionLabels: seq<string> := ["cat", "dog", "car", "tree"]

  /** `process` of each expert; `pick` is the vision expert's random label choice. */
  function Process(e: Expert, p: Payload, conceptId: string, pick: nat): (a: Answer)
    requires pick < |VisionLabels|
    ensures a.conceptId == conceptId
    ensures a.Failure? <==> a.confidence == 0.0
  {
    match e
    case LangExpert =>
      if !p.Str? then Failure("Invalid text input", conceptId, 0.0)
      else Output("Echo: " + p.s, conceptId, 0.95)
    case VisionExpert =>
      if !(p.Bytes? || ImageName(p)) then Failure("Invalid image input", conceptId, 0.0)
      else Output("Vision label: " + VisionLabels[pick], conceptId, 0.7)
    case PlannerExpert =>
      if !p.Str? then Failure("Invalid plan input", conceptId, 0.0)
      else Output("Plan: [" + p.s + "] → step1 → step2", conceptId, 0.8)
  }

  /** What each expert accepts and answers. */
  lemma ProcessRules(p: Payload, conceptId: string, pick: nat)
    requires pick < |VisionLabels|
    ensures Process(LangExpert, p, conceptId, pick).Output? <==> p.Str?
    ensures p.Str? ==> Process(LangExpert, p, conceptId, pick) == Output("Echo: " + p.s, conceptId, 0.95)
    ensures Process(VisionExpert, p, conceptId, pick).Output? <==> p.Bytes? || ImageName(p)
    ensures Process(VisionExpert, p, conceptId, pick).Output? ==>
      Process(VisionExpert, p, conceptId, pick).output == "Vision label: " + VisionLabels[pick]
    ensures Process(PlannerExpert, p, conceptId, pick).Output? <==> p.Str?
    ensures p.Str? ==> Process(PlannerExpert, p, conceptId, pick).output == "Plan: [" + p.s + "] → step1 → step2"
  {
  }

  /** A request routed by `select` to the vision expert because of its name is always accepted
      there; one routed there by the modality alone is refused unless it is bytes. */
  lemma RoutedImagesAccepted(p: Payload, modality: string, conceptId: string, pick: nat)
    requires pick < |VisionLabels|
    ensures Select(p, modality).expert == VisionExpert ==>
      (Process(VisionExpert, p, conceptId, pick).Output? <==> p.Bytes? || ImageName(p))
    ensures Select(p, modality).expert == LangExpert && p.Str? ==> Process(LangExpert, p, conceptId, pick).Output?
  {
  }

  /** The class name `select` logs for the chosen expert. */
  function ClassName(e: Expert): string
  {
    match e
    case LangExpert => "LangExpert"
    case VisionExpert => "VisionExpert"
    case PlannerExpert => "PlannerExpert"
  }

  /** The active list names every expert the router can choose, each once, and the name logged
      for any selection is on it. */
  lemma ListActiveNamesEveryExpert(p: Payload, modality: string)
    ensures forall e: Expert :: ClassName(e) in ListActive()
    ensures forall n :: n in ListActive() ==> exists e: Expert :: ClassName(e) == n
    ensures ClassName(Select(p, modality).expert) in ListActive()
  {
    assert ClassName(LangExpert) == ListActive()[0];
    assert ClassName(VisionExpert) == ListActive()[1];
    assert ClassName(PlannerExpert) == ListActive()[2];
  }

  /** `list_active`. */
  function ListActive(): (names: seq<string>)
    ensures |names| == 3 && names[0] != names[1] && names[1] != names[2] && names[0] != names[2]
  {
    ["LangExpert", "VisionExpert", "PlannerExpert"]
  }
}

=== FILE: faiss_store.dfy ===
/** The vector store's id bookkeeping: integer ids handed out by a counter, the dictionary from
    those ids to prototype ids (kept in insertion order, as a Python dict iterates), search hits
    mapped back through it, and removal of the first id of a prototype. The FAISS index itself
    is an oracle: only the set of ids it holds is modelled. */
module VectorStore {
  import opened Wrappers

  // ---------------------------------------------------------------- normalize

  function SumSquares(v: seq<real>): (r: real)
    ensures r >= 0.0
  {
    if v == [] then 0.0 else SumSquares(v[..|v| - 1]) + v[|v| - 1] * v[|v| - 1]
  }

  /** `norm` is the Euclidean norm of `v`: non-negative, its square the sum of squares. */
  predicate IsNorm(v: seq<real>, norm: real)
  {
    norm >= 0.0 && norm * norm == SumSquares(v)
  }

  /** `normalize`: the vector divided by its Euclidean norm, or unchanged when the norm is 0.
      Dafny has no square root, so the norm is a parameter pinned down by `IsNorm`. */
  function Normalize(v: seq<real>, norm: real): (u: seq<real>)
    requires IsNorm(v, norm)
    ensures |u| == |v|
    ensures norm > 0.0 ==> forall i :: 0 <= i < |v| ==> u[i] * norm == v[i]
    ensures norm == 0.0 ==> u == v
  {
    if norm > 0.0 then seq(|v|, i requires 0 <= i < |v| => v[i] / norm) else v
  }

  // ---------------------------------------------------------------- the id map

  /** A dictionary from integer ids to prototype ids, in insertion order. */
  type IdsMap = seq<(int, string)>

  predicate DistinctKeys(m: IdsMap)
  {
    forall i, j :: 0 <= i < j < |m| ==> m[i].0 != m[j].0
  }

  function Keys(m: IdsMap): set<int>
  {
    set i | 0 <= i < |m| :: m[i].0
  }

  lemma KeysCons(m: IdsMap)
    requires m != []
    ensures Keys(m) == {m[0].0} + Keys(m[1..])
  {
    forall k | k in Keys(m) ensures k in {m[0].0} + Keys(m[1..]) {
      var i :| 0 <= i < |m| && m[i].0 == k;
      if i > 0 { assert m[1..][i - 1].0 == k; }
    }
    forall k | k in Keys(m[1..]) ensures k in Keys(m) {
      var i :| 0 <= i < |m[1..]| && m[1..][i].0 == k;
      assert m[i + 1].0 == k;
    }
  }

  /** `ids_map.get(k)`. */
  function Get(m: IdsMap, k: int): (r: Option<string>)
    ensures r.None? <==> k !in Keys(m)
  {
    if m == [] then None
    else
      KeysCons(m);
      if m[0].0 == k then Some(m[0].1) else Get(m[1..], k)
  }

  /** `ids_map[k] = v`: a present key keeps its place, a new one goes last. */
  function Put(m: IdsMap, k: int, v: string): IdsMap
  {
    if m == [] then [(k, v)]
    else if m[0].0 == k then [(k, v)] + m[1..]
    else [m[0]] + Put(m[1..], k, v)
  }

  /** Writing a key: it maps to the new value, every other key keeps its value, the keys gain
      just that one, and a new key lands at the end. */
  lemma {:induction false} PutSpec(m: IdsMap, k: int, v: string)
    ensures Keys(Put(m, k, v)) == Keys(m) + {k}
    ensures Get(Put(m, k, v), k) == Some(v)
    ensures forall j :: j != k ==> Get(Put(m, k, v), j) == Get(m, j)
    ensures k !in Keys(m) ==> Put(m, k, v) == m + [(k, v)]
    ensures DistinctKeys(m) ==> DistinctKeys(Put(m, k, v))
  {
    PutKeys(m, k, v);
    PutGet(m, k, v);
    if DistinctKeys(m) {
      PutDistinct(m, k, v);
    }
  }

  /** Writing a key above every key in use appends it, and the keys stay below the next one. */
  lemma PutAhead(m: IdsMap, k: int, v: string)
    requires forall j :: j in Keys(m) ==> j < k
    ensures Put(m, k, v) == m + [(k, v)]
    ensures forall j :: j in Keys(Put(m, k, v)) ==> j < k + 1
  {
    PutKeys(m, k, v);
  }

  lemma {:induction false} PutKeys(m: IdsMap, k: int, v: string)
    ensures Keys(Put(m, k, v)) == Keys(m) + {k}
    ensures k !in Keys(m) ==> Put(m, k, v) == m + [(k, v)]
    decreases |m|
  {
    var r := Put(m, k, v);
    if m == [] {
      assert r[0].0 == k;
      assert Keys(r) == {k};
    } else {
      KeysCons(m);
      KeysCons(r);
      if m[0].0 == k {
        assert r[1..] == m[1..];
      } else {
        PutKeys(m[1..], k, v);
        assert r[1..] == Put(m[1..], k, v);
        if k !in Keys(m) {
          assert r == [m[0]] + (m[1..] + [(k, v)]);
          assert [m[0]] + (m[1..] + [(k, v)]) == m + [(k, v)];
        }
      }
    }
  }

  lemma {:induction false} PutGet(m: IdsMap, k: int, v: string)
    ensures Get(Put(m, k, v), k) == Some(v)
    ensures forall j :: j != k ==> Get(Put(m, k, v), j) == Get(m, j)
    decreases |m|
  {
    var r := Put(m, k, v);
    if m != [] {
      if m[0].0 == k {
        assert r[1..] == m[1..];
      } else {
        PutGet(m[1..], k, v);
        assert r[1..] == Put(m[1..], k, v);
      }
    }
  }

  lemma {:induction false} PutDistinct(m: IdsMap, k: int, v: string)
    requires DistinctKeys(m)
    ensures DistinctKeys(Put(m, k, v))
    decreases |m|
  {
    var r := Put(m, k, v);
    if m != [] {
      if m[0].0 == k {
        assert r[1..] == m[1..];
        forall i, j | 0 <= i < j < |r| ensures r[i].0 != r[j].0 {
          assert r[j] == m[j];
          if i > 0 { assert r[i] == m[i]; }
        }
      } else {
        assert DistinctKeys(m[1..]) by {
          forall i, j | 0 <= i < j < |m[1..]| ensures m[1..][i].0 != m[1..][j].0 {
            assert m[1..][i] == m[i + 1] && m[1..][j] == m[j + 1];
          }
        }
        PutDistinct(m[1..], k, v);
        PutKeys(m[1..], k, v);
        assert r[1..] == Put(m[1..], k, v);
        assert m[0].0 !in Keys(m[1..]) by {
          forall t | 0 <= t < |m[1..]| ensures m[1..][t].0 != m[0].0 { assert m[1..][t] == m[t + 1]; }
        }
        forall i, j | 0 <= i < j < |r| ensures r[i].0 != r[j].0 {
          if i == 0 {
            assert r[j] == r[1..][j - 1];
            assert r[j].0 in Keys(r[1..]);
          } else {
            assert r[i] == r[1..][i - 1] && r[j] == r[1..][j - 1];
          }
        }
      }
    }
  }

  /** The ids map after deleting the first id mapped to `v`, if any. */
  function RemoveFirst(m: IdsMap, v: string): IdsMap
  {
    if m == [] then []
    else if m[0].1 == v then m[1..]
    else [m[0]] + RemoveFirst(m[1..], v)
  }

  /** The position of the first entry holding `v`, or the length when there is none. */
  function FirstWith(m: IdsMap, v: string): (i: nat)
    ensures i <= |m|
    ensures forall j :: 0 <= j < i ==> m[j].1 != v
    ensures i < |m| ==> m[i].1 == v
  {
    if m == [] then 0 else if m[0].1 == v then 0 else 1 + FirstWith(m[1..], v)
  }

  /** Removal takes out exactly the first entry holding `v`, keeps every other entry in order,
      and changes nothing when `v` is absent. */
  lemma RemoveFirstSpec(m: IdsMap, v: string)
    ensures FirstWith(m, v) == |m| ==> RemoveFirst(m, v) == m
    ensures FirstWith(m, v) < |m| ==> RemoveFirst(m, v) == m[..FirstWith(m, v)] + m[FirstWith(m, v) + 1..]
  {
    var i := FirstWith(m, v);
    if i == |m| {
      RemoveAbsent(m, v);
    } else {
      RemoveFirstAt(m, v, i);
    }
  }

  lemma {:induction false} RemoveAbsent(m: IdsMap, v: string)
    requires forall j :: 0 <= j < |m| ==> m[j].1 != v
    ensures RemoveFirst(m, v) == m
    decreases |m|
  {
    if m != [] {
      RemoveAbsent(m[1..], v);
      assert [m[0]] + m[1..] == m;
    }
  }

  lemma {:induction false} RemoveFirstAt(m: IdsMap, v: string, i: nat)
    requires i < |m| && m[i].1 == v && forall j :: 0 <= j < i ==> m[j].1 != v
    ensures RemoveFirst(m, v) == m[..i] + m[i + 1..]
    decreases i
  {
    if i == 0 {
      assert m[..0] + m[1..] == m[1..];
    } else {
      var t := m[1..];
      RemoveFirstAt(t, v, i - 1);
      assert t[..i - 1] == m[1..i] && t[i..] == m[i + 1..];
      assert [m[0]] + m[1..i] == m[..i];
    }
  }

  lemma {:induction false} RemoveFirstKeys(m: IdsMap, v: string)
    ensures Keys(RemoveFirst(m, v)) <= Keys(m)
    decreases |m|
  {
    if m != [] {
      KeysCons(m);
      RemoveFirstKeys(m[1..], v);
      if m[0].1 != v {
        KeysCons(RemoveFirst(m, v));
        assert RemoveFirst(m, v)[1..] == RemoveFirst(m[1..], v);
      }
    }
  }

  /** Dropping one entry keeps the keys distinct. */
  lemma DropDistinct(m: IdsMap, i: nat)
    requires DistinctKeys(m) && i < |m|
    ensures DistinctKeys(m[..i] + m[i + 1..])
  {
    var r := m[..i] + m[i + 1..];
    forall a, b | 0 <= a < b < |r| ensures r[a].0 != r[b].0 {
      var a' := if a < i then a else a + 1;
      var b' := if b < i then b else b + 1;
      assert r[a] == m[a'] && r[b] == m[b'];
    }
  }

  /** `search`'s loop: -1 hits are dropped, every other hit is looked up (an unknown id yields
      None, as `dict.get` does). */
  function MapHits(m: IdsMap, hits: seq<int>): (r: seq<Option<string>>)
    ensures |r| <= |hits|
  {
    if hits == [] then []
    else if hits[0] == -1 then MapHits(m, hits[1..])
    else [Get(m, hits[0])] + MapHits(m, hits[1..])
  }

  lemma {:induction false} MapHitsAppend(m: IdsMap, hits: seq<int>, h: int)
    ensures MapHits(m, hits + [h]) == MapHits(m, hits) + (if h == -1 then [] else [Get(m, h)])
    decreases |hits|
  {
    if hits != [] {
      assert (hits + [h])[1..] == hits[1..] + [h];
      MapHitsAppend(m, hits[1..], h);
    } else {
      assert MapHits(m, [h][1..]) == [];
    }
  }

  /** Every -1 is dropped, and a hit list without -1 maps one to one. */
  lemma {:induction false} MapHitsCount(m: IdsMap, hits: seq<int>)
    ensures (forall i :: 0 <= i < |hits| ==> hits[i] != -1) ==>
      |MapHits(m, hits)| == |hits| && forall i :: 0 <= i < |hits| ==> MapHits(m, hits)[i] == Get(m, hits[i])
    ensures (forall i :: 0 <= i < |hits| ==> hits[i] == -1) ==> MapHits(m, hits) == []
    decreases |hits|
  {
    if hits != [] {
      MapHitsCount(m, hits[1..]);
      assert forall i :: 1 <= i < |hits| ==> hits[i] == hits[1..][i - 1];
    }
  }

  /** The contents of the `.ids` file at start-up. */
  datatype IdsFile = NoIdsFile | Unreadable | IdsLoaded(idsMap: Option<IdsMap>, nextId: Option<int>)

  class FaissStore {
    var idsMap: IdsMap
    var nextId: int
    /** The ids the FAISS index holds. */
    var indexIds: set<int>

    /** Python dictionaries never repeat a key. */
    predicate Valid()
      reads this
    {
      DistinctKeys(idsMap)
    }

    /** Every id in use is below the counter, so the counter's next value is unused. */
    predicate CounterAhead()
      reads this
    {
      forall k :: k in Keys(idsMap) ==> k < nextId
    }

    /** The index and the ids map know the same ids. */
    predicate Synced()
      reads this
    {
      indexIds == Keys(idsMap)
    }

    /** `__init__` with `_load`: `index` is the index read from disk, if any. */
    constructor (index: Option<set<int>>, ids: IdsFile)
      requires ids.IdsLoaded? && ids.idsMap.Some? ==> DistinctKeys(ids.idsMap.value)
      ensures Valid()
      ensures indexIds == (if index.Some? then index.value else {})
      ensures !ids.IdsLoaded? ==> idsMap == [] && nextId == 1
      ensures ids.IdsLoaded? ==>
        idsMap == (if ids.idsMap.Some? then ids.idsMap.value else [])
        && nextId == (if ids.nextId.Some? then ids.nextId.value else 1)
    {
      indexIds := if index.Some? then index.value else {};
      idsMap := [];
      nextId := 1;
      if ids.IdsLoaded? {
        idsMap := if ids.idsMap.Some? then ids.idsMap.value else [];
        nextId := if ids.nextId.Some? then ids.nextId.value else 1;
      }
    }

    /** `_get_next_id`. */
    method GetNextId() returns (id: int)
      modifies this
      ensures id == old(nextId) && nextId == old(nextId) + 1
      ensures idsMap == old(idsMap) && indexIds == old(indexIds)
    {
      id := nextId;
      nextId := nextId + 1;
    }

    /** `add`: the next id goes into the index and maps to `protoId`. */
    method Add(protoId: string)
      requires Valid()
      modifies this
      ensures Valid()
      ensures nextId == old(nextId) + 1
      ensures idsMap == Put(old(idsMap), old(nextId), protoId)
      ensures indexIds == old(indexIds) + {old(nextId)}
      ensures old(CounterAhead()) ==> CounterAhead() && idsMap == old(idsMap) + [(old(nextId), protoId)]
      ensures old(Synced()) ==> Synced()
    {
      PutSpec(idsMap, nextId, protoId);
      if CounterAhead() {
        PutAhead(idsMap, nextId, protoId);
      }
      var id := GetNextId();
      indexIds := indexIds + {id};
      idsMap := Put(idsMap, id, protoId);
    }

    /** `search`: `hits` are the ids the index returns, `dists` their scores. */
    method Search(hits: seq<int>, dists: seq<real>) returns (ids: seq<Option<string>>, scores: seq<real>)
      ensures ids == MapHits(idsMap, hits) && scores == dists
    {
      ids := [];
      for i := 0 to |hits|
        invariant ids == MapHits(idsMap, hits[..i])
      {
        MapHitsAppend(idsMap, hits[..i], hits[i]);
        assert hits[..i + 1] == hits[..i] + [hits[i]];
        if hits[i] != -1 {
          ids := ids + [Get(idsMap, hits[i])];
        }
      }
      assert hits[..|hits|] == hits;
      scores := dists;
    }

    /** `remove`: the first id mapped to `protoId` leaves the map and the index. */
    method Remove(protoId: string)
      requires Valid()
      modifies this
      ensures Valid()
      ensures idsMap == RemoveFirst(old(idsMap), protoId)
      ensures nextId == old(nextId)
      ensures FirstWith(old(idsMap), protoId) == |old(idsMap)| ==> idsMap == old(idsMap) && indexIds == old(indexIds)
      ensures FirstWith(old(idsMap), protoId) < |old(idsMap)| ==>
        indexIds == old(indexIds) - {old(idsMap)[FirstWith(old(idsMap), protoId)].0}
      ensures old(CounterAhead()) ==> CounterAhead()
      ensures old(Synced()) ==> Synced()
    {
      RemoveFirstSpec(idsMap, protoId);
      var i := 0;
      while i < |idsMap| && idsMap[i].1 != protoId
        invariant 0 <= i <= |idsMap|
        invariant forall j :: 0 <= j < i ==> idsMap[j].1 != protoId
      {
        i := i + 1;
      }
      assert i == FirstWith(idsMap, protoId);
      if i < |idsMap| {
        var id := idsMap[i].0;
        indexIds := indexIds - {id};
        DropKeys(idsMap, i);
        DropDistinct(idsMap, i);
        idsMap := idsMap[..i] + idsMap[i + 1..];
      }
    }
  }

  /** Dropping the entry at `i` of a map without repeated keys drops exactly its key. */
  lemma DropKeys(m: IdsMap, i: nat)
    requires DistinctKeys(m) && i < |m|
    ensures Keys(m[..i] + m[i + 1..]) == Keys(m) - {m[i].0}
  {
    var r := m[..i] + m[i + 1..];
    forall k | k in Keys(r) ensures k in Keys(m) - {m[i].0} {
      var j :| 0 <= j < |r| && r[j].0 == k;
      if j < i { assert r[j] == m[j]; } else { assert r[j] == m[j + 1]; }
    }
    forall k | k in Keys(m) - {m[i].0} ensures k in Keys(r) {
      var j :| 0 <= j < |m| && m[j].0 == k;
      if j < i { assert r[j] == m[j]; } else { assert r[j - 1] == m[j]; }
    }
  }

  /** Ids are never reused: from a fresh store, each `add` hands out an id larger than every id
      in use, even after removals. */
  lemma AddAfterRemoveIsFresh(m: IdsMap, nextId: int, v: string, w: string)
    requires forall k :: k in Keys(m) ==> k < nextId
    ensures nextId !in Keys(RemoveFirst(m, v))
    ensures forall k :: k in Keys(Put(RemoveFirst(m, v), nextId, w)) ==> k < nextId + 1
  {
    RemoveFirstKeys(m, v);
    PutSpec(RemoveFirst(m, v), nextId, w);
  }
}

=== FILE: file_upload_console.dfy ===
/** The upload console: the list of chosen files, the per-file progress and error maps that
    uploads update, file removal, and the choice of preview. */
module FileUploadConsole {
  import opened Wrappers
  import opened Text

  /** A file chosen or dropped by the user, with the object URL created for it. */
  datatype Picked = Picked(name: string, mime: string, url: string)

  datatype FileEntry = FileEntry(name: string, mime: string, previewUrl: string, id: string)

  /** The component's state: the files, the upload progress per file id, the error per file id. */
  datatype Console = Console(files: seq<FileEntry>, uploading: map<string, int>, errors: map<string, string>)

  /** `${file.name}-${Date.now()}`. */
  function FileId(name: string, now: nat): string { name + "-" + Digits(now) }

  function Entries(picked: seq<Picked>, now: nat): (es: seq<FileEntry>)
    ensures |es| == |picked|
    ensures forall i :: 0 <= i < |picked| ==>
      es[i] == FileEntry(picked[i].name, picked[i].mime, picked[i].url, FileId(picked[i].name, now))
  {
    if picked == [] then [] else [FileEntry(picked[0].name, picked[0].mime, picked[0].url, FileId(picked[0].name, now))] + Entries(picked[1..], now)
  }

  /** `handleChange` and `handleDrop`: the new entries go after the existing ones, and every
      error is cleared; progress is untouched. */
  function AddFiles(c: Console, picked: seq<Picked>, now: nat): (r: Console)
    ensures |r.files| == |c.files| + |picked| && r.files[..|c.files|] == c.files
    ensures forall i :: 0 <= i < |picked| ==>
      r.files[|c.files| + i].name == picked[i].name && r.files[|c.files| + i].id == FileId(picked[i].name, now)
    ensures r.errors == map[] && r.uploading == c.uploading
  {
    Console(c.files + Entries(picked, now), c.uploading, map[])
  }

  /** Two files with the same name picked in the same millisecond get the same id, so removing
      one removes both. */
  lemma SameNameSameId(c: Console, a: Picked, b: Picked, now: nat)
    requires a.name == b.name
    ensures var r := AddFiles(c, [a, b], now);
      r.files[|c.files|].id == r.files[|c.files| + 1].id
      && r.files[|c.files|] !in RemoveFile(r, r.files[|c.files|].id).files
      && r.files[|c.files| + 1] !in RemoveFile(r, r.files[|c.files|].id).files
  {
  }

  /** Uploading starts at 0 percent. */
  function StartUpload(c: Console, id: string): (r: Console)
    ensures r.uploading == c.uploading[id := 0] && r.files == c.files && r.errors == c.errors
  {
    c.(uploading := c.uploading[id := 0])
  }

  /** What `onResult` receives after a successful upload. */
  datatype Uploaded<D> = Uploaded(kind: string, data: D, file: string)

  /** A successful upload: the id leaves the progress map and the result is reported as a file. */
  function UploadSucceeded<D>(c: Console, f: FileEntry, data: D): (r: (Console, Uploaded<D>))
    ensures r.0.uploading == c.uploading - {f.id} && r.0.files == c.files && r.0.errors == c.errors
    ensures r.1.kind == "file" && r.1.data == data && r.1.file == f.name
  {
    (c.(uploading := c.uploading - {f.id}), Uploaded("file", data, f.name))
  }

  /** `e?.response?.data?.detail || e.message`. */
  function ErrorMessage(detail: Option<string>, message: string): string
  {
    if detail.Some? && detail.value != "" then detail.value else message
  }

  /** A failed upload: the error is recorded under the id and the id leaves the progress map. */
  function UploadFailed(c: Console, id: string, detail: Option<string>, message: string): (r: Console)
    ensures r.errors == c.errors[id := ErrorMessage(detail, message)]
    ensures r.uploading == c.uploading - {id} && r.files == c.files
  {
    Console(c.files, c.uploading - {id}, c.errors[id := ErrorMessage(detail, message)])
  }

  /** After an upload ends, either way, the file no longer shows progress, and no other file's
      progress or error has changed. */
  lemma UploadLifecycle<D>(c: Console, f: FileEntry, data: D, detail: Option<string>, message: string, other: string)
    requires other != f.id
    ensures f.id !in UploadSucceeded(StartUpload(c, f.id), f, data).0.uploading
    ensures f.id !in UploadFailed(StartUpload(c, f.id), f.id, detail, message).uploading
    ensures UploadFailed(StartUpload(c, f.id), f.id, detail, message).errors[f.id] == ErrorMessage(detail, message)
    ensures other in c.uploading <==> other in UploadFailed(StartUpload(c, f.id), f.id, detail, message).uploading
    ensures other in c.uploading ==> UploadSucceeded(StartUpload(c, f.id), f, data).0.uploading[other] == c.uploading[other]
    ensures other in c.errors ==> UploadFailed(StartUpload(c, f.id), f.id, detail, message).errors[other] == c.errors[other]
  {
  }

  function FilterOut(files: seq<FileEntry>, id: string): (r: seq<FileEntry>)
    ensures forall f :: f in r <==> f in files && f.id != id
  {
    if files == [] then []
    else
      assert forall f :: f in files <==> f == files[0] || f in files[1..];
      (if files[0].id != id then [files[0]] else []) + FilterOut(files[1..], id)
  }

  /** `removeFile`: the id disappears from the files, the errors and the progress map. */
  function RemoveFile(c: Console, id: string): Console
  {
    Console(FilterOut(c.files, id), c.uploading - {id}, c.errors - {id})
  }

  /** Removal touches nothing but the given id. */
  lemma RemoveFileFrames(c: Console, id: string)
    ensures forall f :: f in RemoveFile(c, id).files <==> f in c.files && f.id != id
    ensures id !in RemoveFile(c, id).uploading && id !in RemoveFile(c, id).errors
    ensures forall k :: k != id ==> (k in c.uploading <==> k in RemoveFile(c, id).uploading)
    ensures forall k :: k != id && k in c.uploading ==> RemoveFile(c, id).uploading[k] == c.uploading[k]
    ensures forall k :: k != id && k in c.errors ==> k in RemoveFile(c, id).errors && RemoveFile(c, id).errors[k] == c.errors[k]
  {
  }

  datatype PreviewKind = ImagePreview | VideoPreview | AudioPreview | JsonName | PlainName

  /** `renderPreview`'s choice. */
  function PreviewOf(f: FileEntry): PreviewKind
  {
    if StartsWith(f.mime, "image/") then ImagePreview
    else if StartsWith(f.mime, "video/") then VideoPreview
    else if StartsWith(f.mime, "audio/") then AudioPreview
    else if f.mime == "application/json" || EndsWith(f.name, ".json") then JsonName
    else PlainName
  }

  /** Each media MIME family gets its own player or image, whatever the name says; otherwise a
      ".json" name alone, or the JSON MIME type alone, is enough for the JSON label, and any
      other file shows its bare name. */
  lemma PreviewRules(f: FileEntry)
    ensures PreviewOf(f) == ImagePreview <==> StartsWith(f.mime, "image/")
    ensures PreviewOf(f) == VideoPreview <==> StartsWith(f.mime, "video/")
    ensures PreviewOf(f) == AudioPreview <==> StartsWith(f.mime, "audio/")
    ensures PreviewOf(f) == JsonName <==>
      !StartsWith(f.mime, "image/") && !StartsWith(f.mime, "video/") && !StartsWith(f.mime, "audio/")
      && (f.mime == "application/json" || EndsWith(f.name, ".json"))
    ensures PreviewOf(f) == PlainName <==>
      !StartsWith(f.mime, "image/") && !StartsWith(f.mime, "video/") && !StartsWith(f.mime, "audio/")
      && f.mime != "application/json" && !EndsWith(f.name, ".json")
  {
  }

  lemma JsonByName()
    ensures PreviewOf(FileEntry("data.json", "", "", "")) == JsonName
    ensures PreviewOf(FileEntry("photo.json", "image/png", "", "")) == ImagePreview
  {
    assert "data.json"[4..] == ".json";
    assert "image/png"[..6] == "image/";
  }
}

=== FILE: footer_bar.dfy ===
/** The footer bar's rules: splitting the links into visible ones and a "More" menu, the theme
    toggle, link-click default handling, keyboard activation in the menu and label defaults. */
module FooterBar {
  import opened Wrappers
  import opened JsArray

  datatype Link = Link(caption: string, href: string)

  /** The `links` prop: an array of links, or some other value. */
  datatype LinksProp = LinkArray(links: seq<Link>) | NotAnArray

  datatype Split = Split(visible: seq<Link>, overflow: seq<Link>)

  /** The `useMemo` link split. */
  function SplitLinks(prop: LinksProp, maxLinks: int): Split
  {
    match prop
    case NotAnArray => Split([], [])
    case LinkArray(links) =>
      if |links| <= maxLinks then Split(links, [])
      else Split(Slice(links, 0, maxLinks), SliceFrom(links, maxLinks))
  }

  /** Nothing is lost or duplicated: the visible links followed by the overflow are the links;
      for a non-negative limit, at most that many are visible. */
  lemma SplitLinksPartition(prop: LinksProp, maxLinks: int)
    ensures prop.NotAnArray? ==> SplitLinks(prop, maxLinks) == Split([], [])
    ensures prop.LinkArray? ==> SplitLinks(prop, maxLinks).visible + SplitLinks(prop, maxLinks).overflow == prop.links
    ensures prop.LinkArray? && maxLinks >= 0 ==>
      |SplitLinks(prop, maxLinks).visible| == Min(maxLinks, |prop.links|)
      && (|prop.links| > maxLinks ==> |SplitLinks(prop, maxLinks).overflow| == |prop.links| - maxLinks)
  {
    if prop.LinkArray? && |prop.links| > maxLinks {
      var links := prop.links;
      var b := Bound(maxLinks, |links|);
      assert Slice(links, 0, maxLinks) == links[..b];
      assert links[..b] + links[b..] == links;
    }
  }

  /** `toggleMode`. */
  function ToggleMode(mode: string): string
  {
    if mode == "dark" then "light" else "dark"
  }

  /** The toggle always lands on dark or light, flips between the two, and turns any other mode
      into dark. */
  lemma ToggleModeFlips(mode: string)
    ensures ToggleMode(mode) in {"dark", "light"} && ToggleMode(mode) != mode
    ensures mode in {"dark", "light"} ==> ToggleMode(ToggleMode(mode)) == mode
    ensures mode !in {"dark", "light"} ==> ToggleMode(ToggleMode(mode)) == "light"
  {
  }

  /** The mode at mount: the saved mode when there is a non-empty one, else the theme's. */
  function InitialMode(saved: Option<string>, themeMode: string): (m: string)
    ensures saved.Some? && saved.value != "" ==> m == saved.value
    ensures saved.None? || saved.value == "" ==> m == themeMode
  {
    if saved.Some? && saved.value != "" then saved.value else themeMode
  }

  /** The mode effect saves every mode under "themeMode" and a mount reads it back: a saved mode
      survives a reload whatever the theme then says, a toggled mode included, and a first
      mount's theme mode is kept once saved. */
  lemma ModeSurvivesReload(mode: string, themeMode: string, laterTheme: string)
    ensures mode != "" ==> InitialMode(Some(mode), laterTheme) == mode
    ensures InitialMode(Some(ToggleMode(mode)), laterTheme) == ToggleMode(mode)
    ensures themeMode != "" ==> InitialMode(Some(InitialMode(None, themeMode)), laterTheme) == themeMode
  {
  }

  /** What the optional `onLinkClick` handler did. */
  datatype Handler = NoHandler | Returned(isFalse: bool) | Threw

  /** Whether `handleLinkClick` calls `event.preventDefault()`: only when the handler did not
      return false, the link goes nowhere (no href or "#"), and there is an event. */
  function LinkClickPreventsDefault(link: Link, h: Handler, hasEvent: bool): bool
  {
    var prevented := h == Returned(true);
    if !prevented && link.href != "" && link.href != "#" then false
    else if !prevented then hasEvent
    else false
  }

  lemma LinkClickRule(link: Link, h: Handler, hasEvent: bool)
    ensures h == Returned(true) ==> !LinkClickPreventsDefault(link, h, hasEvent)
    ensures h != Returned(true) && hasEvent ==>
      (LinkClickPreventsDefault(link, h, hasEvent) <==> link.href == "" || link.href == "#")
    ensures LinkClickPreventsDefault(link, Threw, hasEvent) == LinkClickPreventsDefault(link, NoHandler, hasEvent)
  {
  }

  datatype KeyOutcome = KeyOutcome(activated: bool, defaultPrevented: bool, menuOpen: bool)

  /** `handleKeyMenuActivate`: Enter or Space prevents the default, clicks the link and closes
      the menu; any other key does nothing. */
  function KeyMenuActivate(key: string, link: Link, h: Handler, menuOpen: bool): KeyOutcome
  {
    if key == "Enter" || key == " " then KeyOutcome(true, true, false)
    else KeyOutcome(false, false, menuOpen)
  }

  /** A click on an item of the overflow menu: the link's click handling, then the menu closes. */
  function MenuItemClick(link: Link, h: Handler): KeyOutcome
  {
    KeyOutcome(true, LinkClickPreventsDefault(link, h, true), false)
  }

  /** Enter or Space on a menu item does what clicking it does, except that the key's default
      action is always prevented; any other key leaves the menu as it is. */
  lemma KeyActivationIsClick(key: string, link: Link, h: Handler, menuOpen: bool)
    ensures key == "Enter" || key == " " ==>
      KeyMenuActivate(key, link, h, menuOpen) == MenuItemClick(link, h).(defaultPrevented := true)
    ensures key != "Enter" && key != " " ==>
      !KeyMenuActivate(key, link, h, menuOpen).activated && KeyMenuActivate(key, link, h, menuOpen).menuOpen == menuOpen
  {
  }

  /** The `labels` prop: absent, or an object whose fields may be absent. */
  datatype Labels = Labels(poweredBy: Option<string>, version: Option<string>)

  /** `labels?.poweredBy ?? "Powered by " + product`: an override applies whenever present, even
      when it is the empty string. */
  function PoweredByText(labels: Option<Labels>, product: string): (t: string)
    ensures labels.Some? && labels.value.poweredBy.Some? ==> t == labels.value.poweredBy.value
    ensures labels.None? || labels.value.poweredBy.None? ==> t == "Powered by " + product
  {
    if labels.Some? && labels.value.poweredBy.Some? then labels.value.poweredBy.value else "Powered by " + product
  }

  /** `labels?.version ?? version`. */
  function VersionText(labels: Option<Labels>, version: string): (t: string)
    ensures labels.Some? && labels.value.version.Some? ==> t == labels.value.version.value
    ensures labels.None? || labels.value.version.None? ==> t == version
  {
    if labels.Some? && labels.value.version.Some? then labels.value.version.value else version
  }

  /** The left-hand credit line `StackLeft` renders: the powered-by text and the version text
      joined by a bullet. */
  function CreditLine(labels: Option<Labels>, product: string, version: string): string
  {
    PoweredByText(labels, product) + " \U{2022} " + VersionText(labels, version)
  }

  /** Without labels the line names the product and the version; each override present takes
      its place independently of the other, and an empty override blanks its part instead of
      falling back, since `??` falls back only on a missing value. */
  lemma CreditLineOverrides(product: string, version: string, p: string, v: string)
    ensures CreditLine(None, product, version) == "Powered by " + product + " \U{2022} " + version
    ensures CreditLine(Some(Labels(None, None)), product, version) == CreditLine(None, product, version)
    ensures CreditLine(Some(Labels(Some(p), None)), product, version) == p + " \U{2022} " + version
    ensures CreditLine(Some(Labels(None, Some(v))), product, version) == "Powered by " + product + " \U{2022} " + v
    ensures CreditLine(Some(Labels(Some(""), Some(""))), product, version) == " \U{2022} "
  {
  }
}

=== FILE: js_array.dfy ===
/** JavaScript's `Array.prototype.slice`, whose bounds may be negative (counted from the end)
    or out of range (clamped), and the `slice(-n)` tail window the interface code uses. */
module JsArray {

  /** A slice bound resolved against a length: negative counts from the end; clamped. */
  function Bound(i: int, len: nat): (b: nat)
    ensures b <= len
  {
    if i < 0 then (if len + i < 0 then 0 else len + i) else if i > len then len else i
  }

  /** `s.slice(start, end)`. */
  function Slice<T>(s: seq<T>, start: int, end: int): (r: seq<T>)
    ensures |r| <= |s|
  {
    var a, b := Bound(start, |s|), Bound(end, |s|);
    if b <= a then [] else s[a..b]
  }

  /** `s.slice(start)`. */
  function SliceFrom<T>(s: seq<T>, start: int): (r: seq<T>)
    ensures |r| <= |s|
  {
    s[Bound(start, |s|)..]
  }

  /** `s.slice(-n)` for a positive `n` keeps the last `n` elements (all of them when there are
      fewer); `s.slice(0, n)` keeps the first `n`. */
  lemma TailWindow<T>(s: seq<T>, n: int)
    requires n > 0
    ensures |SliceFrom(s, -n)| == if |s| < n then |s| else n
    ensures SliceFrom(s, -n) == if |s| <= n then s else s[|s| - n..]
    ensures Slice(s, 0, n) == if |s| <= n then s else s[..n]
  {
  }
}

=== FILE: left_sidebar.dfy ===
/** The left sidebar: polling `/metrics` with per-field fallbacks, the 20-point chart window,
    the queue bar, the response interceptor's error handling, the quick actions and the
    language toggle. */
module LeftSidebar {
  import opened Wrappers
  import opened JsArray

  datatype Metrics = Metrics(cpu: real, mem: real, queue: real)

  /** A `/metrics` body: each field may be missing or null. */
  datatype Body = Body(cpu: Option<real>, mem: Option<real>, queue: Option<real>)

  /** How a request ended: a response with a body (absent when the server sent none), an HTTP
      error with its status, or no response at all. */
  datatype Reply = Answered(body: Option<Body>) | HttpError(status: int) | NoResponse

  datatype Point = Point(ts: int, cpu: real, mem: real, qlen: real)

  datatype Message = Unauthorized | FetchFail | RestartSuccess | RestartFail | ExportSuccess | ExportFail
  datatype Severity = Info | Success | Failure
  datatype Snack = Snack(open: bool, message: Option<Message>, severity: Severity)

  /** `metrics` is what the panel shows; `captured` is the value of `metrics` in the render whose
      `fetchMetrics` the interval timer calls (the effect re-runs only when the interval changes). */
  datatype Sidebar = Sidebar(metrics: Metrics, captured: Metrics, chart: seq<Point>, apiOnline: bool, snack: Snack)

  const ChartWindow := 20

  function Initial(): (s: Sidebar)
    ensures s.metrics == Metrics(0.0, 0.0, 0.0) && s.chart == [] && s.apiOnline
  {
    Sidebar(Metrics(0.0, 0.0, 0.0), Metrics(0.0, 0.0, 0.0), [], true, Snack(false, None, Info))
  }

  /** `Math.min(qlen * 10, 100)`, for the chart point and the progress bar. */
  function QueueBar(q: real): (v: real)
    ensures v <= 100.0
    ensures 0.0 <= q ==> 0.0 <= v
    ensures q <= 10.0 ==> v == q * 10.0
  {
    if q * 10.0 < 100.0 then q * 10.0 else 100.0
  }

  /** `x ?? fallback`. */
  function OrElse(x: Option<real>, fallback: real): real
  {
    if x.Some? then x.value else fallback
  }

  function Merge(body: Option<Body>, base: Metrics): Metrics
  {
    var b := if body.Some? then body.value else Body(None, None, None);
    Metrics(OrElse(b.cpu, base.cpu), OrElse(b.mem, base.mem), OrElse(b.queue, base.queue))
  }

  /** The response interceptor: 401 and 403 raise the unauthorized message; no response marks
      the server offline. */
  function Intercept(s: Sidebar, r: Reply): Sidebar
  {
    var s1 := if r.HttpError? && (r.status == 401 || r.status == 403) then s.(snack := Snack(true, Some(Unauthorized), Failure)) else s;
    if r.NoResponse? then s1.(apiOnline := false) else s1
  }

  /** One successful poll whose fields fall back to `base`. */
  function Received(s: Sidebar, body: Option<Body>, base: Metrics, now: int): Sidebar
  {
    var m := Merge(body, base);
    var p := Point(now, m.cpu, m.mem, QueueBar(m.queue));
    s.(metrics := m, chart := SliceFrom(s.chart + [p], -ChartWindow), apiOnline := true)
  }

  /** `fetchMetrics` as the timer runs it: the fallbacks read the captured metrics. */
  function FetchAsWritten(s: Sidebar, r: Reply, now: int): Sidebar
  {
    if r.Answered? then Received(s, r.body, s.captured, now)
    else Intercept(s, r).(snack := Snack(true, Some(FetchFail), Failure))
  }

  /** `fetchMetrics` with the fallbacks reading the metrics currently shown. */
  function Fetch(s: Sidebar, r: Reply, now: int): Sidebar
  {
    if r.Answered? then Received(s, r.body, s.metrics, now)
    else Intercept(s, r).(snack := Snack(true, Some(FetchFail), Failure))
  }

  /** The interval effect: a new timer whose callback sees the current metrics, and an
      immediate poll. */
  function ChangeInterval(s: Sidebar, r: Reply, now: int): Sidebar
  {
    FetchAsWritten(s.(captured := s.metrics), r, now)
  }

  /** A field missing from the reply keeps the value shown before; a present field replaces it. */
  lemma FetchKeepsMissingFields(s: Sidebar, body: Body, now: int)
    ensures var m := Fetch(s, Answered(Some(body)), now).metrics;
      (body.cpu.None? ==> m.cpu == s.metrics.cpu) && (body.cpu.Some? ==> m.cpu == body.cpu.value)
      && (body.mem.None? ==> m.mem == s.metrics.mem) && (body.mem.Some? ==> m.mem == body.mem.value)
      && (body.queue.None? ==> m.queue == s.metrics.queue) && (body.queue.Some? ==> m.queue == body.queue.value)
    ensures Fetch(s, Answered(None), now).metrics == s.metrics
  {
  }

  /** With the timer's closure, two polls in a row (values, then an empty body) fall back to the
      zeros captured at mount instead of the values just shown. */
  lemma StaleFallback(now: int)
    ensures var s1 := ChangeInterval(Initial(), Answered(Some(Body(Some(50.0), Some(60.0), Some(2.0)))), now);
      s1.metrics == Metrics(50.0, 60.0, 2.0)
      && FetchAsWritten(s1, Answered(Some(Body(None, None, None))), now + 5000).metrics == Metrics(0.0, 0.0, 0.0)
      && Fetch(s1, Answered(Some(Body(None, None, None))), now + 5000).metrics == Metrics(50.0, 60.0, 2.0)
  {
  }

  /** The chart gains the new point at its end and keeps only the last 20. */
  lemma ChartKeepsLastTwenty(s: Sidebar, r: Reply, now: int)
    requires r.Answered?
    ensures var c := Fetch(s, r, now).chart;
      |c| == Min(|s.chart| + 1, ChartWindow)
      && c[|c| - 1] == Point(now, Fetch(s, r, now).metrics.cpu, Fetch(s, r, now).metrics.mem, QueueBar(Fetch(s, r, now).metrics.queue))
      && (|s.chart| < ChartWindow ==> c == s.chart + [c[|c| - 1]])
      && (|s.chart| >= ChartWindow ==> c[..|c| - 1] == s.chart[|s.chart| - ChartWindow + 1..])
  {
    TailWindow(s.chart + [Point(now, Fetch(s, r, now).metrics.cpu, Fetch(s, r, now).metrics.mem, QueueBar(Fetch(s, r, now).metrics.queue))], ChartWindow);
  }

  /** Error handling: every failed poll ends on the fetch-failure message (it replaces the
      unauthorized one); only a missing response marks the server offline, and only a successful
      poll marks it online again. */
  lemma FetchErrorPaths(s: Sidebar, r: Reply, now: int)
    ensures r.Answered? ==> Fetch(s, r, now).apiOnline && Fetch(s, r, now).snack == s.snack
    ensures !r.Answered? ==>
      Fetch(s, r, now).snack.message == Some(FetchFail) && Fetch(s, r, now).metrics == s.metrics && Fetch(s, r, now).chart == s.chart
    ensures r.NoResponse? ==> !Fetch(s, r, now).apiOnline
    ensures r.HttpError? ==> Fetch(s, r, now).apiOnline == s.apiOnline
  {
  }

  /** The interceptor alone: 401 or 403 raises the unauthorized message, other errors leave it. */
  lemma InterceptorUnauthorized(s: Sidebar, status: int)
    ensures Intercept(s, HttpError(status)).snack.message == Some(Unauthorized) <==>
      status == 401 || status == 403 || s.snack.message == Some(Unauthorized)
    ensures Intercept(s, HttpError(status)).apiOnline == s.apiOnline
  {
  }

  datatype Action = Restart | ExportLogs

  /** `handleRestart` and `handleExport`: the result message after the interceptor has run. */
  function ActionFinished(s: Sidebar, a: Action, r: Reply): Sidebar
  {
    var msg := match (a, r.Answered?)
      case (Restart, true) => RestartSuccess
      case (Restart, false) => RestartFail
      case (ExportLogs, true) => ExportSuccess
      case (ExportLogs, false) => ExportFail;
    Intercept(s, r).(snack := Snack(true, Some(msg), if r.Answered? then Success else Failure))
  }

  lemma ActionMessages(s: Sidebar, a: Action, r: Reply)
    ensures ActionFinished(s, a, r).snack.open
    ensures ActionFinished(s, a, r).snack.message ==
      Some(if a == Restart then (if r.Answered? then RestartSuccess else RestartFail) else (if r.Answered? then ExportSuccess else ExportFail))
    ensures ActionFinished(s, a, r).metrics == s.metrics && ActionFinished(s, a, r).chart == s.chart
  {
  }

  /** `toggleLanguage`. */
  function ToggleLanguage(lang: string): string
  {
    if lang == "ar" then "en" else "ar"
  }

  /** The language at start: the saved one if non-empty, else Arabic. */
  function InitialLanguage(saved: Option<string>): (l: string)
    ensures saved.Some? && saved.value != "" ==> l == saved.value
    ensures saved.None? || saved.value == "" ==> l == "ar"
  {
    if saved.Some? && saved.value != "" then saved.value else "ar"
  }

  /** `toggleLanguage` saves the new language under "lng" and the next start reads it back, so a
      toggle survives a reload. */
  lemma LanguageSurvivesReload(lang: string)
    ensures InitialLanguage(Some(ToggleLanguage(lang))) == ToggleLanguage(lang)
    ensures InitialLanguage(Some(ToggleLanguage(InitialLanguage(None)))) == "en"
  {
  }

  lemma ToggleLanguageFlips(lang: string)
    ensures ToggleLanguage(lang) in {"ar", "en"} && ToggleLanguage(lang) != lang
    ensures lang in {"ar", "en"} ==> ToggleLanguage(ToggleLanguage(lang)) == lang
    ensures lang !in {"ar", "en"} ==> ToggleLanguage(lang) == "ar"
  {
  }
}

=== FILE: proto_memory.dfy ===
/** Prototype memory: an embedding either joins the nearest known prototype (when the store's
    best hit is similar enough) or founds a new one with a zero-padded sequential id. */
module Prototypes {
  import opened Wrappers
  import opened Text
  import opened VectorStore

  /** Metadata attached to a prototype: none, the teacher's, or anything else. */
  datatype Meta = NoMeta | Taught(conceptLabel: string) | OtherMeta

  datatype Proto = Proto(protoId: string, centroid: seq<real>, modality: string, count: nat, meta: Meta, lastUpdated: int)

  /** `f"p_{n:05d}"`. */
  function ProtoIdFor(n: nat): string { "p_" + Pad5(n) }

  lemma ProtoIdInjective(a: nat, b: nat)
    requires ProtoIdFor(a) == ProtoIdFor(b)
    ensures a == b
  {
    assert ProtoIdFor(a)[2..] == Pad5(a) && ProtoIdFor(b)[2..] == Pad5(b);
    Pad5Injective(a, b);
  }

  /** Every entry is filed under its own id. */
  predicate ById(protos: map<string, Proto>)
  {
    forall k :: k in protos ==> protos[k].protoId == k
  }

  /** The ids in use are exactly `p_00000` up to the count, as when every prototype was created
      by `assign`. */
  predicate Dense(protos: map<string, Proto>)
  {
    forall k :: k in protos ==> exists i: nat :: i < |protos| && k == ProtoIdFor(i)
  }

  /** No later line carries the same prototype id as line `i`. */
  predicate LastOfItsId(lines: seq<Option<Proto>>, i: nat)
    requires i < |lines|
  {
    lines[i].Some? && forall j :: i < j < |lines| ==> lines[j].None? || lines[j].value.protoId != lines[i].value.protoId
  }

  /** `_load_metadata`: each line is a prototype (None for a line that does not parse, which
      makes the load raise); a later line with the same id replaces an earlier one. */
  function LoadMetadata(lines: seq<Option<Proto>>): (r: Result<map<string, Proto>, string>)
    ensures r.Err? <==> exists i :: 0 <= i < |lines| && lines[i].None?
    ensures r.Ok? ==> ById(r.value)
    ensures r.Ok? ==> forall i :: 0 <= i < |lines| ==> lines[i].value.protoId in r.value
    ensures r.Ok? ==> forall k :: k in r.value ==> exists i :: 0 <= i < |lines| && lines[i] == Some(r.value[k])
  {
    if lines == [] then Ok(map[])
    else
      var init := lines[..|lines| - 1];
      var last := lines[|lines| - 1];
      var before := LoadMetadata(init);
      assert forall i :: 0 <= i < |init| ==> init[i] == lines[i];
      if before.Err? then Err(before.error)
      else if last.None? then Err("malformed metadata line")
      else Ok(before.value[last.value.protoId := last.value])
  }

  /** A line that no later line shares an id with is the prototype stored under that id: the
      last line for an id wins. */
  lemma {:induction false} LoadMetadataLastWins(lines: seq<Option<Proto>>, i: nat)
    requires LoadMetadata(lines).Ok? && i < |lines| && LastOfItsId(lines, i)
    ensures LoadMetadata(lines).value[lines[i].value.protoId] == lines[i].value
    decreases |lines|
  {
    var init := lines[..|lines| - 1];
    if i < |lines| - 1 {
      assert init[i] == lines[i];
      forall j | i < j < |init| ensures init[j].None? || init[j].value.protoId != init[i].value.protoId {
        assert init[j] == lines[j];
      }
      LoadMetadataLastWins(init, i);
    }
  }

  /** The result of `assign` and the state it leaves: `created` tells which branch ran. */
  datatype Assigned = Assigned(protos: map<string, Proto>, id: Result<string, string>, created: bool)

  /** Whether the store's best hit is taken: a similarity at or above the threshold and a
      non-empty prototype id. */
  predicate HitTaken(ids: seq<Option<string>>, sims: seq<real>, threshold: real)
  {
    |ids| > 0 && |sims| > 0 && sims[0] >= threshold && ids[0].Some? && ids[0].value != ""
  }

  /** The new prototype a miss creates, centred on the (normalised) embedding. */
  function Founded(protos: map<string, Proto>, unit: seq<real>, modality: string, meta: Meta, now: int): Proto
  {
    Proto(ProtoIdFor(|protos|), unit, modality, 1, meta, now)
  }

  /** `assign` on the prototypes, given what the store's search returned. */
  function AssignOutcome(protos: map<string, Proto>, ids: seq<Option<string>>, sims: seq<real>, threshold: real,
                         embedding: seq<real>, modality: string, meta: Meta, now: int): Assigned
  {
    if HitTaken(ids, sims, threshold) then
      var pid := ids[0].value;
      if pid !in protos then Assigned(protos, Err("KeyError"), false)
      else Assigned(protos[pid := protos[pid].(count := protos[pid].count + 1, lastUpdated := now)], Ok(pid), false)
    else
      var p := Founded(protos, embedding, modality, meta, now);
      Assigned(protos[p.protoId := p], Ok(p.protoId), true)
  }

  /** Under the dense-id invariant, a miss adds exactly one prototype, with a fresh id, count 1
      and the given modality and meta, and the invariant holds afterwards. */
  lemma AssignMissCreates(protos: map<string, Proto>, ids: seq<Option<string>>, sims: seq<real>, threshold: real,
                          embedding: seq<real>, modality: string, meta: Meta, now: int)
    requires Dense(protos) && ById(protos) && !HitTaken(ids, sims, threshold)
    ensures var p := Founded(protos, embedding, modality, meta, now);
      AssignOutcome(protos, ids, sims, threshold, embedding, modality, meta, now)
        == Assigned(protos[p.protoId := p], Ok(p.protoId), true)
    ensures var p := Founded(protos, embedding, modality, meta, now);
      p.protoId !in protos && |protos[p.protoId := p]| == |protos| + 1
      && Dense(protos[p.protoId := p]) && ById(protos[p.protoId := p])
  {
    var p := Founded(protos, embedding, modality, meta, now);
    FreshUnderDense(protos);
    DenseAfterInsert(protos, p);
  }

  /** A taken hit on a known prototype bumps its count by exactly one and adds nothing; a hit
      on an unknown id changes nothing. The invariant holds afterwards. */
  lemma AssignHitBumps(protos: map<string, Proto>, ids: seq<Option<string>>, sims: seq<real>, threshold: real,
                       embedding: seq<real>, modality: string, meta: Meta, now: int)
    requires Dense(protos) && ById(protos) && HitTaken(ids, sims, threshold)
    ensures var a := AssignOutcome(protos, ids, sims, threshold, embedding, modality, meta, now);
      !a.created
      && (ids[0].value in protos ==>
            a.id == Ok(ids[0].value) && a.protos.Keys == protos.Keys
            && a.protos[ids[0].value].count == protos[ids[0].value].count + 1)
      && (ids[0].value !in protos ==> a.id.Err? && a.protos == protos)
      && Dense(a.protos) && ById(a.protos)
  {
    var a := AssignOutcome(protos, ids, sims, threshold, embedding, modality, meta, now);
    if ids[0].value in protos {
      assert a.protos.Keys == protos.Keys;
      assert |a.protos| == |protos|;
    }
  }

  /** Under the invariant, the next sequential id is unused. */
  lemma FreshUnderDense(protos: map<string, Proto>)
    requires Dense(protos)
    ensures ProtoIdFor(|protos|) !in protos
  {
    if ProtoIdFor(|protos|) in protos {
      var i: nat :| i < |protos| && ProtoIdFor(|protos|) == ProtoIdFor(i);
      ProtoIdInjective(i, |protos|);
    }
  }

  lemma DenseAfterInsert(protos: map<string, Proto>, p: Proto)
    requires Dense(protos) && ProtoIdFor(|protos|) !in protos
    ensures |protos[ProtoIdFor(|protos|) := p]| == |protos| + 1
    ensures Dense(protos[ProtoIdFor(|protos|) := p])
  {
    var pid := ProtoIdFor(|protos|);
    var after := protos[pid := p];
    assert after.Keys == protos.Keys + {pid};
    forall k | k in after ensures exists i: nat :: i < |after| && k == ProtoIdFor(i) {
      if k != pid {
        var i: nat :| i < |protos| && k == ProtoIdFor(i);
        assert i < |after|;
      } else {
        assert |protos| < |after|;
      }
    }
  }

  /** Two prototypes created one after the other from an empty memory get `p_00000` and
      `p_00001`. */
  lemma FirstIds()
    ensures ProtoIdFor(0) == "p_00000" && ProtoIdFor(1) == "p_00001"
  {
  }

  class ProtoMemory {
    const store: FaissStore
    const threshold: real
    var protos: map<string, Proto>

    predicate Valid()
      reads this, store
    {
      store.Valid() && ById(protos)
    }

    /** `__init__`: the metadata as `_load_metadata` read it. */
    constructor (store: FaissStore, threshold: real, loaded: map<string, Proto>)
      requires store.Valid() && ById(loaded)
      ensures Valid() && this.store == store && this.threshold == threshold && protos == loaded
    {
      this.store := store;
      this.threshold := threshold;
      protos := loaded;
    }

    /** `assign`: the embedding is normalised first (`norm` is its Euclidean norm); `hits` and
        `sims` are what the index returns for the normalised vector (k = 1), and a new prototype
        keeps the normalised vector as its centroid. */
    method Assign(embedding: seq<real>, norm: real, modality: string, meta: Meta, hits: seq<int>, sims: seq<real>, now: int)
      returns (id: Result<string, string>)
      requires Valid() && IsNorm(embedding, norm)
      modifies this, store
      ensures Valid()
      ensures var a := AssignOutcome(old(protos), MapHits(old(store.idsMap), hits), sims, threshold,
                                     Normalize(embedding, norm), modality, meta, now);
        protos == a.protos && id == a.id
        && (a.created ==> store.idsMap == Put(old(store.idsMap), old(store.nextId), a.id.value)
                          && store.indexIds == old(store.indexIds) + {old(store.nextId)}
                          && store.nextId == old(store.nextId) + 1)
        && (!a.created ==> store.idsMap == old(store.idsMap) && store.indexIds == old(store.indexIds)
                           && store.nextId == old(store.nextId))
    {
      var unit := Normalize(embedding, norm);
      var ids, ds := store.Search(hits, sims);
      if |ids| > 0 && |ds| > 0 && ds[0] >= threshold && ids[0].Some? && ids[0].value != "" {
        var pid := ids[0].value;
        if pid !in protos {
          return Err("KeyError");
        }
        var p := protos[pid];
        protos := protos[pid := p.(count := p.count + 1, lastUpdated := now)];
        id := Ok(pid);
      } else {
        var p := Founded(protos, unit, modality, meta, now);
        store.Add(p.protoId);
        protos := protos[p.protoId := p];
        id := Ok(p.protoId);
      }
    }
  }
}

=== FILE: results_panel.dfy ===
/** The results panel: classification of dropped files, the tab and search filter, the grid's
    row ids, and the PDF viewer's page moves and thumbnail cache. */
module ResultsPanel {
  import opened Wrappers
  import opened Text

  /** A result's `data`: a string (text, a URL) or some other value (an object). */
  datatype Data = DStr(s: string) | DOther

  /** A result or a dropped file. `id` and `input` are absent when the producer gave none;
      `fileName` is the name of an attached file. */
  datatype Result = Result(id: Option<string>, kind: string, input: Option<string>, data: Data, fileName: Option<string>)

  const Tabs: seq<string> := ["All", "Text", "Audio", "Video", "File", "Markdown", "PDF", "CSV", "Other"]

  // ---------------------------------------------------------------- dropping files

  /** A dropped file as the browser reports it, with the identifier and object URL created for it. */
  datatype DroppedFile = DroppedFile(name: string, mime: string, url: string, uuid: string)

  /** The `handleDrop` classification by MIME type. */
  function ClassifyMime(mime: string): string
  {
    if StartsWith(mime, "image/") then "Image"
    else if StartsWith(mime, "audio/") then "Audio"
    else if StartsWith(mime, "video/") then "Video"
    else if mime == "application/pdf" then "PDF"
    else if mime == "text/markdown" then "Markdown"
    else "File"
  }

  function Preview(f: DroppedFile): Result
  {
    Result(Some(f.uuid), ClassifyMime(f.mime), Some(f.name), DStr(f.url), Some(f.name))
  }

  /** The dragged-file list after a drop: the earlier files, then one preview per dropped file,
      in order, named after the file and carrying its object URL. */
  function DropFiles(dragged: seq<Result>, files: seq<DroppedFile>): (r: seq<Result>)
    ensures |r| == |dragged| + |files| && r[..|dragged|] == dragged
    ensures forall i :: 0 <= i < |files| ==>
      r[|dragged| + i].kind == ClassifyMime(files[i].mime)
      && r[|dragged| + i].input == Some(files[i].name)
      && r[|dragged| + i].data == DStr(files[i].url)
    decreases |files|
  {
    if files == [] then dragged else DropFiles(dragged + [Preview(files[0])], files[1..])
  }

  /** Every dropped file lands in a kind the tab bar offers, except images, which have no tab. */
  lemma DroppedKinds(mime: string)
    ensures ClassifyMime(mime) == "Image" <==> StartsWith(mime, "image/")
    ensures ClassifyMime(mime) != "Image" ==> ClassifyMime(mime) in Tabs[1..]
    ensures ClassifyMime(mime) == "File" <==>
      !StartsWith(mime, "image/") && !StartsWith(mime, "audio/") && !StartsWith(mime, "video/")
      && mime != "application/pdf" && mime != "text/markdown"
  {
  }

  // ---------------------------------------------------------------- filtering

  predicate TabKeeps(tab: nat, r: Result)
    requires tab < |Tabs|
  {
    tab == 0 || Lower(r.kind) == Lower(Tabs[tab])
  }

  /** Optional chaining on a missing input yields undefined, and non-string data is skipped. */
  predicate SearchKeeps(term: string, r: Result)
  {
    (r.input.Some? && Contains(Lower(r.input.value), Lower(term)))
    || (r.data.DStr? && Contains(Lower(r.data.s), Lower(term)))
  }

  function KeepWhere(rs: seq<Result>, tab: nat, term: string): (kept: seq<Result>)
    requires tab < |Tabs|
    ensures |kept| <= |rs|
    ensures forall r :: r in kept <==> r in rs && TabKeeps(tab, r) && SearchKeeps(term, r)
  {
    if rs == [] then []
    else
      var rest := KeepWhere(rs[1..], tab, term);
      assert forall r :: r in rs <==> r == rs[0] || r in rs[1..];
      if TabKeeps(tab, rs[0]) && SearchKeeps(term, rs[0]) then [rs[0]] + rest else rest
  }

  /** `filteredResults`: the given results followed by the dropped files, kept in order when
      they pass the tab and the search. */
  function FilteredResults(results: seq<Result>, dragged: seq<Result>, tab: nat, term: string): seq<Result>
    requires tab < |Tabs|
  {
    KeepWhere(results + dragged, tab, term)
  }

  lemma FilterKeepsIff(results: seq<Result>, dragged: seq<Result>, tab: nat, term: string, r: Result)
    requires tab < |Tabs|
    ensures r in FilteredResults(results, dragged, tab, term) <==>
      (r in results || r in dragged)
      && (tab == 0 || Lower(r.kind) == Lower(Tabs[tab]))
      && SearchKeeps(term, r)
  {
  }

  /** Filtering a concatenation filters each part: the given results that pass come first,
      then the dropped files that pass, each in its own order. */
  lemma {:induction false} KeepWhereAppend(a: seq<Result>, b: seq<Result>, tab: nat, term: string)
    requires tab < |Tabs|
    ensures KeepWhere(a + b, tab, term) == KeepWhere(a, tab, term) + KeepWhere(b, tab, term)
    decreases |a|
  {
    if a == [] {
      assert a + b == b;
    } else {
      assert (a + b)[1..] == a[1..] + b;
      KeepWhereAppend(a[1..], b, tab, term);
    }
  }

  /** With an empty search, an entry survives exactly when it has an input or string data:
      an entry with neither never shows. */
  lemma EmptySearchKeeps(r: Result)
    ensures SearchKeeps("", r) <==> r.input.Some? || r.data.DStr?
  {
    if r.input.Some? {
      ContainsAt(Lower(r.input.value), Lower(""), 0);
    }
    if r.data.DStr? {
      ContainsAt(Lower(r.data.s), Lower(""), 0);
    }
  }

  /** An entry whose type, ignoring case, is none of the tab labels after "All" appears under
      the "All" tab only. */
  lemma UnlabelledOnlyUnderAll(tab: nat, r: Result)
    requires tab < |Tabs| && forall t :: t in Tabs[1..] ==> Lower(r.kind) != Lower(t)
    ensures TabKeeps(tab, r) <==> tab == 0
  {
    if tab != 0 {
      assert Tabs[tab] == Tabs[1..][tab - 1];
    }
  }

  /** Conversely, an entry shown under no tab but "All" has a type that is none of the labels. */
  lemma OnlyUnderAllHasNoLabel(r: Result)
    requires forall tab :: 1 <= tab < |Tabs| ==> !TabKeeps(tab, r)
    ensures forall t :: t in Tabs[1..] ==> Lower(r.kind) != Lower(t)
  {
    forall t | t in Tabs[1..] ensures Lower(r.kind) != Lower(t) {
      var k :| 0 <= k < |Tabs[1..]| && Tabs[1..][k] == t;
      assert !TabKeeps(k + 1, r);
    }
  }

  /** A dropped image is such an entry: "Image" is not a tab label. */
  lemma DroppedImageHasNoTab(r: Result)
    requires r.kind == "Image"
    ensures forall t :: t in Tabs[1..] ==> Lower(r.kind) != Lower(t)
  {
    forall t | t in Tabs[1..] ensures Lower(r.kind) != Lower(t) {
      assert |t| > 0 && t[0] != 'I' && t[0] != 'i';
      assert Lower(t)[0] != Lower(r.kind)[0];
    }
  }

  // ---------------------------------------------------------------- rows

  datatype RowId = Given(id: string) | Position(n: nat)

  datatype Row = Row(id: RowId, kind: string, input: string, data: Data)

  function Truthy(s: Option<string>): bool { s.Some? && s.value != "" }

  /** `r.input || r.file?.name || ""`. */
  function RowInput(r: Result): string
  {
    if Truthy(r.input) then r.input.value else if Truthy(r.fileName) then r.fileName.value else ""
  }

  /** The grid rows for `rs`, the first of which stands at position `from`. */
  function RowsFrom(rs: seq<Result>, from: nat): (rows: seq<Row>)
    ensures |rows| == |rs|
    ensures forall i :: 0 <= i < |rs| ==>
      rows[i].id == (if Truthy(rs[i].id) then Given(rs[i].id.value) else Position(from + i + 1))
      && rows[i].kind == rs[i].kind && rows[i].input == RowInput(rs[i]) && rows[i].data == rs[i].data
    decreases |rs|
  {
    if rs == [] then []
    else
      var r := rs[0];
      [Row(if Truthy(r.id) then Given(r.id.value) else Position(from + 1), r.kind, RowInput(r), r.data)]
      + RowsFrom(rs[1..], from + 1)
  }

  function Rows(rs: seq<Result>): seq<Row> { RowsFrom(rs, 0) }

  /** Position ids are 1-based and distinct: two rows without an id of their own never share one. */
  lemma RowPositionsDistinct(rs: seq<Result>, i: nat, j: nat)
    requires i < j < |rs| && !Truthy(rs[i].id) && !Truthy(rs[j].id)
    ensures Rows(rs)[i].id == Position(i + 1) && Rows(rs)[j].id == Position(j + 1)
    ensures Rows(rs)[i].id != Rows(rs)[j].id
  {
  }

  // ---------------------------------------------------------------- PDF viewer

  const MaxPages := 5000

  function PageCount(docPages: nat): (n: nat)
    ensures n <= MaxPages && (docPages <= MaxPages ==> n == docPages)
  {
    if docPages < MaxPages then docPages else MaxPages
  }

  function NextPage(page: int, numPages: int): int { Min(page + 1, numPages) }

  function PrevPage(page: int): int { Max(page - 1, 1) }

  /** Next and previous keep a page inside `[1, numPages]`, and move it by at most one. */
  lemma PageMovesClamp(page: int, numPages: int)
    requires 1 <= page <= numPages
    ensures 1 <= NextPage(page, numPages) <= numPages && 1 <= PrevPage(page) <= numPages
    ensures NextPage(page, numPages) == (if page < numPages then page + 1 else page)
    ensures PrevPage(page) == (if page > 1 then page - 1 else 1)
  {
  }

  /** Before the page count is known (zero pages), "next" takes page 1 to page 0. */
  lemma NextPageBeforeLoad()
    ensures NextPage(1, 0) == 0
  {
  }

  /** `!thumbs[i]`: a page without a thumbnail, or with an empty one. */
  predicate Missing(thumbs: map<int, string>, i: int)
  {
    i !in thumbs || thumbs[i] == ""
  }

  function PageRange(lo: int, hi: int): (pages: set<int>)
    ensures forall k :: k in pages <==> lo <= k <= hi
    decreases hi - lo
  {
    if lo > hi then {} else {lo} + PageRange(lo + 1, hi)
  }

  /** The thumbnail map after rendering every missing page of `lo..hi`. */
  function Filled(thumbs: map<int, string>, lo: int, hi: int, render: int -> string): map<int, string>
  {
    map k | k in thumbs.Keys + PageRange(lo, hi) :: if lo <= k <= hi && Missing(thumbs, k) then render(k) else thumbs[k]
  }

  /** Loading a range adds pages of that range only, renders each missing page of it, and never
      replaces a thumbnail that is already there. */
  lemma FilledKeepsExisting(thumbs: map<int, string>, lo: int, hi: int, render: int -> string)
    ensures Filled(thumbs, lo, hi, render).Keys == thumbs.Keys + PageRange(lo, hi)
    ensures forall k :: k in thumbs && thumbs[k] != "" ==> Filled(thumbs, lo, hi, render)[k] == thumbs[k]
    ensures forall k :: lo <= k <= hi && Missing(thumbs, k) ==> Filled(thumbs, lo, hi, render)[k] == render(k)
    ensures forall k :: k in Filled(thumbs, lo, hi, render) && k !in thumbs ==> lo <= k <= hi
  {
  }

  lemma FilledNone(thumbs: map<int, string>, lo: int, render: int -> string)
    ensures Filled(thumbs, lo, lo - 1, render) == thumbs
  {
  }

  /** Extending the range by one page renders that page when it is missing. */
  lemma FilledStep(thumbs: map<int, string>, lo: int, i: int, render: int -> string)
    requires lo <= i
    ensures Missing(Filled(thumbs, lo, i - 1, render), i) == Missing(thumbs, i)
    ensures Filled(thumbs, lo, i, render) ==
      if Missing(thumbs, i) then Filled(thumbs, lo, i - 1, render)[i := render(i)] else Filled(thumbs, lo, i - 1, render)
  {
    var before, after := Filled(thumbs, lo, i - 1, render), Filled(thumbs, lo, i, render);
    if Missing(thumbs, i) {
      assert after.Keys == before[i := render(i)].Keys;
    } else {
      assert after.Keys == before.Keys;
    }
  }

  /** The `for` loop of `loadThumbnailsRange` over a copy of the thumbnail map. */
  method FillRange(thumbs: map<int, string>, lo: int, hi: int, render: int -> string) returns (m: map<int, string>)
    ensures m == Filled(thumbs, lo, hi, render)
  {
    m := thumbs;
    FilledNone(thumbs, lo, render);
    var i := lo;
    while i <= hi
      invariant lo <= i <= Max(lo, hi + 1)
      invariant m == Filled(thumbs, lo, i - 1, render)
    {
      FilledStep(thumbs, lo, i, render);
      if Missing(m, i) {
        m := m[i := render(i)];
      }
      i := i + 1;
    }
    assert PageRange(lo, i - 1) == PageRange(lo, hi);
  }

  class PdfViewer {
    var numPages: int
    var page: int
    var thumbnails: map<int, string>
    var loadingThumbs: bool

    constructor ()
      ensures numPages == 0 && page == 1 && thumbnails == map[] && !loadingThumbs
    {
      numPages := 0;
      page := 1;
      thumbnails := map[];
      loadingThumbs := false;
    }

    method Next()
      modifies this
      ensures page == NextPage(old(page), numPages)
      ensures numPages == old(numPages) && thumbnails == old(thumbnails) && loadingThumbs == old(loadingThumbs)
    {
      page := Min(page + 1, numPages);
    }

    method Prev()
      modifies this
      ensures page == PrevPage(old(page))
      ensures numPages == old(numPages) && thumbnails == old(thumbnails) && loadingThumbs == old(loadingThumbs)
    {
      page := Max(page - 1, 1);
    }

    /** `loadThumbnailsRange`. `hasFile` is whether a file is shown; `doc` is the document's page
        count, or None when loading it fails; `render` draws a page's thumbnail. */
    method LoadThumbnailsRange(start: int, end: int, hasFile: bool, doc: Option<nat>, render: int -> string)
      modifies this
      ensures page == old(page)
      ensures !hasFile ==> numPages == old(numPages) && thumbnails == old(thumbnails) && loadingThumbs == old(loadingThumbs)
      ensures hasFile && doc.None? ==> numPages == old(numPages) && thumbnails == old(thumbnails) && !loadingThumbs
      ensures hasFile && doc.Some? ==>
        numPages == PageCount(doc.value)
        && thumbnails == Filled(old(thumbnails), Max(1, start), Min(end, PageCount(doc.value)), render)
        && !loadingThumbs
    {
      if !hasFile {
        return;
      }
      loadingThumbs := true;
      if doc.Some? {
        numPages := PageCount(doc.value);
        var maxPages := PageCount(doc.value);
        var newThumbs := FillRange(thumbnails, Max(1, start), Min(end, maxPages), render);
        thumbnails := newThumbs;
      }
      loadingThumbs := false;
    }
  }
}

=== FILE: right_sidebar.dfy ===
/** The node globe of the right sidebar: a fixed list of node objects that a timer perturbs in
    place, an instanced mesh whose per-instance transform and colour buffers are rewritten from
    the nodes on every visible frame, hover and click picking, keyboard cycling of the selected
    node, and a capped alert feed.

    Randomness, the clock, three.js geometry and the camera projection are parameters: `pos`
    maps a node's spherical angles to a point on the globe, `project` maps an instance
    transform to the screen under the current camera and viewport, and a pick is the instance
    index the raycaster reports (`None` for a miss). */
module RightSidebar {
  import opened Wrappers
  import Text

  datatype Status = Online | Offline

  function Toggled(s: Status): Status { if s == Online then Offline else Online }

  datatype Vec3 = Vec3(x: real, y: real, z: real)

  /** A freshly allocated instance slot holds the identity matrix; a written one, a translation. */
  datatype Transform = Identity | Translation(at: Vec3)

  /** Pixel coordinates of the popover anchor. */
  datatype Screen = Screen(left: int, top: int)

  const OnlineHue: int := 0x38c0fc
  const OfflineHue: int := 0xe04c4c
  /** A freshly allocated colour slot is zero-filled, i.e. black. */
  const BlankHue: int := 0

  function HueFor(s: Status): int { if s == Online then OnlineHue else OfflineHue }

  /** The node list always has twelve entries: the component generates them once and never adds
      or removes any. */
  const NodeCount: nat := 12

  /** Details shown in the popover; cpu and mem are percentages, version is vMAJOR.MINOR. */
  datatype Details = Details(cpu: int, mem: int, major: int, minor: int)

  datatype NodeState = NodeState(status: Status, phi: real, theta: real, lastSeen: int, details: Details)

  /** JavaScript `Math.round`. */
  function Round(x: real): int { (x + 0.5).Floor }

  predicate IsRoll(r: real) { 0.0 <= r < 1.0 }

  /** `Math.round(r * 80 + 10)` for a roll `r` in [0, 1): the cpu percentage, in [10, 90]. */
  function CpuPercent(r: real): (p: int)
    requires IsRoll(r)
    ensures 10 <= p <= 90
  {
    Round(r * 80.0 + 10.0)
  }

  /** `Math.round(r * 70 + 10)` for a roll `r` in [0, 1): the memory percentage, in [10, 80]. */
  function MemPercent(r: real): (p: int)
    requires IsRoll(r)
    ensures 10 <= p <= 80
  {
    Round(r * 70.0 + 10.0)
  }

  // ------------------------------------------------------------------ node generation

  /** The random draws that generate one node. */
  datatype NodeSeed = NodeSeed(statusRoll: real, phi: real, theta: real, ageRoll: real,
                               cpuRoll: real, memRoll: real, majorRoll: real, minorRoll: real)

  predicate ValidSeed(s: NodeSeed)
  {
    IsRoll(s.statusRoll) && IsRoll(s.ageRoll) && IsRoll(s.cpuRoll) && IsRoll(s.memRoll)
    && IsRoll(s.majorRoll) && IsRoll(s.minorRoll)
  }

  /** The state `generateNodes` gives a node: online with probability 0.8, last seen up to an
      hour before `now`, cpu in 10..90 %, mem in 10..80 %, version v1.0 .. v3.9. */
  function Seeded(s: NodeSeed, now: int): (n: NodeState)
    requires ValidSeed(s)
    ensures n.status == Online <==> s.statusRoll > 0.2
    ensures now - 3600000 < n.lastSeen <= now
    ensures 10 <= n.details.cpu <= 90 && 10 <= n.details.mem <= 80
    ensures 1 <= n.details.major <= 3 && 0 <= n.details.minor <= 9
  {
    NodeState(if s.statusRoll > 0.2 then Online else Offline, s.phi, s.theta,
              now - (s.ageRoll * 3600000.0).Floor,
              Details(CpuPercent(s.cpuRoll), MemPercent(s.memRoll),
                      (s.majorRoll * 3.0).Floor + 1, (s.minorRoll * 10.0).Floor))
  }

  // ------------------------------------------------------------------ simulation tick

  /** The per-node draws of one simulation tick. */
  datatype TickDraw = TickDraw(phiRoll: real, thetaRoll: real, flipRoll: real, cpuRoll: real, memRoll: real)

  predicate ValidDraw(d: TickDraw)
  {
    IsRoll(d.phiRoll) && IsRoll(d.thetaRoll) && IsRoll(d.flipRoll) && IsRoll(d.cpuRoll) && IsRoll(d.memRoll)
  }

  /** `(Math.random() - 0.5) * 0.01`. */
  function Jitter(r: real): real { (r - 0.5) * 0.01 }

  /** What one tick does to one node. */
  function Perturbed(s: NodeState, d: TickDraw, now: int): NodeState
    requires ValidDraw(d)
  {
    NodeState(if d.flipRoll < 0.08 then Toggled(s.status) else s.status,
              s.phi + Jitter(d.phiRoll), s.theta + Jitter(d.thetaRoll), now,
              s.details.(cpu := CpuPercent(d.cpuRoll), mem := MemPercent(d.memRoll)))
  }

  /** A tick moves each angle by at most 0.005, only ever toggles the status (and exactly when
      the flip roll is below 0.08), stamps the node as seen now and keeps its version. */
  lemma TickStepBounds(s: NodeState, d: TickDraw, now: int)
    requires ValidDraw(d)
    ensures var t := Perturbed(s, d, now);
      -0.005 <= t.phi - s.phi < 0.005 && -0.005 <= t.theta - s.theta < 0.005
      && (t.status != s.status <==> d.flipRoll < 0.08)
      && t.lastSeen == now
      && 10 <= t.details.cpu <= 90 && 10 <= t.details.mem <= 80
      && t.details.major == s.details.major && t.details.minor == s.details.minor
  {
  }

  // ------------------------------------------------------------------ alerts

  datatype AlertKind = Error | Warning | Info

  datatype Alert = Alert(kind: AlertKind, msg: string, ts: int)

  const AlertCap: nat := 6

  const AlertKinds: seq<AlertKind> := [Error, Warning, Info]

  const AlertMessages: seq<string> :=
    ["CPU usage high", "Memory spike detected", "Node disconnected", "New update available", "No recent errors"]

  /** The feed the component starts with. */
  function InitialAlert(now: int): Alert { Alert(Info, "⚠️ No recent errors", now) }

  /** `generateAlert`: a kind and a message chosen by two rolls. */
  function GenerateAlert(kindRoll: real, msgRoll: real, now: int): (a: Alert)
    requires IsRoll(kindRoll) && IsRoll(msgRoll)
    ensures a.kind in AlertKinds && a.msg in AlertMessages && a.ts == now
  {
    Alert(AlertKinds[(kindRoll * 3.0).Floor], AlertMessages[(msgRoll * 5.0).Floor], now)
  }

  function Take<T>(s: seq<T>, k: nat): (r: seq<T>)
    ensures |r| == if |s| < k then |s| else k
    ensures r == s[..|r|]
  {
    s[..Min(k, |s|)]
  }

  function Reverse<T>(s: seq<T>): (r: seq<T>)
    ensures |r| == |s|
  {
    if s == [] then [] else Reverse(s[1..]) + [s[0]]
  }

  /** `[alert, ...prev].slice(0, 6)`. */
  function PushAlert(a: Alert, log: seq<Alert>): seq<Alert>
  {
    Take([a] + log, AlertCap)
  }

  /** The feed after a series of alerts arrives, one at a time. */
  function PushAll(log: seq<Alert>, incoming: seq<Alert>): seq<Alert>
    decreases |incoming|
  {
    if incoming == [] then log else PushAll(PushAlert(incoming[0], log), incoming[1..])
  }

  lemma TakeTake<T>(x: seq<T>, y: seq<T>, k: nat)
    ensures Take(x + Take(y, k), k) == Take(x + y, k)
  {
    var lhs := Take(x + Take(y, k), k);
    var rhs := Take(x + y, k);
    assert |lhs| == |rhs|;
    forall i | 0 <= i < |lhs| ensures lhs[i] == rhs[i] {
      if i >= |x| {
        assert lhs[i] == Take(y, k)[i - |x|];
      }
    }
  }

  /** The feed holds the six most recent alerts, newest first, followed by what was left of the
      old feed. */
  lemma {:induction false} PushAllNewestFirst(log: seq<Alert>, incoming: seq<Alert>)
    requires |log| <= AlertCap
    ensures PushAll(log, incoming) == Take(Reverse(incoming) + log, AlertCap)
    decreases |incoming|
  {
    if incoming == [] {
      assert Reverse(incoming) + log == log;
    } else {
      var a, rest := incoming[0], incoming[1..];
      PushAllNewestFirst(PushAlert(a, log), rest);
      TakeTake(Reverse(rest), [a] + log, AlertCap);
      assert Reverse(incoming) == Reverse(rest) + [a];
      assert Reverse(rest) + ([a] + log) == Reverse(incoming) + log;
    }
  }

  /** Ten (or any six or more) alerts pushed into a feed leave exactly six: the six most recent,
      newest first. */
  lemma FeedKeepsSixNewest(log: seq<Alert>, incoming: seq<Alert>)
    requires |log| <= AlertCap && |incoming| >= AlertCap
    ensures |PushAll(log, incoming)| == AlertCap
    ensures forall i :: 0 <= i < AlertCap ==> PushAll(log, incoming)[i] == incoming[|incoming| - 1 - i]
  {
    PushAllNewestFirst(log, incoming);
    forall i | 0 <= i < AlertCap ensures Reverse(incoming)[i] == incoming[|incoming| - 1 - i] {
      ReverseAt(incoming, i);
    }
  }

  lemma {:induction false} ReverseAt<T>(s: seq<T>, k: nat)
    requires k < |s|
    ensures Reverse(s)[k] == s[|s| - 1 - k]
  {
    if k < |s| - 1 {
      ReverseAt(s[1..], k);
    }
  }

  // ------------------------------------------------------------------ picking and keyboard

  /** `findIndex(n => n.id === id)`: the first position holding `id`, or -1. */
  function FindIndex(ids: seq<int>, id: int): (k: int)
    ensures -1 <= k < |ids|
    ensures k >= 0 ==> ids[k] == id && forall j :: 0 <= j < k ==> ids[j] != id
    ensures k == -1 ==> id !in ids
  {
    if ids == [] then -1
    else if ids[0] == id then 0
    else
      var k := FindIndex(ids[1..], id);
      if k == -1 then -1 else k + 1
  }

  predicate Distinct(ids: seq<int>) { forall i, j :: 0 <= i < j < |ids| ==> ids[i] != ids[j] }

  lemma FindIndexOfDistinct(ids: seq<int>, i: int)
    requires Distinct(ids) && 0 <= i < |ids|
    ensures FindIndex(ids, ids[i]) == i
  {
  }

  /** ArrowRight / ArrowDown: one past the current position, clamped to the last node. */
  function RightIndex(current: int, n: nat): int { Min(n - 1, current + 1) }

  /** ArrowLeft / ArrowUp: one before the current position, clamped to the first node. */
  function LeftIndex(current: int): int { Max(0, current - 1) }

  /** The index the selection reaches after `k` ArrowRight presses starting with nothing selected
      (-1 stands for "nothing selected"). */
  function RightPresses(n: nat, k: nat): int
  {
    if k == 0 then -1 else RightIndex(RightPresses(n, k - 1), n)
  }

  /** The index the selection reaches after `k` ArrowLeft presses starting with nothing selected
      (the handler starts from the list length in that case). */
  function LeftPresses(n: nat, k: nat): int
  {
    if k == 0 then n else LeftIndex(LeftPresses(n, k - 1))
  }

  /** Pressing ArrowRight `k >= 1` times from no selection walks to index k - 1 and then stays on
      the last node. */
  lemma {:induction false} RightPressesClamp(n: nat, k: nat)
    requires n >= 1 && k >= 1
    ensures RightPresses(n, k) == Min(k - 1, n - 1)
  {
    if k > 1 {
      RightPressesClamp(n, k - 1);
    }
  }

  /** Pressing ArrowLeft `k >= 1` times from no selection walks down from the last node and then
      stays on the first. */
  lemma {:induction false} LeftPressesClamp(n: nat, k: nat)
    requires k >= 1
    ensures LeftPresses(n, k) == Max(n - k, 0)
  {
    if k > 1 {
      LeftPressesClamp(n, k - 1);
    }
  }

  /** With five nodes and nothing selected: one ArrowRight selects index 0, five more stay on
      index 4, and an ArrowLeft then goes to index 3. */
  lemma FiveNodeWalk()
    ensures RightPresses(5, 1) == 0
    ensures RightPresses(5, 6) == 4
    ensures LeftIndex(RightPresses(5, 6)) == 3
  {
    RightPressesClamp(5, 1);
    RightPressesClamp(5, 6);
  }

  /** Number of hovered-node notifications a series of per-frame picks causes, starting from the
      remembered pick `last`: one for every pick that differs from the one before it. */
  function HoverUpdates(last: Option<int>, picks: seq<Option<int>>): (c: nat)
    ensures c <= |picks|
    decreases |picks|
  {
    if picks == [] then 0
    else (if picks[0] != last then 1 else 0) + HoverUpdates(picks[0], picks[1..])
  }

  /** Picking the same thing frame after frame notifies nothing. */
  lemma {:induction false} SteadyHoverIsQuiet(p: Option<int>, picks: seq<Option<int>>)
    requires forall i :: 0 <= i < |picks| ==> picks[i] == p
    ensures HoverUpdates(p, picks) == 0
  {
    if picks != [] {
      SteadyHoverIsQuiet(p, picks[1..]);
    }
  }

  /** The pick series a, a, b, b, miss, a changes the hovered node three times after the first
      frame; counted from the component's initial state (nothing remembered) the first pick is a
      change too. */
  lemma HoverSeries(a: int, b: int)
    requires a != b
    ensures HoverUpdates(Some(a), [Some(a), Some(a), Some(b), Some(b), None, Some(a)]) == 3
    ensures HoverUpdates(None, [Some(a), Some(a), Some(b), Some(b), None, Some(a)]) == 4
  {
    var s5 := [Some(a)];
    var s4 := [None] + s5;
    var s3 := [Some(b)] + s4;
    var s2 := [Some(b)] + s3;
    var s1 := [Some(a)] + s2;
    var s0 := [Some(a)] + s1;
    assert s0 == [Some(a), Some(a), Some(b), Some(b), None, Some(a)];
    assert s5[1..] == [] && s4[1..] == s5 && s3[1..] == s4 && s2[1..] == s3 && s1[1..] == s2 && s0[1..] == s1;
    assert HoverUpdates(None, s5) == 1;
    assert HoverUpdates(Some(b), s4) == 2;
    assert HoverUpdates(Some(b), s3) == 2;
    assert HoverUpdates(Some(a), s2) == 3;
    assert HoverUpdates(Some(a), s1) == 3;
  }

  /** The anchor a resize or scroll handler leaves, given the selection that handler can see:
      when it sees a selected node still in the list, the projection of that node's slot under
      the new view; otherwise the anchor as it was. */
  function AnchorAfterViewChange(seen: Option<int>, ids: seq<int>, slots: seq<Transform>,
                                 project: Transform -> Screen, current: Option<Screen>): Option<Screen>
  {
    if seen.None? then current
    else
      var k := FindIndex(ids, seen.value);
      if 0 <= k < |slots| then Some(project(slots[k])) else current
  }

  /** The resize and scroll handlers are created once, when the globe mounts, and read the
      selection captured then, which is always empty: as written they never move the anchor. */
  function RepositionAsWritten(ids: seq<int>, slots: seq<Transform>, project: Transform -> Screen,
                               current: Option<Screen>): (r: Option<Screen>)
    ensures r == current
  {
    AnchorAfterViewChange(None, ids, slots, project, current)
  }

  /** A node is selected, the view changes so that its slot projects elsewhere, and the handler
      as written leaves the popover at the old place. */
  lemma RepositionAsWrittenLeavesStaleAnchor()
    ensures var project := (t: Transform) => Screen(5, 5);
      var stale := Some(Screen(0, 0));
      RepositionAsWritten([1], [Identity], project, stale) != Some(project(Identity))
      && AnchorAfterViewChange(Some(1), [1], [Identity], project, stale) == Some(project(Identity))
  {
  }

  // ------------------------------------------------------------------ the resize effect

  /** `createInstancedMesh`: a mesh for `count` instances, at least one, every transform the
      identity and every colour zero. */
  method CreateInstancedMesh(count: nat) returns (transforms: array<Transform>, colors: array<int>)
    ensures fresh(transforms) && fresh(colors)
    ensures transforms.Length == colors.Length == Max(1, count)
    ensures forall i :: 0 <= i < transforms.Length ==> transforms[i] == Identity
    ensures forall i :: 0 <= i < colors.Length ==> colors[i] == BlankHue
  {
    var cap := Max(1, count);
    transforms := new Transform[cap](_ => Identity);
    colors := new int[cap](_ => BlankHue);
  }

  /** The body of the resize effect: allocate a mesh for `count` instances and copy the
      transforms and colours of the first min(old, new) instances; the other new slots keep
      their fresh values. */
  method Recreate(oldTransforms: array<Transform>, oldColors: array<int>, count: nat)
    returns (transforms: array<Transform>, colors: array<int>)
    requires oldColors.Length == oldTransforms.Length
    ensures fresh(transforms) && fresh(colors)
    ensures transforms.Length == colors.Length == Max(1, count)
    ensures forall i :: 0 <= i < transforms.Length ==>
      transforms[i] == (if i < oldTransforms.Length then oldTransforms[i] else Identity)
    ensures forall i :: 0 <= i < colors.Length ==>
      colors[i] == (if i < oldColors.Length then oldColors[i] else BlankHue)
  {
    transforms, colors := CreateInstancedMesh(count);
    var cap := transforms.Length;
    var n := Min(oldTransforms.Length, cap);
    for i := 0 to n
      invariant forall j :: 0 <= j < cap ==>
        transforms[j] == (if j < i then oldTransforms[j] else Identity)
      invariant forall j :: 0 <= j < cap ==>
        colors[j] == (if j < i then oldColors[j] else BlankHue)
    {
      transforms[i] := oldTransforms[i];
      colors[i] := oldColors[i];
    }
  }

  /** The resize effect: the mesh is rebuilt only when the wanted capacity max(1, count) differs
      from the current one; otherwise the same buffers stay in place. */
  method ResizeEffect(oldTransforms: array<Transform>, oldColors: array<int>, count: nat)
    returns (transforms: array<Transform>, colors: array<int>)
    requires oldColors.Length == oldTransforms.Length
    ensures transforms.Length == colors.Length == Max(1, count)
    ensures Max(1, count) == oldTransforms.Length ==> transforms == oldTransforms && colors == oldColors
    ensures Max(1, count) != oldTransforms.Length ==>
      fresh(transforms) && fresh(colors)
      && (forall i :: 0 <= i < transforms.Length ==>
            transforms[i] == (if i < oldTransforms.Length then oldTransforms[i] else Identity))
      && (forall i :: 0 <= i < colors.Length ==>
            colors[i] == (if i < oldColors.Length then oldColors[i] else BlankHue))
  {
    if Max(1, count) == oldTransforms.Length {
      transforms, colors := oldTransforms, oldColors;
    } else {
      transforms, colors := Recreate(oldTransforms, oldColors, count);
    }
  }

  // ------------------------------------------------------------------ node objects

  /** A node object. The tick mutates it in place, so the list, the hovered node and the selected
      node all keep referring to the same object. */
  class Node {
    const id: nat
    const name: string
    var status: Status
    var phi: real
    var theta: real
    var lastSeen: int
    var details: Details

    ghost function State(): NodeState
      reads this
    {
      NodeState(status, phi, theta, lastSeen, details)
    }

    constructor (id: nat, s: NodeState)
      ensures this.id == id && name == "Node-" + Text.Digits(id)
      ensures State() == s
    {
      this.id := id;
      name := "Node-" + Text.Digits(id);
      status := s.status;
      phi := s.phi;
      theta := s.theta;
      lastSeen := s.lastSeen;
      details := s.details;
    }

    /** One tick's in-place update of this node. */
    method Perturb(d: TickDraw, now: int)
      requires ValidDraw(d)
      modifies this
      ensures State() == Perturbed(old(State()), d, now)
    {
      phi := phi + Jitter(d.phiRoll);
      theta := theta + Jitter(d.thetaRoll);
      if d.flipRoll < 0.08 {
        status := Toggled(status);
      }
      lastSeen := now;
      details := details.(cpu := CpuPercent(d.cpuRoll), mem := MemPercent(d.memRoll));
    }
  }

  function IdsOf(ns: seq<Node>): (ids: seq<int>)
    ensures |ids| == |ns| && forall i :: 0 <= i < |ns| ==> ids[i] == ns[i].id
  {
    seq(|ns|, i requires 0 <= i < |ns| => ns[i].id)
  }

  function Placed(pos: (real, real) -> Vec3, s: NodeState): Transform
  {
    Translation(pos(s.phi, s.theta))
  }

  /** The mount's node generation: node i gets id i + 1 and the state its seed gives. */
  method SeedNodes(seeds: seq<NodeSeed>, now: int) returns (ns: seq<Node>)
    requires forall i :: 0 <= i < |seeds| ==> ValidSeed(seeds[i])
    ensures |ns| == |seeds|
    ensures forall i :: 0 <= i < |ns| ==>
      fresh(ns[i]) && ns[i].id == i + 1 && ns[i].State() == Seeded(seeds[i], now)
  {
    ns := [];
    for i := 0 to |seeds|
      invariant |ns| == i
      invariant forall j :: 0 <= j < i ==>
        fresh(ns[j]) && ns[j].id == j + 1 && ns[j].State() == Seeded(seeds[j], now)
    {
      var n := new Node(i + 1, Seeded(seeds[i], now));
      ns := ns + [n];
    }
  }

  /** Fresh instance buffers, one slot per node, holding each node's position and colour. */
  method PlaceNodes(ns: seq<Node>, pos: (real, real) -> Vec3) returns (t: array<Transform>, c: array<int>)
    ensures fresh(t) && fresh(c) && t.Length == |ns| && c.Length == |ns|
    ensures forall i :: 0 <= i < |ns| ==> t[i] == Placed(pos, ns[i].State()) && c[i] == HueFor(ns[i].status)
  {
    t := new Transform[|ns|](_ => Identity);
    c := new int[|ns|](_ => BlankHue);
    for i := 0 to |ns|
      invariant forall j :: 0 <= j < i ==> t[j] == Placed(pos, ns[j].State()) && c[j] == HueFor(ns[j].status)
    {
      t[i] := Translation(pos(ns[i].phi, ns[i].theta));
      c[i] := HueFor(ns[i].status);
    }
  }

  /** The tick's node loop: each node, distinct by id, is perturbed in place by its own draw. */
  method PerturbAll(ns: seq<Node>, draws: seq<TickDraw>, now: int)
    requires Distinct(IdsOf(ns))
    requires |draws| == |ns| && forall i :: 0 <= i < |draws| ==> ValidDraw(draws[i])
    modifies ns
    ensures forall i :: 0 <= i < |ns| ==> ns[i].State() == Perturbed(old(ns[i].State()), draws[i], now)
  {
    for i := 0 to |ns|
      invariant forall j :: 0 <= j < i ==> ns[j].State() == Perturbed(old(ns[j].State()), draws[j], now)
      invariant forall j :: i <= j < |ns| ==> ns[j].State() == old(ns[j].State())
    {
      ns[i].Perturb(draws[i], now);
    }
  }

  /** Nodes numbered 1, 2, 3, ... in order have distinct ids. */
  lemma SequentialIdsDistinct(ns: seq<Node>)
    requires forall i :: 0 <= i < |ns| ==> ns[i].id == i + 1
    ensures Distinct(IdsOf(ns))
  {
  }

  // ------------------------------------------------------------------ the globe

  class NodeGlobe {
    var nodes: seq<Node>
    /** The instanced mesh's per-instance transforms and colours. */
    var transforms: array<Transform>
    var colors: array<int>
    var alerts: seq<Alert>
    /** The instance index the last frame's raycast reported. */
    var lastHovered: Option<int>
    var hovered: Option<Node>
    var selected: Option<Node>
    /** Where the detail popover is anchored on screen. */
    var anchor: Option<Screen>

    ghost predicate Valid()
      reads this
    {
      transforms.Length == Max(1, |nodes|) && colors.Length == transforms.Length
      && Distinct(IdsOf(nodes))
      && 1 <= |alerts| <= AlertCap
      && hovered == NodeAt(lastHovered)
      && (selected.Some? ==> selected.value in nodes)
      && (selected.None? <==> anchor.None?)
    }

    /** The node a pick refers to: the node at that instance index, if there is one. */
    function NodeAt(pick: Option<int>): Option<Node>
      reads this
    {
      if pick.Some? && 0 <= pick.value < |nodes| then Some(nodes[pick.value]) else None
    }

    /** Index of the selected node in the list, or `none` when nothing is selected. */
    function SelectedIndex(none: int): int
      reads this
    {
      if selected.Some? then FindIndex(IdsOf(nodes), selected.value.id) else none
    }

    /** The globe as mounted: twelve generated nodes, one instance per node with its transform
        and colour written, and the feed holding the initial notice. */
    constructor (seeds: seq<NodeSeed>, now: int, pos: (real, real) -> Vec3)
      requires |seeds| == NodeCount
      requires forall i :: 0 <= i < |seeds| ==> ValidSeed(seeds[i])
      ensures Valid()
      ensures |nodes| == NodeCount && fresh(transforms) && fresh(colors)
      ensures forall i :: 0 <= i < |nodes| ==>
        fresh(nodes[i]) && nodes[i].id == i + 1 && nodes[i].State() == Seeded(seeds[i], now)
      ensures forall i :: 0 <= i < |nodes| ==>
        transforms[i] == Placed(pos, Seeded(seeds[i], now)) && colors[i] == HueFor(Seeded(seeds[i], now).status)
      ensures alerts == [InitialAlert(now)]
      ensures lastHovered == None && hovered == None && selected == None && anchor == None
    {
      var ns := SeedNodes(seeds, now);
      var t, c := PlaceNodes(ns, pos);
      SequentialIdsDistinct(ns);
      nodes, transforms, colors := ns, t, c;
      alerts := [InitialAlert(now)];
      lastHovered, hovered, selected, anchor := None, None, None, None;
    }

    /** The instance-update part of an animation frame: slot i gets the position and status
        colour of node i, for every node that has a slot; other slots are left alone. */
    method WriteInstances(pos: (real, real) -> Vec3)
      requires Valid()
      modifies transforms, colors
      ensures Valid()
      ensures forall i :: 0 <= i < transforms.Length ==>
        transforms[i] == if i < |nodes| then Placed(pos, nodes[i].State()) else old(transforms[i])
      ensures forall i :: 0 <= i < colors.Length ==>
        colors[i] == if i < |nodes| then HueFor(nodes[i].status) else old(colors[i])
    {
      var count := Min(transforms.Length, |nodes|);
      for i := 0 to count
        invariant forall j :: 0 <= j < transforms.Length ==>
          transforms[j] == if j < i then Placed(pos, nodes[j].State()) else old(transforms[j])
        invariant forall j :: 0 <= j < colors.Length ==>
          colors[j] == if j < i then HueFor(nodes[j].status) else old(colors[j])
      {
        var node := nodes[i];
        transforms[i] := Translation(pos(node.phi, node.theta));
        colors[i] := HueFor(node.status);
      }
    }

    /** The hover part of an animation frame: a pick that differs from the remembered one is
        remembered and notifies the hovered node it refers to (none for a miss or an index with
        no node); a repeated pick changes nothing. */
    method DetectHover(pick: Option<int>) returns (notified: bool)
      requires Valid()
      modifies this`lastHovered, this`hovered
      ensures Valid()
      ensures notified <==> pick != old(lastHovered)
      ensures lastHovered == pick && hovered == NodeAt(pick)
      ensures !notified ==> hovered == old(hovered)
    {
      notified := lastHovered != pick;
      if notified {
        lastHovered := pick;
        hovered := NodeAt(pick);
      }
    }

    /** One animation frame: nothing at all while the page is hidden; otherwise the instance
        buffers are rewritten from the nodes and the hover pick is processed. */
    method Animate(visible: bool, pos: (real, real) -> Vec3, pick: Option<int>) returns (notified: bool)
      requires Valid()
      modifies transforms, colors, this`lastHovered, this`hovered
      ensures Valid()
      ensures !visible ==>
        (!notified && lastHovered == old(lastHovered) && hovered == old(hovered)
         && transforms[..] == old(transforms[..]) && colors[..] == old(colors[..]))
      ensures visible ==>
        ((notified <==> pick != old(lastHovered)) && lastHovered == pick
         && (forall i :: 0 <= i < |nodes| ==>
               transforms[i] == Placed(pos, nodes[i].State()) && colors[i] == HueFor(nodes[i].status)))
    {
      notified := false;
      if !visible {
        return;
      }
      WriteInstances(pos);
      notified := DetectHover(pick);
    }

    /** The simulation tick: every node object is perturbed in place (the list itself, its order
        and its objects stay the same) and, with probability 1/4, a new alert is pushed on the
        feed, which keeps at most six. */
    method Tick(draws: seq<TickDraw>, now: int, alertRoll: real, kindRoll: real, msgRoll: real)
      requires Valid()
      requires |draws| == |nodes| && forall i :: 0 <= i < |draws| ==> ValidDraw(draws[i])
      requires IsRoll(kindRoll) && IsRoll(msgRoll)
      modifies nodes, this`alerts
      ensures Valid() && nodes == old(nodes)
      ensures forall i :: 0 <= i < |nodes| ==> nodes[i].State() == Perturbed(old(nodes[i].State()), draws[i], now)
      ensures alerts == if alertRoll < 0.25 then PushAlert(GenerateAlert(kindRoll, msgRoll, now), old(alerts))
                        else old(alerts)
    {
      PerturbAll(nodes, draws, now);
      if alertRoll < 0.25 {
        alerts := PushAlert(GenerateAlert(kindRoll, msgRoll, now), alerts);
      }
    }

    /** A click: a miss closes the popover; a hit on an instance that has a node selects that
        node and anchors the popover at its slot; a hit on an instance without a node changes
        nothing. */
    method Click(pick: Option<int>, project: Transform -> Screen)
      requires Valid()
      modifies this`selected, this`anchor
      ensures Valid()
      ensures pick.None? ==> selected == None && anchor == None
      ensures pick.Some? && 0 <= pick.value < |nodes| ==>
        selected == Some(nodes[pick.value]) && anchor == Some(project(transforms[pick.value]))
      ensures pick.Some? && !(0 <= pick.value < |nodes|) ==>
        selected == old(selected) && anchor == old(anchor)
    {
      if pick.None? {
        selected, anchor := None, None;
      } else if 0 <= pick.value < |nodes| {
        selected := Some(nodes[pick.value]);
        anchor := Some(project(transforms[pick.value]));
      }
    }

    /** Keyboard handling on the globe: Escape closes the popover; ArrowRight/ArrowDown and
        ArrowLeft/ArrowUp move the selection one node forward or back, clamped to the list;
        Enter selects the hovered node. Any other key, and any move when the list is empty,
        changes nothing. */
    method KeyDown(key: string, project: Transform -> Screen)
      requires Valid()
      modifies this`selected, this`anchor
      ensures Valid()
      ensures key == "Escape" ==> selected == None && anchor == None
      ensures (key == "ArrowRight" || key == "ArrowDown") ==>
        var k := RightIndex(old(SelectedIndex(-1)), |nodes|);
        if 0 <= k then selected == Some(nodes[k]) && anchor == Some(project(transforms[k]))
        else selected == old(selected) && anchor == old(anchor)
      ensures (key == "ArrowLeft" || key == "ArrowUp") ==>
        var k := LeftIndex(old(SelectedIndex(|nodes|)));
        if k < |nodes| then selected == Some(nodes[k]) && anchor == Some(project(transforms[k]))
        else selected == old(selected) && anchor == old(anchor)
      ensures key == "Enter" ==>
        if old(hovered).Some? then
          selected == old(hovered)
          && anchor == Some(project(transforms[FindIndex(IdsOf(nodes), old(hovered).value.id)]))
        else selected == old(selected) && anchor == old(anchor)
      ensures !(key in ["Escape", "ArrowRight", "ArrowDown", "ArrowLeft", "ArrowUp", "Enter"]) ==>
        selected == old(selected) && anchor == old(anchor)
    {
      if key == "Escape" {
        selected, anchor := None, None;
      } else if key == "ArrowRight" || key == "ArrowDown" {
        var k := RightIndex(SelectedIndex(-1), |nodes|);
        if 0 <= k {
          selected, anchor := Some(nodes[k]), Some(project(transforms[k]));
        }
      } else if key == "ArrowLeft" || key == "ArrowUp" {
        var k := LeftIndex(SelectedIndex(|nodes|));
        if k < |nodes| {
          selected, anchor := Some(nodes[k]), Some(project(transforms[k]));
        }
      } else if key == "Enter" {
        if hovered.Some? {
          var k := FindIndex(IdsOf(nodes), hovered.value.id);
          selected, anchor := hovered, Some(project(transforms[k]));
        }
      }
    }

    /** Closing the popover. */
    method CloseSelected()
      requires Valid()
      modifies this`selected, this`anchor
      ensures Valid() && selected == None && anchor == None
    {
      selected, anchor := None, None;
    }

    /** A resize or scroll, with the selection read as it is now: the popover follows the
        selected node's slot under the new view. */
    method Reposition(project: Transform -> Screen)
      requires Valid()
      modifies this`anchor
      ensures Valid()
      ensures anchor == AnchorAfterViewChange(if old(selected).Some? then Some(old(selected).value.id) else None,
                                              IdsOf(nodes), transforms[..], project, old(anchor))
      ensures selected.Some? ==>
        anchor == Some(project(transforms[FindIndex(IdsOf(nodes), selected.value.id)]))
    {
      if selected.Some? {
        var k := FindIndex(IdsOf(nodes), selected.value.id);
        if 0 <= k {
          anchor := Some(project(transforms[k]));
        }
      }
    }
  }
}

=== FILE: self_modifying_agent.dfy ===
/** The self-modifying agent: a queue of proposed updates to a target object's attributes or
    to the repository's files, approvals, peer review, a sandbox gate, application (or a dry
    run), an append-only audit log, and rollback from that log.

    The target object is a map from attribute names to Python values; the repository's files
    written by applied updates are a map from absolute paths to contents. The clock, the update
    id's random suffix, the sandbox's verdict and the language-model retry are parameters. */
module SelfModifyingAgent {
  import opened Wrappers
  import opened Text

  // ================================================================ Python values

  datatype Value =
    | VNone
    | VBool(b: bool)
    | VInt(i: int)
    | VFloat(f: real)
    | VStr(s: string)
    | VList(items: seq<Value>)
    | VDict(entries: map<string, Value>)
    | VObject(cls: string)

  datatype PyType = TNone | TBool | TInt | TFloat | TStr | TList | TDict | TObject(cls: string)

  /** `type(v)`. */
  function TypeOf(v: Value): PyType
  {
    match v
    case VNone => TNone
    case VBool(_) => TBool
    case VInt(_) => TInt
    case VFloat(_) => TFloat
    case VStr(_) => TStr
    case VList(_) => TList
    case VDict(_) => TDict
    case VObject(c) => TObject(c)
  }

  /** `isinstance(v, (int, float))`; a bool is an int in Python. */
  predicate IsNumber(v: Value) { v.VBool? || v.VInt? || v.VFloat? }

  /** `isinstance(v, (dict, list))`. */
  predicate IsStructure(v: Value) { v.VList? || v.VDict? }

  function NumberValue(v: Value): real
    requires IsNumber(v)
  {
    match v
    case VBool(b) => if b then 1.0 else 0.0
    case VInt(i) => i as real
    case VFloat(f) => f
  }

  /** Python `==`: numbers compare by value across bool, int and float; lists item by item and
      dicts key by key, with the same rule inside; other values structurally. */
  predicate PyEq(a: Value, b: Value)
    decreases a
  {
    if IsNumber(a) && IsNumber(b) then NumberValue(a) == NumberValue(b)
    else match a
      case VList(xs) =>
        b.VList? && |xs| == |b.items| && forall i :: 0 <= i < |xs| ==> PyEq(xs[i], b.items[i])
      case VDict(m) =>
        b.VDict? && m.Keys == b.entries.Keys && forall k :: k in m ==> PyEq(m[k], b.entries[k])
      case _ => a == b
  }

  /** Every value equals itself. */
  lemma {:induction false} PyEqReflexive(a: Value)
    ensures PyEq(a, a)
    decreases a
  {
    match a
    case VList(xs) =>
      forall i | 0 <= i < |xs| ensures PyEq(xs[i], xs[i]) { PyEqReflexive(xs[i]); }
    case VDict(m) =>
      forall k | k in m ensures PyEq(m[k], m[k]) { PyEqReflexive(m[k]); }
    case _ =>
  }

  /** `[1] == [1.0]` and `{"a": True} == {"a": 1}`: numeric equality reaches inside containers,
      while a list never equals a dict. */
  lemma NestedNumbersEqual()
    ensures PyEq(VList([VInt(1)]), VList([VFloat(1.0)]))
    ensures PyEq(VDict(map["a" := VBool(true)]), VDict(map["a" := VInt(1)]))
    ensures !PyEq(VList([]), VDict(map[]))
  {
  }

  // ---------------------------------------------------------------- float(s)

  function SpanDigits(s: string): (n: nat)
    ensures n <= |s|
    ensures forall i :: 0 <= i < n ==> IsDigit(s[i])
    ensures n < |s| ==> !IsDigit(s[n])
  {
    if s != [] && IsDigit(s[0]) then 1 + SpanDigits(s[1..]) else 0
  }

  predicate AllDigits(s: string) { SpanDigits(s) == |s| }

  /** An optional exponent: `e` or `E`, an optional sign, at least one digit. */
  predicate ExponentPart(s: string)
  {
    s == [] ||
    ((s[0] == 'e' || s[0] == 'E') &&
     var t := if |s| > 1 && (s[1] == '+' || s[1] == '-') then s[2..] else s[1..];
     t != [] && AllDigits(t))
  }

  /** Digits with an optional fraction (at least one digit on one side of the point) and an
      optional exponent. */
  predicate DecimalLiteral(s: string)
  {
    var a := SpanDigits(s);
    if a < |s| && s[a] == '.' then
      var rest := s[a + 1..];
      var b := SpanDigits(rest);
      (a > 0 || b > 0) && ExponentPart(rest[b..])
    else
      a > 0 && ExponentPart(s[a..])
  }

  /** Whether Python's `float(s)` accepts `s`: surrounding white space, an optional sign, then
      a decimal literal or one of inf, infinity, nan in any case. */
  predicate ParsesAsFloat(s: string)
  {
    FloatBody(Unsigned(Strip(s)))
  }

  /** The text after an optional leading sign. */
  function Unsigned(t: string): string
  {
    if t != [] && (t[0] == '+' || t[0] == '-') then t[1..] else t
  }

  /** What may follow the sign. */
  predicate FloatBody(body: string)
  {
    SpecialWord(Lower(body)) || DecimalLiteral(body)
  }

  /** The words `float()` accepts besides numbers, once lower-cased. */
  predicate SpecialWord(l: string) { l == "inf" || l == "infinity" || l == "nan" }

  /** Without white space at either end and without a sign, `float()` reads the string as it
      is. */
  lemma ParsesBare(s: string)
    requires s == [] || (!IsSpace(s[0]) && !IsSpace(s[|s| - 1]) && s[0] != '+' && s[0] != '-')
    ensures ParsesAsFloat(s) == FloatBody(s)
  {
    assert Unsigned(Strip(s)) == s by { StripUnchanged(s); }
  }

  /** The same for a string with a leading sign. */
  lemma ParsesSigned(s: string)
    requires s != [] && (s[0] == '+' || s[0] == '-') && !IsSpace(s[|s| - 1])
    ensures ParsesAsFloat(s) == FloatBody(s[1..])
  {
    assert Unsigned(Strip(s)) == s[1..] by { StripUnchanged(s); }
  }

  /** Plain decimal renderings of naturals are floats, as are `-2.5e3` and `NaN`; a word, the
      empty string, a lone point and a bare exponent are not. */
  lemma NaturalsParseAsFloat(n: nat)
    ensures ParsesAsFloat(Digits(n))
  {
    DigitStringsParse(Digits(n));
  }

  lemma DigitStringsParse(d: string)
    requires d != [] && forall i :: 0 <= i < |d| ==> IsDigit(d[i])
    ensures ParsesAsFloat(d)
  {
    ParsesBare(d);
    SpanAllDigits(d);
    assert d[|d|..] == [];
    assert DecimalLiteral(d);
  }

  lemma {:induction false} SpanAllDigits(s: string)
    requires forall i :: 0 <= i < |s| ==> IsDigit(s[i])
    ensures SpanDigits(s) == |s|
    decreases |s|
  {
    if s != [] {
      SpanAllDigits(s[1..]);
    }
  }

  lemma ExponentLiteralParses()
    ensures ParsesAsFloat("-2.5e3")
  {
    ParsesSigned("-2.5e3");
    assert "-2.5e3"[1..] == "2.5e3";
    FractionWithExponent();
  }

  /** `2.5e3`: one digit, a point, one digit and an exponent. */
  lemma FractionWithExponent()
    ensures DecimalLiteral("2.5e3")
  {
    assert SpanDigits("2.5e3") == 1 by { assert SpanDigits(".5e3") == 0; }
    assert "2.5e3"[2..] == "5e3";
    assert SpanDigits("5e3") == 1 by { assert SpanDigits("e3") == 0; }
    assert "5e3"[1..] == "e3";
    assert ExponentPart("e3") by { assert SpanDigits("3") == 1; }
  }

  lemma NanParses()
    ensures ParsesAsFloat("NaN")
  {
    LowerOf("NaN", "nan");
    SpecialWordParses("NaN");
  }

  /** A bare string that lower-cases to one of the special words is a float. */
  lemma SpecialWordParses(s: string)
    requires s != [] && !IsSpace(s[0]) && !IsSpace(s[|s| - 1]) && s[0] != '+' && s[0] != '-'
    requires SpecialWord(Lower(s))
    ensures ParsesAsFloat(s)
  {
    ParsesBare(s);
  }

  lemma WordIsNotFloat()
    ensures !ParsesAsFloat("abc")
  {
    LeadingLetterNotFloat("abc");
  }

  /** A string that starts with a letter other than `i` and `n` is no float. */
  lemma LeadingLetterNotFloat(s: string)
    requires s != [] && 'a' <= LowerChar(s[0]) <= 'z' && LowerChar(s[0]) != 'i' && LowerChar(s[0]) != 'n'
    requires !IsSpace(s[|s| - 1])
    ensures !ParsesAsFloat(s)
  {
    NoDigitNoPointNotDecimal(s);
    NotSpecialWord(s);
    BareNotFloat(s);
  }

  /** Without surrounding white space and sign, a string that is neither a special word nor a
      decimal literal is no float. */
  lemma BareNotFloat(s: string)
    requires s == [] || (!IsSpace(s[0]) && !IsSpace(s[|s| - 1]) && s[0] != '+' && s[0] != '-')
    requires !SpecialWord(Lower(s)) && !DecimalLiteral(s)
    ensures !ParsesAsFloat(s)
  {
    ParsesBare(s);
  }

  /** Only strings that start with `i` or `n`, in either case, can be one of the special words. */
  lemma NotSpecialWord(s: string)
    requires s != [] && LowerChar(s[0]) != 'i' && LowerChar(s[0]) != 'n'
    ensures !SpecialWord(Lower(s))
  {
    var l := Lower(s);
    assert l[0] == LowerChar(s[0]);
    assert "inf"[0] == 'i' && "infinity"[0] == 'i' && "nan"[0] == 'n';
  }

  /** A decimal literal starts with a digit or a point. */
  lemma NoDigitNoPointNotDecimal(s: string)
    requires s != [] && !IsDigit(s[0]) && s[0] != '.'
    ensures !DecimalLiteral(s)
  {
    assert SpanDigits(s) == 0;
  }

  lemma LonePointIsNotFloat()
    ensures !ParsesAsFloat(".") && !ParsesAsFloat("")
  {
    LonePointNotDecimal();
    NotSpecialWord(".");
    BareNotFloat(".");
    EmptyNotFloat();
  }

  lemma LonePointNotDecimal()
    ensures !DecimalLiteral(".")
  {
    assert SpanDigits(".") == 0 && SpanDigits("") == 0;
    assert "."[1..] == "";
  }

  lemma EmptyNotFloat()
    ensures !ParsesAsFloat("")
  {
    assert !DecimalLiteral("") by { assert SpanDigits("") == 0; }
    assert !SpecialWord(Lower("")) by { assert Lower("") == ""; }
    BareNotFloat("");
  }

  lemma BareExponentIsNotFloat()
    ensures !ParsesAsFloat("1e")
  {
    assert "1e" == "1" + "e";
    DanglingExponentNotFloat("1");
  }

  /** Digits followed by an exponent marker and nothing else are no float. */
  lemma DanglingExponentNotFloat(d: string)
    requires d != [] && forall i :: 0 <= i < |d| ==> IsDigit(d[i])
    ensures !ParsesAsFloat(d + "e")
  {
    DanglingExponentNotDecimal(d);
    NotSpecialWord(d + "e");
    BareNotFloat(d + "e");
  }

  lemma DanglingExponentNotDecimal(d: string)
    requires forall i :: 0 <= i < |d| ==> IsDigit(d[i])
    ensures !DecimalLiteral(d + "e")
  {
    var s := d + "e";
    assert SpanDigits(s) == |d| by { SpanUpTo(d, "e"); }
    assert s[|d|..] == "e";
  }

  /** The digit span of digits followed by a non-digit ends at the non-digit. */
  lemma {:induction false} SpanUpTo(d: string, rest: string)
    requires forall i :: 0 <= i < |d| ==> IsDigit(d[i])
    requires rest == [] || !IsDigit(rest[0])
    ensures SpanDigits(d + rest) == |d|
    decreases |d|
  {
    if d != [] {
      assert (d + rest)[1..] == d[1..] + rest;
      SpanUpTo(d[1..], rest);
    }
  }

  // ================================================================ code scanning

  const DangerousPatterns: seq<string> :=
    ["os.system(", "subprocess.Popen(", "eval(", "exec(", "`", "os.popen(", "open('/dev/",
     "import pty", "pty.spawn(", "import socket", "socket.socket(", "shutil.rmtree(", "rm -rf"]

  /** The first of `patterns`, in order, that occurs in `code`. */
  function FirstFound(code: string, patterns: seq<string>): (r: Option<nat>)
    ensures r.None? <==> forall i :: 0 <= i < |patterns| ==> !Contains(code, patterns[i])
    ensures r.Some? ==> r.value < |patterns| && Contains(code, patterns[r.value])
                        && forall i :: 0 <= i < r.value ==> !Contains(code, patterns[i])
  {
    if patterns == [] then None
    else if Contains(code, patterns[0]) then Some(0)
    else
      var r := FirstFound(code, patterns[1..]);
      if r.None? then None else Some(r.value + 1)
  }

  datatype Scan = Scan(ok: bool, reason: string)

  /** What `code_is_safe` answers: empty code is safe; otherwise the first dangerous pattern
      found, in list order, makes it unsafe. */
  function ScanVerdict(code: string): Scan
  {
    if code == "" then Scan(true, "ok")
    else
      match FirstFound(code, DangerousPatterns)
      case None => Scan(true, "ok")
      case Some(i) => Scan(false, "dangerous pattern found: " + DangerousPatterns[i])
  }

  /** Code is judged safe exactly when it contains none of the dangerous patterns. */
  lemma ScanSafeIff(code: string)
    ensures ScanVerdict(code).ok <==> forall p :: p in DangerousPatterns ==> !Contains(code, p)
  {
    if code == "" {
      forall p | p in DangerousPatterns ensures !Contains(code, p) {
        var i :| 0 <= i < |DangerousPatterns| && DangerousPatterns[i] == p;
        assert |DangerousPatterns[i]| > 0;
      }
    } else if ScanVerdict(code).ok {
      forall p | p in DangerousPatterns ensures !Contains(code, p) {
        var i :| 0 <= i < |DangerousPatterns| && DangerousPatterns[i] == p;
      }
    } else {
      var i := FirstFound(code, DangerousPatterns).value;
      assert DangerousPatterns[i] in DangerousPatterns;
    }
  }

  /** Code that calls `os.system(` is rejected and the message names that pattern. */
  lemma ScanRejectsOsSystem(code: string, i: nat)
    requires i + 10 <= |code| && code[i..i + 10] == "os.system("
    ensures ScanVerdict(code) == Scan(false, "dangerous pattern found: os.system(")
  {
    ContainsAt(code, "os.system(", i);
  }

  /** `code_is_safe`: scans the patterns in order and stops at the first one present. */
  method CodeIsSafe(code: string) returns (ok: bool, reason: string)
    ensures Scan(ok, reason) == ScanVerdict(code)
    ensures !ok ==> exists p :: p in DangerousPatterns && Contains(code, p)
  {
    if code == "" {
      return true, "ok";
    }
    for i := 0 to |DangerousPatterns|
      invariant forall j :: 0 <= j < i ==> !Contains(code, DangerousPatterns[j])
    {
      if Contains(code, DangerousPatterns[i]) {
        return false, "dangerous pattern found: " + DangerousPatterns[i];
      }
    }
    return true, "ok";
  }

  // ================================================================ repository paths

  /** A normalized absolute POSIX path: two leading slashes are kept (as `normpath` does),
      otherwise one; `comps` are the components. */
  datatype AbsPath = AbsPath(doubleSlash: bool, comps: seq<string>)

  predicate NormalComponent(c: string) { c != "" && c != "." && c != ".." && '/' !in c }

  predicate NormalComponents(cs: seq<string>) { forall i :: 0 <= i < |cs| ==> NormalComponent(cs[i]) }

  function Render(p: AbsPath): string
  {
    (if p.doubleSlash then "//" else "/") + Join(p.comps, '/')
  }

  /** `os.path.join(a, b)`: an absolute `b` replaces `a`. */
  function PathJoin(a: string, b: string): string
  {
    if StartsWith(b, "/") then b
    else if a == "" || EndsWith(a, "/") then a + b
    else a + "/" + b
  }

  /** The component list `normpath` builds for an absolute path: empty and `.` parts vanish and
      `..` drops the previous component (and nothing at the root). */
  function Normalize(parts: seq<string>, acc: seq<string>): (cs: seq<string>)
    requires NormalComponents(acc)
    requires forall i :: 0 <= i < |parts| ==> '/' !in parts[i]
    ensures NormalComponents(cs)
    decreases |parts|
  {
    if parts == [] then acc
    else
      var p := parts[0];
      if p == "" || p == "." then Normalize(parts[1..], acc)
      else if p == ".." then Normalize(parts[1..], if acc == [] then [] else acc[..|acc| - 1])
      else Normalize(parts[1..], acc + [p])
  }

  /** `os.path.abspath(p)` relative to the working directory `cwd`. */
  function AbsPathOf(p: string, cwd: string): AbsPath
  {
    var q := if StartsWith(p, "/") then p else PathJoin(cwd, p);
    var dbl := StartsWith(q, "//") && !StartsWith(q, "///");
    AbsPath(dbl, Normalize(Split(q, '/'), []))
  }

  datatype PathError = OutsideRepo

  function RootOf(repoRoot: string, cwd: string): AbsPath
  {
    AbsPathOf(if repoRoot == "" then cwd else repoRoot, cwd)
  }

  function CandidateOf(repoRoot: string, userPath: string, cwd: string): AbsPath
  {
    AbsPathOf(PathJoin(Render(RootOf(repoRoot, cwd)), userPath), cwd)
  }

  /** `safe_join_repo`: the absolute path of `userPath` under the repository root, refused when
      it is neither the root itself nor below `root + "/"`. */
  function SafeJoinRepo(repoRoot: string, userPath: string, cwd: string): Result<string, PathError>
  {
    var root := Render(RootOf(repoRoot, cwd));
    var candidate := Render(CandidateOf(repoRoot, userPath, cwd));
    if candidate == root then Ok(candidate)
    else if !StartsWith(candidate, root + "/") then Err(OutsideRepo)
    else Ok(candidate)
  }

  lemma JoinNormalShape(cs: seq<string>)
    requires NormalComponents(cs)
    ensures cs == [] <==> Join(cs, '/') == ""
    ensures cs != [] ==> Join(cs, '/')[0] != '/'
  {
    if cs != [] {
      assert cs[0] != "" && '/' !in cs[0];
      if |cs| > 1 {
        assert Join(cs, '/') == cs[0] + ['/'] + Join(cs[1..], '/');
      }
    }
  }

  /** The position of the first slash in `s` (its length when there is none). */
  function SlashIndex(s: string): (k: nat)
    ensures k <= |s|
  {
    if s == [] then 0 else if s[0] == '/' then 0 else 1 + SlashIndex(s[1..])
  }

  lemma {:induction false} SlashIndexAfter(x: string, rest: string)
    requires '/' !in x
    ensures SlashIndex(x + "/" + rest) == |x|
    decreases |x|
  {
    if x != [] {
      assert (x + "/" + rest)[1..] == x[1..] + "/" + rest;
      SlashIndexAfter(x[1..], rest);
    }
  }

  /** A slash-free head followed by a slash: a slash-free `r` followed by a slash prefixes the
      whole only when `r` is that head. */
  lemma HeadBeforeSlash(x: string, tail: string, r: string)
    requires '/' !in x && '/' !in r
    requires StartsWith(x + "/" + tail, r + "/")
    ensures x == r
  {
    var j := x + "/" + tail;
    assert j == r + "/" + j[|r| + 1..];
    SlashIndexAfter(x, tail);
    SlashIndexAfter(r, j[|r| + 1..]);
    assert x == j[..|x|] == r;
  }

  /** If the rendering of `cs` starts with component `r` followed by a slash, `cs` starts with
      `r` and has more after it. */
  lemma FirstComponent(r: string, cs: seq<string>)
    requires NormalComponent(r) && NormalComponents(cs)
    requires StartsWith(Join(cs, '/'), r + "/")
    ensures |cs| >= 2 && cs[0] == r
    ensures Join(cs, '/') == r + "/" + Join(cs[1..], '/')
  {
    var j := Join(cs, '/');
    assert j[|r|] == '/' by { assert (r + "/")[|r|] == '/'; }
    assert NormalComponent(cs[0]);
    if |cs| == 1 {
      assert false;
    }
    assert j == cs[0] + "/" + Join(cs[1..], '/');
    HeadBeforeSlash(cs[0], Join(cs[1..], '/'), r);
  }

  /** The rendering of `cs` lies below that of `rs` only when `rs` is a proper prefix of `cs`. */
  lemma {:induction false} BelowMeansPrefix(rs: seq<string>, cs: seq<string>)
    requires rs != [] && NormalComponents(rs) && NormalComponents(cs)
    requires StartsWith(Join(cs, '/'), Join(rs, '/') + "/")
    ensures |rs| < |cs| && cs[..|rs|] == rs
    decreases |rs|
  {
    var r := rs[0];
    if |rs| == 1 {
      FirstComponent(r, cs);
    } else {
      var jr := Join(rs, '/');
      assert jr == r + ['/'] + Join(rs[1..], '/');
      assert StartsWith(Join(cs, '/'), r + "/") by {
        assert (jr + "/")[..|r| + 1] == r + "/";
      }
      FirstComponent(r, cs);
      var tail := Join(cs[1..], '/');
      assert Join(cs, '/') == r + "/" + tail;
      assert StartsWith(tail, Join(rs[1..], '/') + "/") by {
        var n := |Join(rs[1..], '/') + "/"|;
        assert jr + "/" == (r + "/") + (Join(rs[1..], '/') + "/");
        assert (r + "/" + tail)[..|r| + 1 + n] == jr + "/";
        assert (r + "/" + tail)[|r| + 1..|r| + 1 + n] == tail[..n];
      }
      BelowMeansPrefix(rs[1..], cs[1..]);
      assert cs[..|rs|] == [cs[0]] + cs[1..][..|rs| - 1];
    }
  }

  /** A joined list of components has a slash exactly when it has more than one component. */
  lemma JoinSlash(cs: seq<string>)
    requires cs != [] && NormalComponents(cs)
    ensures '/' in Join(cs, '/') <==> |cs| >= 2
  {
    assert NormalComponent(cs[0]);
    if |cs| >= 2 {
      assert Join(cs, '/')[|cs[0]|] == '/';
    }
  }

  lemma {:induction false} JoinInjective(a: seq<string>, b: seq<string>)
    requires NormalComponents(a) && NormalComponents(b)
    requires Join(a, '/') == Join(b, '/')
    ensures a == b
    decreases |a|
  {
    JoinNormalShape(a);
    JoinNormalShape(b);
    if a != [] && b != [] {
      JoinSlash(a);
      JoinSlash(b);
      if |a| >= 2 {
        assert Join(a, '/') == a[0] + "/" + Join(a[1..], '/');
        assert Join(b, '/') == b[0] + "/" + Join(b[1..], '/');
        assert NormalComponent(a[0]) && NormalComponent(b[0]);
        HeadBeforeSlash(a[0], Join(a[1..], '/'), b[0]);
        assert Join(a[1..], '/') == Join(b[1..], '/') by {
          assert Join(a, '/')[|a[0]| + 1..] == Join(a[1..], '/');
          assert Join(b, '/')[|a[0]| + 1..] == Join(b[1..], '/');
        }
        JoinInjective(a[1..], b[1..]);
        assert a == [a[0]] + a[1..] && b == [b[0]] + b[1..];
      }
    }
  }

  /** The rendering starts with two slashes exactly when the path keeps its double slash. */
  lemma RenderShape(p: AbsPath)
    requires NormalComponents(p.comps)
    ensures p.doubleSlash <==> |Render(p)| >= 2 && Render(p)[1] == '/'
  {
    JoinNormalShape(p.comps);
  }

  /** Containment: a path `safe_join_repo` accepts is, component by component, the repository
      root or a path below it; `..` cannot climb out because the components are normalized. */
  lemma SafeJoinStaysInside(repoRoot: string, userPath: string, cwd: string)
    requires SafeJoinRepo(repoRoot, userPath, cwd).Ok?
    ensures var root := RootOf(repoRoot, cwd);
      var cand := CandidateOf(repoRoot, userPath, cwd);
      SafeJoinRepo(repoRoot, userPath, cwd).value == Render(cand)
      && |root.comps| <= |cand.comps| && cand.comps[..|root.comps|] == root.comps
  {
    var root := RootOf(repoRoot, cwd);
    var cand := CandidateOf(repoRoot, userPath, cwd);
    if Render(cand) == Render(root) {
      SameRendering(root, cand);
    } else if root.comps != [] {
      RenderedBelow(root, cand);
    }
  }

  /** Two normalized paths that render alike have the same components. */
  lemma SameRendering(root: AbsPath, cand: AbsPath)
    requires NormalComponents(root.comps) && NormalComponents(cand.comps)
    requires Render(cand) == Render(root)
    ensures cand.comps == root.comps
  {
    var jr, jc := Join(root.comps, '/'), Join(cand.comps, '/');
    RenderShape(root);
    RenderShape(cand);
    var k := if root.doubleSlash then 2 else 1;
    assert root.doubleSlash == cand.doubleSlash;
    assert jc == Render(cand)[k..] == Render(root)[k..] == jr;
    JoinInjective(root.comps, cand.comps);
  }

  /** A normalized path rendered below `root + "/"` extends the root's components. */
  lemma RenderedBelow(root: AbsPath, cand: AbsPath)
    requires NormalComponents(root.comps) && NormalComponents(cand.comps) && root.comps != []
    requires StartsWith(Render(cand), Render(root) + "/")
    ensures |root.comps| < |cand.comps| && cand.comps[..|root.comps|] == root.comps
  {
    var rs, cs := root.comps, cand.comps;
    var jr, jc := Join(rs, '/'), Join(cs, '/');
    JoinNormalShape(rs);
    JoinNormalShape(cs);
    RenderShape(root);
    RenderShape(cand);
    var k := if root.doubleSlash then 2 else 1;
    var pr := Render(root) + "/";
    assert Render(cand)[..|pr|] == pr;
    assert Render(cand)[1] == pr[1];
    assert root.doubleSlash == cand.doubleSlash;
    assert StartsWith(jc, jr + "/") by {
      assert Render(cand)[k..] == jc;
      assert pr[k..] == jr + "/";
      assert jc[..|jr + "/"|] == Render(cand)[k..|pr|] == pr[k..];
    }
    BelowMeansPrefix(rs, cs);
  }

  // ================================================================ type and security checks

  datatype TypeVerdict = TypeVerdict(ok: bool, info: string, comment: Option<string>)

  /** `adaptive_type_check`: the first matching case decides; a comment is recorded for the
      accepted coercions. */
  function AdaptiveTypeCheck(before: Value, after: Value): TypeVerdict
  {
    if before.VNone? then TypeVerdict(true, "adding new attribute", None)
    else if TypeOf(before) == TypeOf(after) then TypeVerdict(true, "type match", None)
    else if IsNumber(before) && IsNumber(after) then TypeVerdict(true, "numeric coercion", Some("numeric coercion"))
    else if before.VStr? && IsNumber(after) then
      if ParsesAsFloat(before.s) then TypeVerdict(true, "str->number coercion", Some("str->number coercion"))
      else TypeVerdict(false, "unsafe str->number", None)
    else if IsNumber(before) && after.VStr? then
      if ParsesAsFloat(after.s) then TypeVerdict(true, "number->str coercion", Some("number->str coercion"))
      else TypeVerdict(false, "unsafe number->str", None)
    else if IsStructure(before) || IsStructure(after) then TypeVerdict(false, "structural change not allowed", None)
    else TypeVerdict(false, "unhandled type change", None)
  }

  /** A value change passes the type check exactly when the attribute is new, the type is kept,
      both sides are numbers, or one side is a number and the other a string that parses as
      one. In particular a list or dict is never swapped for a value of another type. */
  lemma TypeCheckAcceptsIff(before: Value, after: Value)
    ensures AdaptiveTypeCheck(before, after).ok <==>
      before.VNone? || TypeOf(before) == TypeOf(after) || (IsNumber(before) && IsNumber(after))
      || (before.VStr? && IsNumber(after) && ParsesAsFloat(before.s))
      || (IsNumber(before) && after.VStr? && ParsesAsFloat(after.s))
    ensures !before.VNone? && TypeOf(before) != TypeOf(after) && (IsStructure(before) || IsStructure(after)) ==>
      AdaptiveTypeCheck(before, after) == TypeVerdict(false, "structural change not allowed", None)
  {
    if before.VNone? || TypeOf(before) == TypeOf(after) || (IsNumber(before) && IsNumber(after)) {
      TypeCheckPlainAccepts(before, after);
    } else if before.VStr? && IsNumber(after) {
      TypeCheckStrToNumber(before, after);
    } else if IsNumber(before) && after.VStr? {
      TypeCheckNumberToStr(before, after);
    } else {
      TypeCheckOtherRefused(before, after);
    }
  }

  lemma TypeCheckPlainAccepts(before: Value, after: Value)
    requires before.VNone? || TypeOf(before) == TypeOf(after) || (IsNumber(before) && IsNumber(after))
    ensures AdaptiveTypeCheck(before, after).ok
  {
  }

  lemma TypeCheckStrToNumber(before: Value, after: Value)
    requires !before.VNone? && TypeOf(before) != TypeOf(after) && !(IsNumber(before) && IsNumber(after))
    requires before.VStr? && IsNumber(after)
    ensures AdaptiveTypeCheck(before, after).ok == ParsesAsFloat(before.s)
    ensures !IsStructure(before) && !IsStructure(after)
  {
  }

  lemma TypeCheckNumberToStr(before: Value, after: Value)
    requires !before.VNone? && TypeOf(before) != TypeOf(after) && !(IsNumber(before) && IsNumber(after))
    requires IsNumber(before) && after.VStr?
    ensures AdaptiveTypeCheck(before, after).ok == ParsesAsFloat(after.s)
    ensures !IsStructure(before) && !IsStructure(after)
  {
  }

  lemma TypeCheckOtherRefused(before: Value, after: Value)
    requires !before.VNone? && TypeOf(before) != TypeOf(after) && !(IsNumber(before) && IsNumber(after))
    requires !(before.VStr? && IsNumber(after)) && !(IsNumber(before) && after.VStr?)
    ensures !AdaptiveTypeCheck(before, after).ok
    ensures IsStructure(before) || IsStructure(after) ==>
      AdaptiveTypeCheck(before, after) == TypeVerdict(false, "structural change not allowed", None)
  {
  }

  const ForbiddenAttrs: seq<string> := ["API_KEY", "CORS_ALLOW_ORIGINS", "SECRET", "PASSWORD", "KEY", "TOKEN"]

  /** Some forbidden name occurs, case-insensitively, inside the attribute name. */
  predicate Sensitive(attr: string)
  {
    exists i :: 0 <= i < |ForbiddenAttrs| && Contains(Lower(attr), Lower(ForbiddenAttrs[i]))
  }

  /** A proposed change. `risk` is `meta["risk"]`, absent when the meta has none. */
  datatype Update = Update(
    id: string, attr: string, oldValue: Value, proposedValue: Value, reason: string,
    risk: Option<string>, category: string, codePath: Option<string>, proposedCode: Option<string>,
    status: string, approvals: int, requiredApprovals: int)

  datatype Verdict = Verdict(ok: bool, reason: string)

  /** The predictive checker configured on the security checker. */
  datatype Predictor = NoPredictor | Heuristic | LanguageModel

  /** `PredictiveSecurityChecker.predict`: with a language model enabled every code passes (a
      placeholder); otherwise the pattern scan decides, with confidence 0.60 or 0.95. */
  datatype Prediction = Prediction(safe: bool, confidence: string, msg: string)

  function Predict(p: Predictor, code: string): Prediction
  {
    if p == LanguageModel then Prediction(true, "0.80", "LLM analysis placeholder")
    else
      var s := ScanVerdict(code);
      Prediction(s.ok, if s.ok then "0.60" else "0.95", s.reason)
  }

  function FirstFailingRule(u: Update, rules: seq<Update -> Verdict>): (r: Option<string>)
    ensures r.None? <==> forall i :: 0 <= i < |rules| ==> rules[i](u).ok
  {
    if rules == [] then None
    else if !rules[0](u).ok then Some(rules[0](u).reason)
    else FirstFailingRule(u, rules[1..])
  }

  /** `EnhancedSecurityChecker.check`: the gates in order — sensitive attribute name, approval
      count, type compatibility, predictive code check, conflict with the attribute's current
      value, custom rules. */
  function Check(u: Update, approvals: int, existing: map<string, Value>, predictor: Predictor,
                 rules: seq<Update -> Verdict>): Verdict
  {
    if Sensitive(u.attr) then Verdict(false, "modification of sensitive attribute is forbidden")
    else if approvals < u.requiredApprovals then Verdict(false, "not enough approvals")
    else if !u.oldValue.VNone? && !AdaptiveTypeCheck(u.oldValue, u.proposedValue).ok then
      Verdict(false, AdaptiveTypeCheck(u.oldValue, u.proposedValue).info)
    else if predictor != NoPredictor && u.proposedCode.Some? && u.proposedCode.value != ""
            && !Predict(predictor, u.proposedCode.value).safe then
      var pr := Predict(predictor, u.proposedCode.value);
      Verdict(false, "predictive security: " + pr.msg + " (" + pr.confidence + ")")
    else if u.attr in existing && !PyEq(existing[u.attr], u.oldValue) then
      Verdict(false, "conflict with current attribute")
    else match FirstFailingRule(u, rules)
      case Some(msg) => Verdict(false, msg)
      case None => Verdict(true, "passed")
  }

  /** A change passes every gate or is refused by the first one it fails; a sensitive attribute
      is refused whatever the rest of the update says. */
  lemma CheckPassesIff(u: Update, approvals: int, existing: map<string, Value>, predictor: Predictor,
                       rules: seq<Update -> Verdict>)
    ensures Check(u, approvals, existing, predictor, rules).ok <==>
      !Sensitive(u.attr) && approvals >= u.requiredApprovals
      && (u.oldValue.VNone? || AdaptiveTypeCheck(u.oldValue, u.proposedValue).ok)
      && (predictor == NoPredictor || u.proposedCode.None? || u.proposedCode.value == ""
          || Predict(predictor, u.proposedCode.value).safe)
      && (u.attr in existing ==> PyEq(existing[u.attr], u.oldValue))
      && (forall i :: 0 <= i < |rules| ==> rules[i](u).ok)
    ensures Sensitive(u.attr) ==>
      Check(u, approvals, existing, predictor, rules) == Verdict(false, "modification of sensitive attribute is forbidden")
  {
  }

  /** Names containing `secret` or `key` in any case are sensitive (so is every name that merely
      contains "key", such as "monkey"); `lr` is not. */
  lemma SecretIsSensitive()
    ensures Sensitive("secret")
  {
    LowerOf("secret", "secret");
    ContainsAt("secret", "secret", 0);
    ForbiddenSecret();
    SensitiveAt("secret", 2, "secret");
  }

  lemma ForbiddenSecret()
    ensures Lower(ForbiddenAttrs[2]) == "secret"
  {
    assert ForbiddenAttrs[2] == "SECRET";
    LowerOf("SECRET", "secret");
  }

  /** A name is sensitive as soon as one forbidden name occurs in it. */
  lemma SensitiveAt(attr: string, i: nat, l: string)
    requires i < |ForbiddenAttrs| && Lower(ForbiddenAttrs[i]) == l && Contains(Lower(attr), l)
    ensures Sensitive(attr)
  {
  }

  lemma ApiKeyIsSensitive()
    ensures Sensitive("API_Key")
  {
    LowerOf("API_Key", "api_key");
    assert "api_key"[4..7] == "key";
    ContainsAt("api_key", "key", 4);
    ForbiddenKey();
    SensitiveAt("API_Key", 4, "key");
  }

  lemma MonkeyIsSensitive()
    ensures Sensitive("monkey")
  {
    LowerOf("monkey", "monkey");
    assert "monkey"[3..6] == "key";
    ContainsAt("monkey", "key", 3);
    ForbiddenKey();
    SensitiveAt("monkey", 4, "key");
  }

  lemma ForbiddenKey()
    ensures Lower(ForbiddenAttrs[4]) == "key"
  {
    assert ForbiddenAttrs[4] == "KEY";
    LowerOf("KEY", "key");
  }

  lemma LrIsNotSensitive()
    ensures !Sensitive("lr")
  {
    assert Lower("lr") == "lr";
    forall i | 0 <= i < |ForbiddenAttrs| ensures !Contains(Lower("lr"), Lower(ForbiddenAttrs[i])) {
      assert |Lower(ForbiddenAttrs[i])| >= 3;
      NotContainsLonger("lr", Lower(ForbiddenAttrs[i]));
    }
  }

  lemma NotContainsLonger(s: string, sub: string)
    requires |sub| > |s|
    ensures !Contains(s, sub)
    decreases |s|
  {
    if |s| > 0 {
      NotContainsLonger(s[1..], sub);
    }
  }

  // ================================================================ peer review

  const SuspiciousTokens: seq<string> := ["rm -rf", "wget", "curl", "chmod 777", "netcat", "nc "]

  /** `VirtualPeerReviewer.review`: a high-risk update needs its approvals; a reason mentioning a
      suspicious token (case-insensitively) is refused, naming the first such token. */
  function PeerReview(u: Update): Verdict
  {
    if u.risk == Some("high") && u.approvals < u.requiredApprovals then Verdict(false, "High risk without approvals")
    else match FirstFound(Lower(u.reason), SuspiciousTokens)
      case Some(i) => Verdict(false, "Suspicious token in reason: " + SuspiciousTokens[i])
      case None => Verdict(true, "peer review passed")
  }

  /** Peer review passes exactly when the update is not an under-approved high-risk one and its
      reason mentions none of the suspicious tokens. */
  lemma PeerReviewPassesIff(u: Update)
    ensures PeerReview(u).ok <==>
      !(u.risk == Some("high") && u.approvals < u.requiredApprovals)
      && forall t :: t in SuspiciousTokens ==> !Contains(Lower(u.reason), t)
  {
    var r := Lower(u.reason);
    match FirstFound(r, SuspiciousTokens)
    case None =>
      forall t | t in SuspiciousTokens ensures !Contains(r, t) {
        var i :| 0 <= i < |SuspiciousTokens| && SuspiciousTokens[i] == t;
      }
    case Some(i) =>
      assert SuspiciousTokens[i] in SuspiciousTokens;
  }

  // ================================================================ audit log

  /** The fields of an audit entry the agent reads back. Absent fields are `None`. */
  datatype Record = Record(event: string, updateId: Option<string>, status: Option<string>,
                           attr: Option<string>, oldValue: Value)

  /** A logged entry: the record with its timestamp and version (its 1-based position). */
  datatype Entry = Entry(rec: Record, ts: int, version: int)

  function Logged(log: seq<Entry>, r: Record, now: int): (l: seq<Entry>)
    ensures |l| == |log| + 1 && l[..|log|] == log && l[|log|].rec == r
  {
    log + [Entry(r, now, |log| + 1)]
  }

  /** The most recent entry about `uid`. */
  function LatestFor(log: seq<Entry>, uid: string): (e: Option<Entry>)
    ensures e.Some? ==> e.value in log && e.value.rec.updateId == Some(uid)
    ensures e.None? <==> forall i :: 0 <= i < |log| ==> log[i].rec.updateId != Some(uid)
  {
    if log == [] then None
    else if log[|log| - 1].rec.updateId == Some(uid) then Some(log[|log| - 1])
    else LatestFor(log[..|log| - 1], uid)
  }

  /** Logging an entry about `uid` makes it the one `get(uid)` returns; an entry about another
      update leaves the answer unchanged. */
  lemma LatestAfterLog(log: seq<Entry>, r: Record, now: int, uid: string)
    ensures LatestFor(Logged(log, r, now), uid) ==
      if r.updateId == Some(uid) then Some(Entry(r, now, |log| + 1)) else LatestFor(log, uid)
  {
    assert Logged(log, r, now)[..|log|] == log;
  }

  /** The most recent entry whose status is `applied`. */
  function LatestApplied(log: seq<Entry>): (e: Option<Entry>)
    ensures e.Some? ==> e.value in log && e.value.rec.status == Some("applied")
    ensures e.None? <==> forall i :: 0 <= i < |log| ==> log[i].rec.status != Some("applied")
  {
    if log == [] then None
    else if log[|log| - 1].rec.status == Some("applied") then Some(log[|log| - 1])
    else LatestApplied(log[..|log| - 1])
  }

  class AuditStore {
    var changes: seq<Entry>

    /** `_load`: the parsed lines of the log file in order; a line that does not parse (`None`)
        is skipped. */
    constructor (lines: seq<Option<Entry>>)
      ensures changes == Parsed(lines)
    {
      var acc: seq<Entry> := [];
      for i := 0 to |lines|
        invariant acc == Parsed(lines[..i])
      {
        assert lines[..i + 1] == lines[..i] + [lines[i]];
        ParsedAppend(lines[..i], lines[i]);
        if lines[i].Some? {
          acc := acc + [lines[i].value];
        }
      }
      assert lines[..|lines|] == lines;
      changes := acc;
    }

    /** `log`: append the entry, stamped with the time and with version = new length. */
    method Log(r: Record, now: int)
      modifies this
      ensures changes == Logged(old(changes), r, now)
    {
      changes := changes + [Entry(r, now, |changes| + 1)];
    }

    /** `last`. */
    function Last(): (e: Option<Entry>)
      reads this
      ensures e.None? <==> changes == []
      ensures e.Some? ==> e.value == changes[|changes| - 1]
    {
      if changes == [] then None else Some(changes[|changes| - 1])
    }

    /** `get`: scans the log from the newest entry back and returns the first about `uid`. */
    method Get(uid: string) returns (e: Option<Entry>)
      ensures e == LatestFor(changes, uid)
    {
      var i := |changes|;
      assert changes[..i] == changes;
      while i > 0
        invariant 0 <= i <= |changes|
        invariant LatestFor(changes, uid) == LatestFor(changes[..i], uid)
      {
        assert changes[..i][..i - 1] == changes[..i - 1];
        if changes[i - 1].rec.updateId == Some(uid) {
          return Some(changes[i - 1]);
        }
        i := i - 1;
      }
      return None;
    }
  }

  function Parsed(lines: seq<Option<Entry>>): seq<Entry>
  {
    if lines == [] then []
    else Parsed(lines[..|lines| - 1]) + (if lines[|lines| - 1].Some? then [lines[|lines| - 1].value] else [])
  }

  lemma ParsedAppend(lines: seq<Option<Entry>>, l: Option<Entry>)
    ensures Parsed(lines + [l]) == Parsed(lines) + (if l.Some? then [l.value] else [])
  {
    assert (lines + [l])[..|lines|] == lines;
  }

  // ================================================================ the agent's transitions

  /** Everything the agent's operations change: the pending queue, the target's attributes, the
      repository files written by applied updates, and the audit log. */
  datatype AgentState = AgentState(pending: seq<Update>, target: map<string, Value>,
                                   files: map<string, string>, log: seq<Entry>)

  /** `getattr(target, attr, None)`. */
  function GetAttr(target: map<string, Value>, attr: string): Value
  {
    if attr in target then target[attr] else VNone
  }

  /** `_remove_pending`: every queued update with this id goes; the rest keep their order. */
  function Without(s: seq<Update>, uid: string): (r: seq<Update>)
    ensures |r| <= |s|
    ensures forall i :: 0 <= i < |r| ==> r[i].id != uid && r[i] in s
  {
    if s == [] then []
    else (if s[0].id == uid then [] else [s[0]]) + Without(s[1..], uid)
  }

  lemma {:induction false} WithoutConcat(s: seq<Update>, t: seq<Update>, uid: string)
    ensures Without(s + t, uid) == Without(s, uid) + Without(t, uid)
    decreases |s|
  {
    if s != [] {
      var x, rest := s[0], s[1..];
      assert s == [x] + rest && s + t == [x] + (rest + t);
      WithoutCons(x, rest, uid);
      WithoutCons(x, rest + t, uid);
      WithoutConcat(rest, t, uid);
    } else {
      assert s + t == t;
    }
  }

  /** Removing an id that is queued once deletes exactly that entry; an id that is not queued
      changes nothing. */
  lemma {:induction false} WithoutSingle(s: seq<Update>, uid: string, k: nat)
    requires k < |s| && s[k].id == uid
    requires forall i :: 0 <= i < |s| && i != k ==> s[i].id != uid
    ensures Without(s, uid) == s[..k] + s[k + 1..]
    decreases k
  {
    var t := s[1..];
    if k == 0 {
      WithoutAbsent(t, uid);
      assert s[..0] + s[1..] == t;
    } else {
      WithoutSingle(t, uid, k - 1);
      DropAfterHead(s, k);
    }
  }

  /** Dropping entry `k > 0` of a sequence is keeping its head and dropping entry `k - 1` of its
      tail. */
  lemma DropAfterHead(s: seq<Update>, k: nat)
    requires 0 < k < |s|
    ensures [s[0]] + (s[1..][..k - 1] + s[1..][k..]) == s[..k] + s[k + 1..]
  {
    assert s[1..][..k - 1] == s[1..k] && s[1..][k..] == s[k + 1..];
    assert [s[0]] + s[1..k] == s[..k];
  }

  lemma {:induction false} WithoutAbsent(s: seq<Update>, uid: string)
    requires forall i :: 0 <= i < |s| ==> s[i].id != uid
    ensures Without(s, uid) == s
    decreases |s|
  {
    if s != [] {
      WithoutAbsent(s[1..], uid);
    }
  }

  function UpdateRecord(event: string, u: Update): Record
  {
    Record(event, Some(u.id), Some(u.status), Some(u.attr), u.oldValue)
  }

  function Note(event: string, uid: string): Record { Record(event, Some(uid), None, None, VNone) }

  /** `_make_update_id`: milliseconds, attribute, random suffix. */
  function UpdateId(now: nat, attr: string, nonce: string): string
  {
    Digits(now) + "_" + attr + "_" + nonce
  }

  /** `propose_update`: queue a pending update recording the attribute's current value. */
  function Propose(s: AgentState, attr: string, value: Value, reason: string, risk: Option<string>,
                   category: string, codePath: Option<string>, code: Option<string>,
                   required: int, now: nat, nonce: string): (r: (AgentState, string))
  {
    var u := Update(UpdateId(now, attr, nonce), attr, GetAttr(s.target, attr), value, reason, risk,
                    category, codePath, code, "pending", 0, required);
    (s.(pending := s.pending + [u], log := Logged(s.log, UpdateRecord("propose_update", u), now)), u.id)
  }

  /** The first queued update with this id, or -1. */
  function FirstWithId(s: seq<Update>, uid: string): (k: int)
    ensures -1 <= k < |s|
    ensures k >= 0 ==> s[k].id == uid && forall j :: 0 <= j < k ==> s[j].id != uid
    ensures k == -1 ==> forall j :: 0 <= j < |s| ==> s[j].id != uid
  {
    if s == [] then -1
    else if s[0].id == uid then 0
    else var k := FirstWithId(s[1..], uid); if k == -1 then -1 else k + 1
  }

  /** `approve_update`: one more approval on the first queued update with this id. */
  function Approve(s: AgentState, uid: string, now: int): (r: (AgentState, bool))
  {
    var k := FirstWithId(s.pending, uid);
    if k < 0 then (s, false)
    else
      var u := s.pending[k].(approvals := s.pending[k].approvals + 1);
      (s.(pending := s.pending[k := u], log := Logged(s.log, Record("approve_update", Some(uid), None, None, VNone), now)), true)
  }

  /** The sandbox's verdict on an update's code and, when it failed, the patch a language-model
      retry produced (if any). */
  datatype SandboxRun = SandboxRun(ok: bool, retryPatch: Option<string>)

  datatype Outcome = Outcome(uid: string, ok: bool, msg: string, status: string)

  /** The file an update would write: its path and code, when it has both. */
  function CodeFile(u: Update): Option<(string, string)>
  {
    if u.codePath.Some? && u.codePath.value != "" && u.proposedCode.Some? && u.proposedCode.value != ""
    then Some((u.codePath.value, u.proposedCode.value)) else None
  }

  predicate WritesFiles(u: Update) { (u.category == "module_add" || u.category == "code_patch") && CodeFile(u).Some? }

  /** `apply_single_update`: peer review, sandbox (with one retry through the language model),
      then the change itself or, on a dry run, only a log entry. Whatever happens the update
      leaves the queue. */
  function ApplyStep(s: AgentState, u: Update, dryRun: bool, run: SandboxRun, now: int,
                     repoRoot: string, cwd: string): (r: (AgentState, Outcome))
    ensures r.0.pending == Without(s.pending, u.id) && r.1.uid == u.id
  {
    var uid := u.id;
    var review := PeerReview(u);
    var queue := Without(s.pending, uid);
    if !review.ok then
      (s.(pending := queue, log := Logged(s.log, Note("peer_reject", uid), now)),
       Outcome(uid, false, "peer_reject: " + review.reason, "rejected_peer"))
    else
      var log1 := Logged(s.log, Note("sandbox_done", uid), now);
      var patched := run.retryPatch.Some? && run.retryPatch.value != "";
      if CodeFile(u).Some? && !run.ok && !patched then
        (s.(pending := queue, log := Logged(log1, Note("sandbox_fail", uid), now)),
         Outcome(uid, false, "sandbox_failed", "sandbox_failed"))
      else if dryRun then
        (s.(pending := queue, log := Logged(log1, Note("simulated", uid), now)),
         Outcome(uid, true, "simulated", "simulated"))
      else
        var (c, status) := Commit(s.(log := log1), u, run, now, repoRoot, cwd);
        (c.(pending := queue), Outcome(uid, true, "applied", status))
  }

  /** The change itself, once review and sandbox have passed outside a dry run: the parameter,
      then the file, then the audit entry that says whether the write happened. */
  function Commit(s: AgentState, u: Update, run: SandboxRun, now: int, repoRoot: string, cwd: string): (r: (AgentState, string))
    ensures r.0.pending == s.pending
    ensures |r.0.log| == |s.log| + 1 && r.0.log[..|s.log|] == s.log
  {
    var target := if u.category == "param_change" then s.target[u.attr := u.proposedValue] else s.target;
    var applied := u.(status := "applied",
                      proposedCode := if CodeFile(u).Some? && !run.ok then run.retryPatch else u.proposedCode);
    if WritesFiles(u) then
      var (path, content) := CodeFile(u).value;
      match SafeJoinRepo(repoRoot, path, cwd)
      case Err(_) =>
        (s.(target := target, log := Logged(s.log, Note("apply_failed", u.id), now)), "apply_failed")
      case Ok(fpath) =>
        (s.(target := target, files := s.files[fpath := content], log := Logged(s.log, UpdateRecord("applied", applied), now)),
         "applied")
    else
      (s.(target := target, log := Logged(s.log, UpdateRecord("applied", applied), now)), "applied")
  }

  /** `rollback_update`: restore the attribute from the newest audit entry about the update, if
      that entry says the update was applied and recorded a previous value. */
  function Rollback(s: AgentState, uid: string, now: int): (r: (AgentState, bool))
  {
    var ent := LatestFor(s.log, uid);
    if ent.None? || ent.value.rec.status != Some("applied") then (s, false)
    else
      var rec := ent.value.rec;
      if rec.attr.Some? && rec.attr.value != "" && !rec.oldValue.VNone? then
        (s.(target := s.target[rec.attr.value := rec.oldValue],
            log := Logged(s.log, Record("rollback", Some(uid), None, rec.attr, VNone), now)), true)
      else (s, false)
  }

  /** `apply_pending_updates`: applies a snapshot of the queue in order, one sandbox run per
      update. */
  function ApplyAll(s: AgentState, queue: seq<Update>, runs: seq<SandboxRun>, dryRun: bool, now: int,
                    repoRoot: string, cwd: string): (r: (AgentState, seq<Outcome>))
    requires |runs| == |queue|
    ensures |r.1| == |queue|
    decreases |queue|
  {
    if queue == [] then (s, [])
    else
      var n := |queue| - 1;
      var (w, os) := ApplyAll(s, queue[..n], runs[..n], dryRun, now, repoRoot, cwd);
      var (t, o) := ApplyStep(w, queue[n], dryRun, runs[n], now, repoRoot, cwd);
      (t, os + [o])
  }

  /** Applying one more update of the snapshot extends the fold by that update's step. */
  lemma ApplyAllExtend(s: AgentState, queue: seq<Update>, runs: seq<SandboxRun>, i: nat, dryRun: bool, now: int,
                       repoRoot: string, cwd: string)
    requires |runs| == |queue| && i < |queue|
    ensures var (w, os) := ApplyAll(s, queue[..i], runs[..i], dryRun, now, repoRoot, cwd);
            var (t, o) := ApplyStep(w, queue[i], dryRun, runs[i], now, repoRoot, cwd);
            ApplyAll(s, queue[..i + 1], runs[..i + 1], dryRun, now, repoRoot, cwd) == (t, os + [o])
  {
    assert queue[..i + 1][..i] == queue[..i] && runs[..i + 1][..i] == runs[..i];
  }

  function Ids(q: seq<Update>): set<string> { set i | 0 <= i < |q| :: q[i].id }

  /** The queue without every update whose id is in `ids`, the rest in order. */
  function RemoveIds(p: seq<Update>, ids: set<string>): seq<Update>
  {
    if p == [] then [] else (if p[0].id in ids then [] else [p[0]]) + RemoveIds(p[1..], ids)
  }

  lemma {:induction false} RemoveNoIds(p: seq<Update>)
    ensures RemoveIds(p, {}) == p
    decreases |p|
  {
    if p != [] {
      RemoveNoIds(p[1..]);
    }
  }

  lemma {:induction false} RemoveAllIds(p: seq<Update>, ids: set<string>)
    requires forall i :: 0 <= i < |p| ==> p[i].id in ids
    ensures RemoveIds(p, ids) == []
    decreases |p|
  {
    if p != [] {
      RemoveAllIds(p[1..], ids);
    }
  }

  /** Applying a queue reports one outcome per update, in queue order, and takes every update
      with a processed id off the pending queue, keeping the others in order. */
  lemma ApplyAllDrains(s: AgentState, queue: seq<Update>, runs: seq<SandboxRun>, dryRun: bool,
                       now: int, repoRoot: string, cwd: string)
    requires |runs| == |queue|
    ensures var (w, os) := ApplyAll(s, queue, runs, dryRun, now, repoRoot, cwd);
      w.pending == RemoveIds(s.pending, Ids(queue)) && forall i :: 0 <= i < |queue| ==> os[i].uid == queue[i].id
  {
    ApplyAllPending(s, queue, runs, dryRun, now, repoRoot, cwd);
    ApplyAllUids(s, queue, runs, dryRun, now, repoRoot, cwd);
  }

  lemma {:induction false} ApplyAllPending(s: AgentState, queue: seq<Update>, runs: seq<SandboxRun>, dryRun: bool,
                                           now: int, repoRoot: string, cwd: string)
    requires |runs| == |queue|
    ensures ApplyAll(s, queue, runs, dryRun, now, repoRoot, cwd).0.pending == RemoveIds(s.pending, Ids(queue))
    decreases |queue|
  {
    if queue == [] {
      assert Ids(queue) == {};
      RemoveNoIds(s.pending);
    } else {
      var n := |queue| - 1;
      var prefix := ApplyAll(s, queue[..n], runs[..n], dryRun, now, repoRoot, cwd);
      ApplyAllLast(s, queue, runs, dryRun, now, repoRoot, cwd);
      ApplyAllPending(s, queue[..n], runs[..n], dryRun, now, repoRoot, cwd);
      WithoutAfterRemove(s.pending, Ids(queue[..n]), queue[n].id);
      IdsSnoc(queue);
    }
  }

  lemma {:induction false} ApplyAllUids(s: AgentState, queue: seq<Update>, runs: seq<SandboxRun>, dryRun: bool,
                                        now: int, repoRoot: string, cwd: string)
    requires |runs| == |queue|
    ensures var os := ApplyAll(s, queue, runs, dryRun, now, repoRoot, cwd).1;
      forall i :: 0 <= i < |queue| ==> os[i].uid == queue[i].id
    decreases |queue|
  {
    if queue != [] {
      var n := |queue| - 1;
      var prefix := ApplyAll(s, queue[..n], runs[..n], dryRun, now, repoRoot, cwd);
      var os := ApplyAll(s, queue, runs, dryRun, now, repoRoot, cwd).1;
      ApplyAllLast(s, queue, runs, dryRun, now, repoRoot, cwd);
      ApplyAllUids(s, queue[..n], runs[..n], dryRun, now, repoRoot, cwd);
      forall i | 0 <= i < |queue| ensures os[i].uid == queue[i].id {
        if i < n {
          assert os[i] == prefix.1[i] && queue[i] == queue[..n][i];
        }
      }
    }
  }

  /** The fold over a non-empty queue ends with the step of its last update. */
  lemma ApplyAllLast(s: AgentState, queue: seq<Update>, runs: seq<SandboxRun>, dryRun: bool, now: int,
                     repoRoot: string, cwd: string)
    requires |runs| == |queue| && queue != []
    ensures var n := |queue| - 1;
            var prefix := ApplyAll(s, queue[..n], runs[..n], dryRun, now, repoRoot, cwd);
            var step := ApplyStep(prefix.0, queue[n], dryRun, runs[n], now, repoRoot, cwd);
            ApplyAll(s, queue, runs, dryRun, now, repoRoot, cwd) == (step.0, prefix.1 + [step.1])
  {
  }

  lemma IdsSnoc(queue: seq<Update>)
    requires queue != []
    ensures Ids(queue) == Ids(queue[..|queue| - 1]) + {queue[|queue| - 1].id}
  {
    var n := |queue| - 1;
    forall x | x in Ids(queue) ensures x in Ids(queue[..n]) + {queue[n].id} {
      var j :| 0 <= j < |queue| && queue[j].id == x;
      if j < n {
        assert queue[..n][j] == queue[j];
      }
    }
    forall x | x in Ids(queue[..n]) ensures x in Ids(queue) {
      var j :| 0 <= j < n && queue[..n][j].id == x;
      assert queue[j] == queue[..n][j];
    }
  }

  lemma {:induction false} WithoutAfterRemove(p: seq<Update>, ids: set<string>, uid: string)
    ensures Without(RemoveIds(p, ids), uid) == RemoveIds(p, ids + {uid})
    decreases |p|
  {
    if p != [] {
      WithoutAfterRemove(p[1..], ids, uid);
      var rest := RemoveIds(p[1..], ids);
      if p[0].id in ids {
        assert RemoveIds(p, ids) == rest;
        assert RemoveIds(p, ids + {uid}) == RemoveIds(p[1..], ids + {uid});
      } else {
        assert RemoveIds(p, ids) == [p[0]] + rest;
        WithoutCons(p[0], rest, uid);
        assert RemoveIds(p, ids + {uid}) == (if p[0].id == uid then [] else [p[0]]) + RemoveIds(p[1..], ids + {uid});
      }
    }
  }

  lemma WithoutCons(x: Update, rest: seq<Update>, uid: string)
    ensures Without([x] + rest, uid) == (if x.id == uid then [] else [x]) + Without(rest, uid)
  {
    assert ([x] + rest)[1..] == rest;
  }

  /** `apply_pending_updates` leaves the queue empty. */
  lemma ApplyPendingDrainsQueue(s: AgentState, runs: seq<SandboxRun>, dryRun: bool, now: int, repoRoot: string, cwd: string)
    requires |runs| == |s.pending|
    ensures ApplyAll(s, s.pending, runs, dryRun, now, repoRoot, cwd).0.pending == []
  {
    ApplyAllDrains(s, s.pending, runs, dryRun, now, repoRoot, cwd);
    RemoveAllIds(s.pending, Ids(s.pending));
  }

  /** Every outcome of applying an update takes it off the queue and keeps the others in order;
      a dry run or a refusal leaves the target and the repository untouched. */
  lemma ApplyStepFrames(s: AgentState, u: Update, dryRun: bool, run: SandboxRun, now: int, repoRoot: string, cwd: string)
    ensures var (t, o) := ApplyStep(s, u, dryRun, run, now, repoRoot, cwd);
      t.pending == Without(s.pending, u.id) && o.uid == u.id
      && |s.log| < |t.log| && t.log[..|s.log|] == s.log
      && (dryRun || !o.ok ==> t.target == s.target && t.files == s.files)
      && (o.ok <==> PeerReview(u).ok && (CodeFile(u).None? || run.ok || (run.retryPatch.Some? && run.retryPatch.value != "")))
    ensures var (t, o) := ApplyStep(s, u, dryRun, run, now, repoRoot, cwd);
      o.ok && !dryRun && WritesFiles(u) && SafeJoinRepo(repoRoot, CodeFile(u).value.0, cwd).Err? ==>
        t.target == s.target && t.files == s.files && o.msg == "applied" && o.status == "apply_failed"
  {
    ApplyStepLogGrows(s, u, dryRun, run, now, repoRoot, cwd);
    ApplyStepRefusalKeeps(s, u, dryRun, run, now, repoRoot, cwd);
  }

  /** `l` is `log` with at least one entry appended. */
  predicate Extends(l: seq<Entry>, log: seq<Entry>) { |log| < |l| && l[..|log|] == log }

  lemma LoggedTwice(log: seq<Entry>, r1: Record, r2: Record, now: int)
    ensures Extends(Logged(log, r1, now), log)
    ensures Extends(Logged(Logged(log, r1, now), r2, now), log)
  {
    var l1 := Logged(log, r1, now);
    assert Logged(l1, r2, now)[..|log|] == l1[..|log|];
  }

  lemma ApplyStepLogGrows(s: AgentState, u: Update, dryRun: bool, run: SandboxRun, now: int, repoRoot: string, cwd: string)
    ensures Extends(ApplyStep(s, u, dryRun, run, now, repoRoot, cwd).0.log, s.log)
  {
    var r1 := Note("sandbox_done", u.id);
    LoggedTwice(s.log, Note("peer_reject", u.id), r1, now);
    forall r2: Record ensures Extends(Logged(Logged(s.log, r1, now), r2, now), s.log) {
      LoggedTwice(s.log, r1, r2, now);
    }
  }

  lemma ApplyStepRefusalKeeps(s: AgentState, u: Update, dryRun: bool, run: SandboxRun, now: int, repoRoot: string, cwd: string)
    ensures var (t, o) := ApplyStep(s, u, dryRun, run, now, repoRoot, cwd);
      (dryRun || !o.ok ==> t.target == s.target && t.files == s.files)
      && (o.ok <==> PeerReview(u).ok && (CodeFile(u).None? || run.ok || (run.retryPatch.Some? && run.retryPatch.value != "")))
  {
  }

  /** Applying a parameter change sets the attribute; rolling it back afterwards restores the
      value it had when the change was proposed and answers true. A second rollback answers
      false, because the newest entry about the update is now the rollback itself. */
  lemma {:induction false} ApplyThenRollback(s: AgentState, u: Update, run: SandboxRun, now: int, repoRoot: string, cwd: string)
    requires u.category == "param_change" && PeerReview(u).ok
    requires CodeFile(u).None? || run.ok
    requires u.attr != "" && !u.oldValue.VNone?
    ensures var (t, o) := ApplyStep(s, u, false, run, now, repoRoot, cwd);
      o == Outcome(u.id, true, "applied", "applied")
      && GetAttr(t.target, u.attr) == u.proposedValue
      && var (w, ok) := Rollback(t, u.id, now);
         ok && GetAttr(w.target, u.attr) == u.oldValue
         && (forall a :: a != u.attr ==> GetAttr(w.target, a) == GetAttr(s.target, a))
         && !Rollback(w, u.id, now).1
         && LatestApplied(w.log).Some? && LatestApplied(w.log).value.rec.updateId == Some(u.id)
  {
    var (t, o) := ApplyStep(s, u, false, run, now, repoRoot, cwd);
    var log1 := Logged(s.log, Note("sandbox_done", u.id), now);
    var applied := u.(status := "applied",
                      proposedCode := if CodeFile(u).Some? && !run.ok then run.retryPatch else u.proposedCode);
    assert t.log == Logged(log1, UpdateRecord("applied", applied), now);
    LatestAfterLog(log1, UpdateRecord("applied", applied), now, u.id);
    var (w, ok) := Rollback(t, u.id, now);
    var rb := Record("rollback", Some(u.id), None, Some(u.attr), VNone);
    assert w.log == Logged(t.log, rb, now);
    LatestAfterLog(t.log, rb, now, u.id);
    assert w.log[..|t.log|] == t.log && t.log[..|log1|] == log1;
  }

  /** An update whose reason mentions `curl` is refused by the peer review, whatever the sandbox
      says, and the target is untouched. */
  lemma SuspiciousReasonIsRejected(s: AgentState, u: Update, dryRun: bool, run: SandboxRun, now: int,
                                   repoRoot: string, cwd: string, i: nat)
    requires !(u.risk == Some("high") && u.approvals < u.requiredApprovals)
    requires i + 4 <= |u.reason| && Lower(u.reason)[i..i + 4] == "curl"
    ensures var (t, o) := ApplyStep(s, u, dryRun, run, now, repoRoot, cwd);
      !o.ok && o.status == "rejected_peer" && t.target == s.target
  {
    ContainsAt(Lower(u.reason), "curl", i);
    assert SuspiciousTokens[2] == "curl";
  }

  // ================================================================ the agent object

  class Agent {
    /** The repository root (already absolute) and the process's working directory. */
    const repoPath: string
    const cwd: string
    const audit: AuditStore
    var pending: seq<Update>
    var target: map<string, Value>
    var files: map<string, string>

    ghost function State(): AgentState
      reads this, audit
    {
      AgentState(pending, target, files, audit.changes)
    }

    constructor (target: map<string, Value>, repoPath: string, cwd: string, audit: AuditStore)
      ensures this.target == target && this.repoPath == repoPath && this.cwd == cwd && this.audit == audit
      ensures pending == [] && files == map[]
    {
      this.target := target;
      this.repoPath := repoPath;
      this.cwd := cwd;
      this.audit := audit;
      pending := [];
      files := map[];
    }

    /** `propose_update`. */
    method ProposeUpdate(attr: string, value: Value, reason: string, risk: Option<string>, category: string,
                         codePath: Option<string>, code: Option<string>, required: int, now: nat, nonce: string)
      returns (uid: string)
      modifies this, audit
      ensures (State(), uid) == Propose(old(State()), attr, value, reason, risk, category, codePath, code, required, now, nonce)
    {
      var u := Update(UpdateId(now, attr, nonce), attr, GetAttr(target, attr), value, reason, risk,
                      category, codePath, code, "pending", 0, required);
      pending := pending + [u];
      audit.Log(UpdateRecord("propose_update", u), now);
      uid := u.id;
    }

    /** `propose_new_module`: refuse unsafe code before anything is queued; otherwise queue a
        `module_add` update for the file. */
    method ProposeNewModule(code: string, codePath: string, reason: string, required: int, risk: Option<string>,
                            now: nat, nonce: string) returns (r: Result<string, string>)
      modifies this, audit
      ensures !ScanVerdict(code).ok ==> r == Err("unsafe code: " + ScanVerdict(code).reason) && State() == old(State())
      ensures ScanVerdict(code).ok ==>
        r.Ok? && (State(), r.value) == Propose(old(State()), "module_add", VStr("ADD:" + codePath), reason, risk,
                                              "module_add", Some(codePath), Some(code), required, now, nonce)
    {
      var ok, why := CodeIsSafe(code);
      if !ok {
        return Err("unsafe code: " + why);
      }
      var uid := ProposeUpdate("module_add", VStr("ADD:" + codePath), reason, risk, "module_add",
                               Some(codePath), Some(code), required, now, nonce);
      return Ok(uid);
    }

    /** `approve_update`: scans the queue for the first update with the id. */
    method ApproveUpdate(uid: string, now: int) returns (found: bool)
      modifies this, audit
      ensures (State(), found) == Approve(old(State()), uid, now)
    {
      var i := 0;
      while i < |pending|
        invariant 0 <= i <= |pending|
        invariant forall j :: 0 <= j < i ==> pending[j].id != uid
        invariant State() == old(State())
      {
        if pending[i].id == uid {
          assert FirstWithId(pending, uid) == i;
          pending := pending[i := pending[i].(approvals := pending[i].approvals + 1)];
          audit.Log(Record("approve_update", Some(uid), None, None, VNone), now);
          return true;
        }
        i := i + 1;
      }
      return false;
    }

    /** `_remove_pending`. */
    method RemovePending(uid: string)
      modifies this
      ensures pending == Without(old(pending), uid)
      ensures target == old(target) && files == old(files)
    {
      pending := Without(pending, uid);
    }

    /** `apply_single_update`. */
    method ApplySingleUpdate(u: Update, dryRun: bool, run: SandboxRun, now: int) returns (o: Outcome)
      modifies this, audit
      ensures (State(), o) == ApplyStep(old(State()), u, dryRun, run, now, repoPath, cwd)
    {
      var uid := u.id;
      var review := PeerReview(u);
      if !review.ok {
        audit.Log(Note("peer_reject", uid), now);
        RemovePending(uid);
        return Outcome(uid, false, "peer_reject: " + review.reason, "rejected_peer");
      }
      var codeFile := CodeFile(u);
      audit.Log(Note("sandbox_done", uid), now);
      var current := u;
      if codeFile.Some? && !run.ok {
        if run.retryPatch.Some? && run.retryPatch.value != "" {
          current := current.(proposedCode := run.retryPatch);
        } else {
          audit.Log(Note("sandbox_fail", uid), now);
          RemovePending(uid);
          return Outcome(uid, false, "sandbox_failed", "sandbox_failed");
        }
      }
      if !dryRun {
        var status := CommitUpdate(u, run, current, now);
        RemovePending(uid);
        return Outcome(uid, true, "applied", status);
      }
      audit.Log(Note("simulated", uid), now);
      RemovePending(uid);
      return Outcome(uid, true, "simulated", "simulated");
    }

    /** The `if not dry_run` block of `apply_single_update`. */
    method CommitUpdate(u: Update, run: SandboxRun, current: Update, now: int) returns (status: string)
      requires current == u.(proposedCode := if CodeFile(u).Some? && !run.ok then run.retryPatch else u.proposedCode)
      modifies this, audit
      ensures (State(), status) == Commit(old(State()), u, run, now, repoPath, cwd)
    {
      if u.category == "param_change" {
        target := target[u.attr := u.proposedValue];
      }
      var codeFile := CodeFile(u);
      var failed := false;
      if (u.category == "module_add" || u.category == "code_patch") && codeFile.Some? {
        var (path, content) := codeFile.value;
        var fpath := SafeJoinRepo(repoPath, path, cwd);
        if fpath.Err? {
          failed := true;
        } else {
          files := files[fpath.value := content];
        }
      }
      if failed {
        audit.Log(Note("apply_failed", u.id), now);
        status := "apply_failed";
      } else {
        audit.Log(UpdateRecord("applied", current.(status := "applied")), now);
        status := "applied";
      }
    }

    /** `apply_pending_updates`: a snapshot of the queue, applied in order. */
    method ApplyPendingUpdates(dryRun: bool, runs: seq<SandboxRun>, now: int) returns (results: seq<Outcome>)
      requires |runs| == |pending|
      modifies this, audit
      ensures (State(), results) == ApplyAll(old(State()), old(pending), runs, dryRun, now, repoPath, cwd)
    {
      var queue := pending;
      results := [];
      assert queue[..0] == [] && runs[..0] == [];
      for i := 0 to |queue|
        invariant (State(), results) == ApplyAll(old(State()), queue[..i], runs[..i], dryRun, now, repoPath, cwd)
      {
        ApplyAllExtend(old(State()), queue, runs, i, dryRun, now, repoPath, cwd);
        var o := ApplySingleUpdate(queue[i], dryRun, runs[i], now);
        results := results + [o];
      }
      assert queue[..|queue|] == queue && runs[..|queue|] == runs;
    }

    /** `last_applied`: scans the log from the newest entry back for one whose status is
        `applied`. */
    method LastApplied() returns (e: Option<Entry>)
      ensures e == LatestApplied(audit.changes)
    {
      var log := audit.changes;
      var i := |log|;
      assert log[..i] == log;
      while i > 0
        invariant 0 <= i <= |log|
        invariant LatestApplied(log) == LatestApplied(log[..i])
      {
        assert log[..i][..i - 1] == log[..i - 1];
        if log[i - 1].rec.status == Some("applied") {
          return Some(log[i - 1]);
        }
        i := i - 1;
      }
      return None;
    }

    /** `rollback_update`. */
    method RollbackUpdate(uid: string, now: int) returns (ok: bool)
      modifies this, audit
      ensures (State(), ok) == Rollback(old(State()), uid, now)
    {
      var ent := audit.Get(uid);
      if ent.None? || ent.value.rec.status != Some("applied") {
        return false;
      }
      var rec := ent.value.rec;
      if rec.attr.Some? && rec.attr.value != "" && !rec.oldValue.VNone? {
        target := target[rec.attr.value := rec.oldValue];
        audit.Log(Record("rollback", Some(uid), None, rec.attr, VNone), now);
        return true;
      }
      return false;
    }
  }
}

=== FILE: teacher.dfy ===
/** The teaching endpoint: a teacher with the API key names the concept an embedding belongs
    to, which assigns it a prototype, links that prototype to a concept with the label, and
    relates the concept to others. */
module Teaching {
  import opened Wrappers
  import opened Text
  import opened VectorStore
  import opened Prototypes
  import opened Concepts

  /** One entry of `relations`: the other concept, the relation type and an optional weight. */
  datatype Relation = Relation(to: string, relType: string, weight: Option<real>)

  datatype TeachReply =
    | Learned(conceptId: string, protoId: string)
    | Forbidden                     // `{"error": "Forbidden", "code": 403}`
    | AssignFailed(reason: string)  // the exception `assign` raises

  const ApiKeyHeader: string := "X-API-KEY"

  /** `not headers or headers.get("X-API-KEY") != api_key` fails: headers are present, not empty,
      and carry the key. */
  predicate Authorized(headers: Option<map<string, string>>, apiKey: string)
  {
    headers.Some? && headers.value != map[] && ApiKeyHeader in headers.value && headers.value[ApiKeyHeader] == apiKey
  }

  // ---------------------------------------------------------------- headers over HTTP

  /** The headers the `/teacher/teach` endpoint forwards, `dict(request.headers)`: the raw
      name/value pairs in order, with every name lower-cased by the HTTP layer; a repeated
      name keeps its first value, the one a lookup of that name returns. */
  function ForwardedHeaders(raw: seq<(string, string)>): (h: map<string, string>)
    ensures forall i :: 0 <= i < |raw| ==> Lower(raw[i].0) in h
  {
    if raw == [] then map[]
    else
      var init := raw[..|raw| - 1];
      assert forall i :: 0 <= i < |init| ==> init[i] == raw[i];
      var h := ForwardedHeaders(init);
      var name := Lower(raw[|raw| - 1].0);
      if name in h then h else h[name := raw[|raw| - 1].1]
  }

  /** Every forwarded name is lower-case. */
  lemma {:induction false} ForwardedNamesLower(raw: seq<(string, string)>, k: string)
    requires k in ForwardedHeaders(raw)
    ensures Lower(k) == k
    decreases |raw|
  {
    if k in ForwardedHeaders(raw[..|raw| - 1]) {
      ForwardedNamesLower(raw[..|raw| - 1], k);
    } else {
      LowerIdempotent(raw[|raw| - 1].0);
    }
  }

  /** Every forwarded value came from a raw header of that name. */
  lemma {:induction false} ForwardedFromRaw(raw: seq<(string, string)>, k: string) returns (i: nat)
    requires k in ForwardedHeaders(raw)
    ensures i < |raw| && Lower(raw[i].0) == k && raw[i].1 == ForwardedHeaders(raw)[k]
    decreases |raw|
  {
    var init := raw[..|raw| - 1];
    if k in ForwardedHeaders(init) {
      i := ForwardedFromRaw(init, k);
      assert raw[i] == init[i];
    } else {
      i := |raw| - 1;
    }
  }

  /** A name no raw header lower-cases to is not forwarded. */
  lemma {:induction false} UnsentNameAbsent(raw: seq<(string, string)>, name: string)
    requires forall j :: 0 <= j < |raw| ==> Lower(raw[j].0) != name
    ensures name !in ForwardedHeaders(raw)
    decreases |raw|
  {
    if raw != [] {
      var init := raw[..|raw| - 1];
      forall j | 0 <= j < |init| ensures Lower(init[j].0) != name {
        assert init[j] == raw[j];
      }
      UnsentNameAbsent(init, name);
    }
  }

  /** The forwarded value of a name is the one of its first occurrence. */
  lemma {:induction false} FirstNameWins(raw: seq<(string, string)>, name: string, i: nat)
    requires i < |raw| && Lower(raw[i].0) == name
    requires forall j :: 0 <= j < i ==> Lower(raw[j].0) != name
    ensures ForwardedHeaders(raw)[name] == raw[i].1
    decreases |raw|
  {
    var init := raw[..|raw| - 1];
    forall j | 0 <= j < i && j < |init| ensures Lower(init[j].0) != name {
      assert init[j] == raw[j];
    }
    if i < |raw| - 1 {
      assert init[i] == raw[i];
      FirstNameWins(init, name, i);
    } else {
      UnsentNameAbsent(init, name);
    }
  }

  /** The name under which the forwarded headers hold the key. */
  const ForwardedKeyName := "x-api-key"

  /** The header name as written has capitals, so no lower-cased name equals it. */
  lemma ApiKeyHeaderNotLower()
    ensures Lower(ApiKeyHeader) != ApiKeyHeader && Lower(ApiKeyHeader) == ForwardedKeyName
  {
    LowerOf(ApiKeyHeader, ForwardedKeyName);
  }

  /** As written, a request through the endpoint is always refused: the forwarded names are
      lower-case and the teacher looks up "X-API-KEY", whatever key the request carries. */
  lemma TeachOverHttpForbidden(raw: seq<(string, string)>, apiKey: string)
    ensures !Authorized(Some(ForwardedHeaders(raw)), apiKey)
  {
    ApiKeyHeaderNotLower();
    if ApiKeyHeader in ForwardedHeaders(raw) {
      ForwardedNamesLower(raw, ApiKeyHeader);
    }
  }

  /** The intended check: the key header looked up under its lower-cased name. */
  predicate AuthorizedAnyCase(headers: Option<map<string, string>>, apiKey: string)
  {
    headers.Some? && ForwardedKeyName in headers.value && headers.value[ForwardedKeyName] == apiKey
  }

  /** With that lookup, a request whose first header named X-API-KEY, in any case, carries the
      key is accepted. */
  lemma ForwardedKeyAccepted(raw: seq<(string, string)>, apiKey: string, i: nat)
    requires i < |raw| && Lower(raw[i].0) == ForwardedKeyName && raw[i].1 == apiKey
    requires forall j :: 0 <= j < i ==> Lower(raw[j].0) != ForwardedKeyName
    ensures AuthorizedAnyCase(Some(ForwardedHeaders(raw)), apiKey)
  {
    FirstNameWins(raw, ForwardedKeyName, i);
  }

  /** A wrong key sent first is the one forwarded, so a right key repeated after it does not
      get through. */
  lemma RepeatedKeyHeaderFirstWins(key: string)
    requires key != "wrong"
    ensures !AuthorizedAnyCase(Some(ForwardedHeaders([(ApiKeyHeader, "wrong"), (ForwardedKeyName, key)])), key)
  {
    ApiKeyHeaderNotLower();
    FirstNameWins([(ApiKeyHeader, "wrong"), (ForwardedKeyName, key)], ForwardedKeyName, 0);
  }

  /** ... and an accepted request carried the key under that name. */
  lemma ForwardedKeyCarried(raw: seq<(string, string)>, apiKey: string)
    requires AuthorizedAnyCase(Some(ForwardedHeaders(raw)), apiKey)
    ensures exists i :: 0 <= i < |raw| && Lower(raw[i].0) == ForwardedKeyName && raw[i].1 == apiKey
  {
    var i := ForwardedFromRaw(raw, ForwardedKeyName);
  }

  /** `rel.get("weight", 1.0)`. */
  function WeightOr(w: Option<real>): real { if w.Some? then w.value else 1.0 }

  /** `if relations:` — absent and empty both relate nothing. */
  function RelationsOr(relations: Option<seq<Relation>>): seq<Relation>
  {
    if relations.Some? then relations.value else []
  }

  /** The graph after relating `cid` to each relation's target, in order. */
  function RelateAll(g: Graph, cid: string, rels: seq<Relation>): (r: Graph)
    ensures WellFormed(g) ==> WellFormed(r)
  {
    if rels == [] then g
    else
      var last := rels[|rels| - 1];
      Related(RelateAll(g, cid, rels[..|rels| - 1]), cid, last.to, last.relType, WeightOr(last.weight))
  }

  /** The targets of the relations. */
  function Targets(rels: seq<Relation>): set<string>
  {
    set i | 0 <= i < |rels| :: rels[i].to
  }

  /** After the relations, the concept and every target are nodes and each target has an edge
      to the concept. */
  lemma {:induction false} RelateAllLinks(g: Graph, cid: string, rels: seq<Relation>)
    ensures var r := RelateAll(g, cid, rels);
      (rels != [] ==> cid in r.data)
      && forall i :: 0 <= i < |rels| ==> rels[i].to in r.data && {cid, rels[i].to} in r.edges
    decreases |rels|
  {
    if rels != [] {
      var init := rels[..|rels| - 1];
      RelateAllLinks(g, cid, init);
      var prev := RelateAll(g, cid, init);
      var last := rels[|rels| - 1];
      var r := Related(prev, cid, last.to, last.relType, WeightOr(last.weight));
      forall i | 0 <= i < |rels|
        ensures rels[i].to in r.data && {cid, rels[i].to} in r.edges
      {
        if i < |init| {
          assert rels[i] == init[i];
          assert {cid, init[i].to} in prev.edges;
        }
      }
    }
  }

  /** Relating changes no node that was there, and adds no node besides the concept and the
      targets. */
  lemma {:induction false} RelateAllFrames(g: Graph, cid: string, rels: seq<Relation>)
    ensures var r := RelateAll(g, cid, rels);
      (forall k :: k in g.data ==> k in r.data && r.data[k] == g.data[k])
      && r.data.Keys <= g.data.Keys + {cid} + Targets(rels)
    decreases |rels|
  {
    if rels != [] {
      var init := rels[..|rels| - 1];
      RelateAllFrames(g, cid, init);
      assert Targets(init) <= Targets(rels) by {
        forall k | k in Targets(init) ensures k in Targets(rels) {
          var i :| 0 <= i < |init| && init[i].to == k;
          assert rels[i] == init[i];
        }
      }
      assert rels[|rels| - 1].to in Targets(rels);
    }
  }

  /** The last relation to a target sets the edge's type and weight. */
  lemma LastRelationWins(g: Graph, cid: string, rels: seq<Relation>, rel: Relation)
    ensures RelateAll(g, cid, rels + [rel]).edges[{cid, rel.to}] == Edge(rel.relType, WeightOr(rel.weight))
  {
    assert (rels + [rel])[..|rels|] == rels;
  }

  class TeacherApi {
    const cg: ConceptGraph
    const pm: ProtoMemory
    const apiKey: string

    ghost predicate Valid()
      reads this, cg, pm, pm.store
    {
      cg.Valid() && pm.Valid()
    }

    constructor (cg: ConceptGraph, pm: ProtoMemory, apiKey: string)
      requires cg.Valid() && pm.Valid()
      ensures Valid() && this.cg == cg && this.pm == pm && this.apiKey == apiKey
    {
      this.cg := cg;
      this.pm := pm;
      this.apiKey := apiKey;
    }

    /** `teach`: `hits`/`sims` are the index's answer for the embedding and `now` the clock. The
        prototype is assigned with the taught meta, the concept linked with the label as its
        only label and the default confidence, then related to each target. */
    method Teach(conceptLabel: string, embedding: seq<real>, norm: real, modality: string, relations: Option<seq<Relation>>,
                 headers: Option<map<string, string>>, hits: seq<int>, sims: seq<real>, now: int)
      returns (reply: TeachReply)
      requires Valid() && IsNorm(embedding, norm)
      modifies cg, pm, pm.store
      ensures Valid()
      ensures !Authorized(headers, apiKey) ==>
        reply == Forbidden && cg.State() == old(cg.State()) && pm.protos == old(pm.protos)
        && pm.store.idsMap == old(pm.store.idsMap) && pm.store.nextId == old(pm.store.nextId)
        && pm.store.indexIds == old(pm.store.indexIds)
      ensures Authorized(headers, apiKey) ==>
        var a := AssignOutcome(old(pm.protos), MapHits(old(pm.store.idsMap), hits), sims, pm.threshold,
                               Normalize(embedding, norm), modality, Taught(conceptLabel), now);
        pm.protos == a.protos
        && (a.created ==> pm.store.idsMap == Put(old(pm.store.idsMap), old(pm.store.nextId), a.id.value)
                          && pm.store.indexIds == old(pm.store.indexIds) + {old(pm.store.nextId)}
                          && pm.store.nextId == old(pm.store.nextId) + 1)
        && (!a.created ==> pm.store.idsMap == old(pm.store.idsMap) && pm.store.indexIds == old(pm.store.indexIds)
                           && pm.store.nextId == old(pm.store.nextId))
        && (a.id.Err? ==> reply == AssignFailed(a.id.error) && cg.State() == old(cg.State()))
        && (a.id.Ok? ==>
              var (g, cid) := Linked(old(cg.State()), a.id.value, Some([conceptLabel]), 0.5, now);
              reply == Learned(cid, a.id.value) && cg.State() == RelateAll(g, cid, RelationsOr(relations)))
    {
      if !Authorized(headers, apiKey) {
        return Forbidden;
      }
      var protoId := pm.Assign(embedding, norm, modality, Taught(conceptLabel), hits, sims, now);
      if protoId.Err? {
        return AssignFailed(protoId.error);
      }
      var conceptId := cg.Link(protoId.value, Some([conceptLabel]), 0.5, now);
      RelateEach(cg, conceptId, RelationsOr(relations));
      reply := Learned(conceptId, protoId.value);
    }
  }

  /** The `for rel in relations` loop of `teach`: each relation becomes an edge, in order. */
  method RelateEach(cg: ConceptGraph, conceptId: string, rels: seq<Relation>)
    requires cg.Valid()
    modifies cg
    ensures cg.Valid()
    ensures cg.State() == RelateAll(old(cg.State()), conceptId, rels)
  {
    ghost var linked := cg.State();
    for i := 0 to |rels|
      invariant cg.Valid()
      invariant cg.State() == RelateAll(linked, conceptId, rels[..i])
    {
      assert rels[..i + 1][..i] == rels[..i];
      cg.AddRelation(conceptId, rels[i].to, rels[i].relType, WeightOr(rels[i].weight));
    }
    assert rels[..|rels|] == rels;
  }

  /** Teaching a prototype that a concept already refers to records nothing new on that
      concept: its labels stay as they were, whatever label was taught. */
  lemma TeachKeepsExistingLabels(g: Graph, protoId: string, conceptLabel: string, now: int)
    requires WellFormed(g) && FindRef(g.order, g.data, protoId).Some?
    ensures var (h, cid) := Linked(g, protoId, Some([conceptLabel]), 0.5, now);
      cid in g.data && Labels(h.data[cid]) == Labels(g.data[cid]) && |h.order| == |g.order|
  {
    LinkSpec(g, protoId, Some([conceptLabel]), 0.5, now);
  }

  /** A prototype no concept refers to yet gets a new concept carrying exactly the taught conceptLabel. */
  lemma TeachNewConceptLabel(g: Graph, protoId: string, conceptLabel: string, now: int)
    requires WellFormed(g) && FindRef(g.order, g.data, protoId).None?
    ensures var (h, cid) := Linked(g, protoId, Some([conceptLabel]), 0.5, now);
      cid !in g.data && h.data[cid] == Attrs([protoId], [conceptLabel], 0.5, now) && |h.order| == |g.order| + 1
  {
    LinkSpec(g, protoId, Some([conceptLabel]), 0.5, now);
  }
}

=== FILE: text.dfy ===
/** String helpers shared by the modules: the prefix, suffix and substring tests, ASCII case
    folding and white-space stripping, `split`/`join` on one separator, and the decimal
    rendering that the zero-padded identifiers use. */
module Text {

  predicate StartsWith(s: string, p: string) { |p| <= |s| && s[..|p|] == p }

  predicate EndsWith(s: string, p: string) { |p| <= |s| && s[|s| - |p|..] == p }

  /** `sub` occurs somewhere in `s` (JavaScript `includes`, Python `in`). */
  predicate Contains(s: string, sub: string)
    decreases |s|
  {
    StartsWith(s, sub) || (|s| > 0 && Contains(s[1..], sub))
  }

  lemma {:induction false} ContainsAt(s: string, sub: string, i: nat)
    requires i + |sub| <= |s| && s[i..i + |sub|] == sub
    ensures Contains(s, sub)
    decreases i
  {
    if i > 0 {
      assert s[1..][i - 1..i - 1 + |sub|] == sub;
      ContainsAt(s[1..], sub, i - 1);
    }
  }

  lemma {:induction false} ContainsWitness(s: string, sub: string) returns (i: nat)
    requires Contains(s, sub)
    ensures i + |sub| <= |s| && s[i..i + |sub|] == sub
    decreases |s|
  {
    if StartsWith(s, sub) {
      i := 0;
    } else {
      var j := ContainsWitness(s[1..], sub);
      i := j + 1;
      assert s[i..i + |sub|] == s[1..][j..j + |sub|];
    }
  }

  function LowerChar(c: char): char { if 'A' <= c <= 'Z' then (c as int + 32) as char else c }

  /** Lower-casing, on ASCII letters only. */
  function Lower(s: string): (r: string)
    ensures |r| == |s|
    ensures forall i :: 0 <= i < |s| ==> r[i] == LowerChar(s[i])
  {
    if s == [] then [] else [LowerChar(s[0])] + Lower(s[1..])
  }

  /** Lower-casing twice changes nothing more. */
  lemma LowerIdempotent(s: string)
    ensures Lower(Lower(s)) == Lower(s)
  {
    assert forall i :: 0 <= i < |s| ==> Lower(Lower(s))[i] == Lower(s)[i];
  }

  /** `l` is the lower-casing of `s` when it is, character by character. */
  lemma LowerOf(s: string, l: string)
    requires |s| == |l| && forall i :: 0 <= i < |s| ==> LowerChar(s[i]) == l[i]
    ensures Lower(s) == l
  {
  }

  /** The ASCII characters Python's `str.isspace` accepts, which `str.strip` and `float` remove:
      tab, line feed, vertical tab, form feed, carriage return, the four separators 0x1C-0x1F,
      and space. */
  predicate IsSpace(c: char)
  {
    c == ' ' || ('\t' <= c <= '\r') || ('\U{001C}' <= c <= '\U{001F}')
  }

  function StripLeft(s: string): (r: string)
    ensures |r| <= |s| && r == s[|s| - |r|..]
    ensures r == [] || !IsSpace(r[0])
    ensures forall i :: 0 <= i < |s| - |r| ==> IsSpace(s[i])
  {
    if s != [] && IsSpace(s[0]) then StripLeft(s[1..]) else s
  }

  function StripRight(s: string): (r: string)
    ensures |r| <= |s| && r == s[..|r|]
    ensures r == [] || !IsSpace(r[|r| - 1])
    ensures forall i :: |r| <= i < |s| ==> IsSpace(s[i])
  {
    if s != [] && IsSpace(s[|s| - 1]) then StripRight(s[..|s| - 1]) else s
  }

  function Strip(s: string): string { StripRight(StripLeft(s)) }

  /** A string without white space at either end is its own strip. */
  lemma StripUnchanged(s: string)
    requires s == [] || (!IsSpace(s[0]) && !IsSpace(s[|s| - 1]))
    ensures Strip(s) == s
  {
  }

  /** A string without ASCII capitals is its own lower-casing. */
  lemma LowerUnchanged(s: string)
    requires forall i :: 0 <= i < |s| ==> !('A' <= s[i] <= 'Z')
    ensures Lower(s) == s
  {
  }

  /** Python `s.split(sep)` for a one-character separator: never empty, one more part than
      there are separators. */
  function Split(s: string, sep: char): (parts: seq<string>)
    ensures |parts| >= 1
    ensures forall k :: 0 <= k < |parts| ==> sep !in parts[k]
  {
    if s == [] then [""]
    else if s[0] == sep then [""] + Split(s[1..], sep)
    else
      var rest := Split(s[1..], sep);
      [[s[0]] + rest[0]] + rest[1..]
  }

  /** `sep.join(parts)`. */
  function Join(parts: seq<string>, sep: char): string
  {
    if parts == [] then ""
    else if |parts| == 1 then parts[0]
    else parts[0] + [sep] + Join(parts[1..], sep)
  }

  /** Splitting and joining again on the same separator gives back the string. */
  lemma {:induction false} JoinSplit(s: string, sep: char)
    ensures Join(Split(s, sep), sep) == s
    decreases |s|
  {
    if s == [] {
    } else if s[0] == sep {
      JoinSplit(s[1..], sep);
      var rest := Split(s[1..], sep);
      assert Split(s, sep) == [""] + rest;
      assert Join([""] + rest, sep) == "" + [sep] + Join(rest, sep);
    } else {
      JoinSplit(s[1..], sep);
      var rest := Split(s[1..], sep);
      var parts := [[s[0]] + rest[0]] + rest[1..];
      assert Split(s, sep) == parts;
      if |rest| == 1 {
        assert Join(parts, sep) == [s[0]] + rest[0];
      } else {
        assert parts[1..] == rest[1..];
        assert Join(rest, sep) == rest[0] + [sep] + Join(rest[1..], sep);
        assert Join(parts, sep) == [s[0]] + rest[0] + [sep] + Join(rest[1..], sep);
      }
    }
  }

  lemma {:induction false} SplitNoSeparator(s: string, sep: char)
    requires sep !in s
    ensures Split(s, sep) == [s]
    decreases |s|
  {
    if s != [] {
      SplitNoSeparator(s[1..], sep);
      assert [s[0]] + s[1..] == s;
    }
  }

  lemma {:induction false} SplitAtSeparator(a: string, sep: char, b: string)
    requires sep !in a
    ensures Split(a + [sep] + b, sep) == [a] + Split(b, sep)
    decreases |a|
  {
    var s := a + [sep] + b;
    if a == [] {
      assert s[1..] == b;
    } else {
      assert s[1..] == a[1..] + [sep] + b;
      SplitAtSeparator(a[1..], sep, b);
      assert [a[0]] + a[1..] == a;
    }
  }

  /** Joining parts that do not contain the separator and splitting again gives the parts back. */
  lemma {:induction false} SplitJoin(parts: seq<string>, sep: char)
    requires |parts| >= 1 && forall k :: 0 <= k < |parts| ==> sep !in parts[k]
    ensures Split(Join(parts, sep), sep) == parts
    decreases |parts|
  {
    if |parts| == 1 {
      SplitNoSeparator(parts[0], sep);
    } else {
      SplitJoin(parts[1..], sep);
      SplitAtSeparator(parts[0], sep, Join(parts[1..], sep));
    }
  }

  // ---------------------------------------------------------------- decimal numbers

  predicate IsDigit(c: char) { '0' <= c <= '9' }

  function DigitChar(d: nat): char
    requires d < 10
  {
    ('0' as int + d) as char
  }

  function DigitValue(c: char): nat
    requires IsDigit(c)
  {
    c as int - '0' as int
  }

  /** Decimal rendering of a natural number, without leading zeros. */
  function Digits(n: nat): (s: string)
    ensures 1 <= |s|
    ensures forall i :: 0 <= i < |s| ==> IsDigit(s[i])
    decreases n
  {
    if n < 10 then [DigitChar(n)] else Digits(n / 10) + [DigitChar(n % 10)]
  }

  /** The value of a string of decimal digits (leading zeros allowed). */
  function ParseNat(s: string): nat
    requires forall i :: 0 <= i < |s| ==> IsDigit(s[i])
    decreases |s|
  {
    if s == [] then 0 else 10 * ParseNat(s[..|s| - 1]) + DigitValue(s[|s| - 1])
  }

  function Zeros(k: nat): (s: string)
    ensures |s| == k && forall i :: 0 <= i < k ==> s[i] == '0'
  {
    if k == 0 then "" else "0" + Zeros(k - 1)
  }

  /** Python `f"{n:05d}"`: at least five digits, zero-padded on the left. */
  function Pad5(n: nat): (s: string)
    ensures |s| >= 5
    ensures forall i :: 0 <= i < |s| ==> IsDigit(s[i])
  {
    var d := Digits(n);
    (if |d| < 5 then Zeros(5 - |d|) else "") + d
  }

  lemma {:induction false} ParseDigits(n: nat)
    ensures ParseNat(Digits(n)) == n
    decreases n
  {
    if n >= 10 {
      ParseDigits(n / 10);
      var s := Digits(n);
      assert s[..|s| - 1] == Digits(n / 10);
    }
  }

  lemma {:induction false} ParseLeadingZeros(k: nat, d: string)
    requires forall i :: 0 <= i < |d| ==> IsDigit(d[i])
    ensures forall i :: 0 <= i < |Zeros(k) + d| ==> IsDigit((Zeros(k) + d)[i])
    ensures ParseNat(Zeros(k) + d) == ParseNat(d)
    decreases |d| + k
  {
    var s := Zeros(k) + d;
    if d == [] {
      assert s == Zeros(k);
      if k > 0 {
        assert s[..|s| - 1] == Zeros(k - 1) + [];
        ParseLeadingZeros(k - 1, []);
      }
    } else {
      var d' := d[..|d| - 1];
      assert s[..|s| - 1] == Zeros(k) + d';
      ParseLeadingZeros(k, d');
    }
  }

  /** Reading back a zero-padded number gives the number. */
  lemma Pad5RoundTrip(n: nat)
    ensures ParseNat(Pad5(n)) == n
  {
    var d := Digits(n);
    ParseDigits(n);
    if |d| < 5 {
      ParseLeadingZeros(5 - |d|, d);
    } else {
      assert Pad5(n) == d;
    }
  }

  /** Distinct numbers give distinct padded renderings. */
  lemma Pad5Injective(m: nat, n: nat)
    requires Pad5(m) == Pad5(n)
    ensures m == n
  {
    Pad5RoundTrip(m);
    Pad5RoundTrip(n);
  }
}

=== FILE: wrappers.dfy ===
/** Optional values and results with an error, the two shapes the JavaScript `null` and the
    Python exception paths of the modelled code take here. */
module Wrappers {
  datatype Option<T> = None | Some(value: T)

  datatype Result<T, E> = Ok(value: T) | Err(error: E)

  function Min(a: int, b: int): int { if a <= b then a else b }

  function Max(a: int, b: int): int { if a >= b then a else b }
}
